=== FILE: README.md ===
# Decision helper — a verified model of its state logic

The decision helper is a single-page tool. You list two to twenty
**options** and one to twenty **criteria**, each criterion with a weight
from 1 to 5. You rate every option against every criterion from 1 to 5. The
tool then ranks the options by their weighted score, names the winners and
gives the top reasons for each winner. The whole decision is one `state`
object: a title, the options, the criteria, a `ratings` dictionary keyed by
`"<optionId>:<criterionId>"`, and an `updatedAt` stamp. It is saved to local
storage as versioned JSON and sanitized when it is loaded back.

This project models the logic in `script.js` that decides what the state
may be and how it changes:

- **The load-time sanitizer** (`sanitizeV1State`, `sanitizeOptions`,
  `sanitizeCriteria`, `sanitizeRatings`, `uniqueName`, `clampInt`) and the
  decision part of `loadInitialState`. Their loops are Dafny methods with
  loop invariants, proved against specification functions. The sanitizer
  modelled here is the code with two repairs it evidently intends (see
  Findings): a stored id that is repeated or contains `:` is replaced, and
  a rating key with more than one `:` is dropped. For that sanitizer a
  payload comes back unchanged and "not repaired" exactly when it is
  clean, and the result is always a valid state. `script.js` itself keeps
  repeated and `:`-containing ids and extra-colon keys without repair, so
  on such payloads it differs from the model. The lemmas
  `Sanitize.ChooseIdMatchesAsWritten` and
  `Sanitize.KeepsRatingMatchesAsWritten` show that these are the only
  inputs where the id rule and the rating test differ. A valid state
  written out by `serializeState` loads back as the same state, with no
  repairs.
- **The editing handlers** (add, rename, delete, note, weight, title,
  rating, reset and `registerMutation`). These are methods of the class
  `App.DecisionHelper`, whose fields the handlers update in place. Every
  handler keeps the state valid, and each states its whole new state.
- **The results** (`readRating`, `computeMetrics`, the zero-tie test and
  `getTopReasons`). These are pure functions, with lemmas about scores,
  ranking order, winners and reasons.

A *valid* state (`Model.ValidState`) has:
- 2..20 options and 1..20 criteria;
- names that are trimmed, non-empty and at most 60 (option) or 40
  (criterion) characters long;
- names that stay distinct after case folding;
- distinct ids that are non-empty and contain no `:`;
- weights in 1..5 and notes of at most 500 characters;
- ratings only for live option/criterion pairs, with values in 1..5.

Modules, one per file: `Text` (trim, slice, case folding, decimal numerals),
`Json` (the parsed JSON value, `parseInt`, `clampInt`), `Model` (entities,
validity, rating keys, serialization), `Names` (unique and next names, name
validation), `Sanitize`, `Load`, `Sorting` (the comparator-based sorts as a
lexicographic key), `Scoring`, `App` and `Findings`. `Wrappers` holds the
option type `Maybe`.

## Model

| member | source | states |
|---|---|---|
| Model.CreateOption | script.js:108-115 | The new option has the given id and creation time and an empty note. Its name is the given name when that fits in 60 characters, and otherwise exactly its first 60 characters. |
| Model.CreateCriterion | script.js:117-124 | The new criterion has the given id and time, and a weight clamped into 1..5 (unchanged when already in range). Its name is the given name when that fits in 40 characters, and otherwise exactly its first 40 characters. |
| Model.DefaultState | script.js:89-105 | The default decision is valid: empty title, no ratings, two options and three criteria, stamped with the clock. |
| Model.RatingKeyInjective | script.js:1256-1258 | For colon-free ids, distinct option/criterion pairs get distinct rating keys. |
| Model.ParseRatingKey | script.js:1256-1258 | Reading back the key of a colon-free pair gives that pair. |
| Model.KeyOfParsedKey | script.js:1256-1258 | Every key that reads back as a pair is exactly that pair's key, and the pair is colon-free. |
| Model.PrefixSelectsOption | script.js:724-731 | For a colon-free pair, the key starts with `optionId:` iff the pair belongs to that option. |
| Model.SuffixSelectsCriterion | script.js:733-740 | For a colon-free pair, the key ends with `:criterionId` iff the pair belongs to that criterion. |
| Model.RatingsJson | script.js:1180-1203 | The serialized ratings object has one numeric entry per persisted rating, under its key, and every entry it has is such a rating. |
| Json.ClampInt | script.js:1276-1283 | A failed parse gives the minimum. Any other value lands in [min, max]: unchanged inside the range, the nearer bound outside it. |
| Json.ClampIntKeepsInteger | script.js:1276-1283 | An integer already in range passes through `parseInt` and the clamp unchanged, for bounds below 1e21 in magnitude. |
| Json.ParseIntTextStopsAtComma | script.js:1277 | `parseInt` reads nothing past a `,`, so an array is parsed as its first element's text. |
| Json.LeadDigitScale | script.js:1277 | The first significant digit that `parseInt` reads from a number in exponent notation does not change when the number is scaled by 10. |
| Json.PowerLeadDigit | script.js:1277 | Every power of ten prints with first digit 1. |
| Json.ParseIntPrintedForms | script.js:1277 | A stored 1e21 parses as 1, 5e-7 as 5, `[4]` as 4, and `[]` and `[null, 4]` as NaN, as `String()` followed by `parseInt` gives. |
| Names.UniqueName | script.js:401-415 | Returns a non-empty name whose folded form is not yet used. It is the base name when that is free, otherwise the first free `base (k)` attempt. It is at most the length limit and trimmed when the raw name fits. The used set gains exactly the new folded name. |
| Names.StoppingAttempt | script.js:405-413 | When attempts 2..k-1 are all taken, k is at most the number of used names plus 2 and attempt k fits the length limit, so the loop stops. |
| Names.CandidateFoldInjective | script.js:409-411 | Distinct suffix numbers give attempts that differ even after case folding. |
| Names.NextName | script.js:790-810 | Returns the first `Option i` / `Criterion i` (i ≤ 999) whose folded form is free, or the clock-numbered label when all 999 are taken. With fewer than 999 names, some i ≤ count+1 is free and chosen. |
| Names.FreeLabelExists | script.js:790-810 | Among the labels 1..n+1, at least one is free for any n names. So with at most 19 entries, some label i ≤ 20 is free. |
| Names.LabelIsValidName | script.js:790-810 | Every label numbered below 100 is a valid option or criterion name. |
| Names.ValidateName | script.js:742-780 | The loop's verdict equals the name verdict: required, too long, taken by another entry (trimmed and folded), or fine. |
| Names.AcceptedNameIsValid | script.js:742-780 | A trimmed name that passes validation is a valid name. |
| Names.OwnNameRecasedAccepted | script.js:742-780 | Renaming an entry to its own name in a different letter case is accepted. |
| Names.AcceptedRenameKeepsFoldDistinct | script.js:742-780 | An accepted rename keeps the names distinct after folding. |
| Sanitize.ChooseId | script.js:266 | The sanitized id is the entry's own id when it is a usable id not taken by an earlier entry; otherwise it is the fresh id. |
| Sanitize.IdKeptIff | script.js:266-269 | Under the corrected rule, the id is kept (no repair) iff the entry had a usable string id not taken before. |
| Sanitize.IdKeptAsWrittenIff | script.js:266-269 | Under the rule as written, the id is kept (no repair) iff the entry had a non-empty string id. |
| Sanitize.ChooseIdMatchesAsWritten | script.js:266 | The corrected and as-written id rules give the same id iff the stored id is not a non-empty string that contains `:` or repeats an earlier id. |
| Sanitize.NoteOf | script.js:261-264 | The note is at most 500 characters, and equals the stored note iff that was a string within the limit. |
| Sanitize.WeightOf | script.js:330 | The weight is `clampInt` of the stored weight, with `parseInt` as `Json.ParseInt` reads printed numbers and arrays, so it is always in 1..5. |
| Sanitize.WeightKeptIffIntegral | script.js:330-333 | The stored weight is kept iff it is an integer in 1..5. |
| Sanitize.SanitizeName | script.js:250-259 | The name is valid and its folded form is new; the used set gains exactly that. The name counts as changed iff the trimmed raw name was empty, too long or already used. Otherwise it is that raw name. |
| Sanitize.SanitizeOptionEntry | script.js:245-282 | Appending the sanitized option keeps the list well formed and the used-name set in step. Its id is the stored or the fresh one, and its time the stored one or the clock plus the list length. It is "unchanged" iff the entry was clean, with a new id and a new folded name; then it is the entry read as it stands. |
| Sanitize.SanitizeCriterionEntry | script.js:314-351 | The same as the option entry, for a criterion: the weight is checked instead of the note. |
| Sanitize.PadOptions | script.js:285-290 | Pads the list to 2 options, keeping the existing entries as a prefix, and the result is valid. Each added entry at position j has pool id j, an empty note and creation time `now` plus its ordinal. Its name is the one `uniqueName` picks for an empty raw name and that ordinal ("Option n" or its first free " (k)" form), against the names before it. |
| Sanitize.PadCriteria | script.js:354-359 | Pads the list to 1 criterion in the same way. Each added entry has its pool id, weight 3, creation time `now` plus its ordinal, and the `uniqueName` pick for "Criterion n". |
| Sanitize.ReadOptions | script.js:240-283 | The loop keeps one option per object entry, up to 20. It is repair-free iff the input is an array of at most 20 clean entries with distinct ids and fold-distinct names, and then it equals the entries read as they stand. |
| Sanitize.ReadCriteria | script.js:309-352 | The same loop for criteria. |
| Sanitize.OptionsLoopDone | script.js:240-283 | When the loop exits, the count is the object count capped at 20. It stopped early only if there were more than 20 entries, and the repair flag means "not clean". |
| Sanitize.CriteriaLoopDone | script.js:309-352 | The same exit facts for the criteria loop. |
| Sanitize.SanitizeOptions | script.js:229-296 | The result is a valid option list whose length is the object count clamped to 2..20. It is not repaired iff the input was a clean list, and then it is that list read as it stands. |
| Sanitize.SanitizeCriteria | script.js:298-365 | The same for criteria, clamped to 1..20. |
| Sanitize.KeptRatings | script.js:376-393 | Keeps exactly the entries whose key is one live option id and one live criterion id joined by one `:`, with an integer value in 1..5. |
| Sanitize.KeptRatingsStep | script.js:376-393 | Looking at one more key adds exactly that key's rating, if it is kept. |
| Sanitize.KeepsRatingMatchesAsWritten | script.js:378-392 | The corrected test keeps a key iff the as-written split test keeps it and the key has exactly one `:`. |
| Sanitize.SanitizeRatings | script.js:367-399 | A non-object gives no ratings and the repair flag. Otherwise it gives exactly the kept entries, and it is repaired iff some entry was dropped. |
| Sanitize.SanitizeV1State | script.js:187-227 | Nothing for a non-object. Otherwise a valid state, not repaired iff the payload was clean, and then equal to the payload read as it stands. |
| Sanitize.SanitizedFlags | script.js:187-227 | The five repair flags are all false iff the payload is clean. |
| Load.LoadInitialState | script.js:135-180 | Storage failure, an empty slot, unparsable text, a non-object and a wrong version each give the default state with their own status. The current version is sanitized: the state is valid, the status is "repaired" iff the payload was not clean, and a clean payload loads as it stands. |
| Load.OptionsRoundTrip | script.js:1180-1203 | Serializing a valid option list gives a clean list that reads back as the same options. |
| Load.CriteriaRoundTrip | script.js:1180-1203 | The same for criteria. |
| Load.RatingsRoundTrip | script.js:1180-1203 | Sanitizing the serialized ratings gives back exactly the state's ratings. |
| Load.SerializedIsClean | script.js:1180-1203 | A serialized valid state is a clean payload, so loading it reports no repair. |
| Load.SerializeRoundTrip | script.js:1180-1203 | A valid state with a trimmed title serializes to a current-version object that is clean and reads back as the same state. |
| Scoring.ReadRating | script.js:1145-1148 | A rating reads as 0..5, and as 0 when no rating is stored. |
| Scoring.RawScoreBounds | script.js:1063-1069 | With positive weights, a score lies between 0 and maxRaw, the sum of 5 × weight. |
| Scoring.RawScoreZeroIff | script.js:1065-1069 | With positive weights, a score is 0 iff the option has no usable rating on any criterion. |
| Scoring.RawScoreMaxIff | script.js:1063-1069 | A score equals maxRaw iff every criterion is rated 5. |
| Scoring.ComputeMetrics | script.js:1061-1083 | The ranking is a permutation of the scored options, sorted by score (higher first), then creation time, then position. |
| Scoring.RankedIsScored | script.js:1064-1083 | Every ranking entry is some option with its score. |
| Scoring.ScoredIsRanked | script.js:1064-1083 | Every option with its score appears in the ranking. |
| Scoring.HighestIsMaximum | script.js:1085 | highestRaw is the largest score and some option has it; it is 0 when there are no options. |
| Scoring.WinnersAreTopPrefix | script.js:1085-1086 | The winners are the ranking's prefix of the options with the top score. Every later option scores less, and there is at least one winner. |
| Scoring.ZeroTieIff | script.js:1061-1094 | With positive weights, the zero tie (all options winners at score 0) holds iff there are options and none has a usable rating. |
| Scoring.ZeroTieIffNoRatings | script.js:1061-1094 | In a valid state, the zero tie holds iff no rating is stored. |
| Scoring.TopReasons | script.js:1096-1123 | Exactly min(3, number of criteria earning points) reasons, taken from those criteria without extra copies, sorted by points, weight, creation time and position. |
| Scoring.TopReasonsDistinct | script.js:1096-1123 | No criterion appears twice among the reasons. |
| Scoring.TopReasonsContribute | script.js:1096-1110 | Each reason is a criterion of the list with its rating and positive points. |
| Scoring.TopReasonsOmitNoBetter | script.js:1108-1122 | A criterion with positive points is either listed, or three reasons are listed and the last of them ranks no lower than it. |
| Sorting.ShownOrOutranked | script.js:1108-1122 | The same fact for any keyed list cut to its first n positive entries. |
| App.FindId | script.js:782-788 | The first position holding the id, or the list length when it is absent. |
| App.PruneByOptionExact | script.js:724-731 | For colon-free ratings, pruning by option removes exactly that option's ratings and keeps the other values. |
| App.PruneByCriterionExact | script.js:733-740 | The same for pruning by criterion. |
| App.OptionsWithoutRemovesFound | script.js:660-673 | With distinct ids, filtering out an id removes exactly the option found for it, if any. |
| App.DeleteOptionKeepsValid | script.js:660-673 | Above the minimum, deleting an option and pruning its ratings keeps the state valid. It removes at most one option, and exactly the ratings of that option. |
| App.DeleteCriterionKeepsValid | script.js:675-688 | The same for deleting a criterion. |
| App.AddOptionKeepsValid | script.js:458-469 | Below the maximum, appending a valid option with a new id and a new folded name keeps the state valid. |
| App.AddCriterionKeepsValid | script.js:471-482 | The same for criteria. |
| App.RenameOptionKeepsValid | script.js:620-638 | Applying an accepted trimmed name keeps the state valid. |
| App.RenameCriterionKeepsValid | script.js:640-658 | The same for criteria. |
| App.DecisionHelper.constructor | script.js:89-105 | Starts from the default state, which is valid. |
| App.DecisionHelper.RegisterMutation | script.js:1150-1158 | Only `updatedAt` changes, to the clock reading. |
| App.DecisionHelper.Reset | script.js:433-456 | When confirmed, the state becomes the default one; otherwise nothing changes. |
| App.DecisionHelper.TitleInput | script.js:417-424 | The title becomes the input when it fits in 80 characters, and otherwise exactly its first 80 characters. The state is stamped; nothing else changes. |
| App.DecisionHelper.TitleChange | script.js:426-431 | The title becomes the trimmed input when that fits in 80 characters, and otherwise exactly its first 80 characters. The state is stamped; nothing else changes. |
| App.DecisionHelper.AddOption | script.js:458-469 | Refused (nothing changes) iff there are already 20 options. Otherwise exactly one option is appended: the new id, an empty note, the clock time, and the first label `Option i` whose folded form was free (every earlier label is taken, and i ≤ 20). |
| App.DecisionHelper.AddCriterion | script.js:471-482 | Refused iff there are already 20 criteria. Otherwise one criterion of weight 3 is appended, named with the first label `Criterion i` whose folded form was free (i ≤ 20). |
| App.DecisionHelper.RenameOption | script.js:620-638 | An unknown id changes nothing. A name that fails validation changes nothing and reports the verdict. Otherwise only that option's name becomes the trimmed input. |
| App.DecisionHelper.RenameCriterion | script.js:640-658 | The same for criteria. |
| App.DecisionHelper.EditNote | script.js:509-528 | Only the found option's note changes, to the input cut to 500 characters; an unknown id changes nothing. |
| App.DecisionHelper.SetWeight | script.js:543-564 | Only the found criterion's weight changes, to the parsed input clamped into 1..5. |
| App.DecisionHelper.PruneRatingsByOption | script.js:724-731 | The ratings become those whose key does not start with `optionId:`; nothing else changes. |
| App.DecisionHelper.PruneRatingsByCriterion | script.js:733-740 | The ratings become those whose key does not end with `:criterionId`. |
| App.DecisionHelper.DeleteOption | script.js:660-673 | Refused iff at the minimum of 2. Otherwise the option is filtered out and exactly its ratings are pruned, and the state stays valid. |
| App.DecisionHelper.DeleteCriterion | script.js:675-688 | Refused iff at the minimum of 1. Otherwise the criterion and exactly its ratings go. |
| App.DecisionHelper.SetRating | script.js:690-699 | An unknown option or criterion is a no-op. Otherwise exactly that pair's rating is set and then reads back as the value. |
| App.DecisionHelper.HandleRatingChange | script.js:566-579 | Missing ids or unknown ones change nothing. Otherwise the pair's rating becomes the parsed value clamped into 1..5. |
| App.DecisionHelper.ClearRating | script.js:701-703 | Removes exactly that pair's rating, which then reads as 0. Clearing an absent rating changes nothing, so clearing is idempotent. |
| App.DecisionHelper.HandleClearRating | script.js:581-618 | With both ids present, the pair's rating is removed and the state is stamped; otherwise nothing changes. |
| Findings.DuplicateIdAsWritten | script.js:266 | The id choice as written keeps a repeated id. Three options `a`, `a`, `b` pass the delete guard, and deleting `a` then leaves one option. |
| Findings.DuplicateIdCorrected | script.js:266 | The corrected choice gives the second `a` a fresh id. |
| Findings.ColonIdAsWritten | script.js:266 | The id choice as written keeps `a:b`, and deleting option `a` then prunes the ratings of option `a:b`. |
| Findings.ColonIdCorrected | script.js:266 | The corrected choice replaces `a:b`, and pruning then removes exactly one option's ratings. |
| Findings.ExtraColonKeyAsWritten | script.js:378-392 | The test as written keeps key `a:b:x` for the live pair (a, b). `readRating` never reads that key, and deleting criterion `b` does not prune it. |
| Findings.ExtraColonKeyCorrected | script.js:378-392 | The corrected test drops `a:b:x`. |

## Left out

- Rendering, the DOM, focus handling, field error messages, status texts
  and the percentage column (`pct`, `toFixed`) are not modelled. They do
  not affect the state.
- Local storage, `JSON.parse`/`JSON.stringify`, the autosave timer and
  `beforeunload` are not modelled. Reading the slot is the `Load.Stored`
  datatype: unavailable, empty, unparsable, or parsed to a value.
- Json.Value: numbers are exact finite reals. `JSON.parse` turns a
  literal too large for a double (such as `1e400`) into Infinity, which
  `script.js` repairs through its `Number.isFinite` tests; the model
  cannot represent such a payload. Rounding of numbers to doubles is not
  modelled either.
- `Date.now()` is the parameter `now`, one clock reading per handler or
  load. Where script.js reads the clock more than once in one handler
  (`handleAddOption` at script.js:466 and `registerMutation` at
  script.js:1151, likewise at :479 for criteria, and the sanitizer's
  per-entry readings at :271, :287, :340 and :356), the model gives every
  reading the same value, so it does not capture a clock that advances
  between them. `createId()` is a parameter: one
  `newId` per add, or a pool of distinct colon-free ids that no stored
  entry uses, for loading and reset. The reset confirmation dialog is the
  parameter `confirmed`.
- Text.Lower: folds only the letters A to Z, where `toLocaleLowerCase`
  folds every cased letter. So "École" and "école" are distinct names in
  the model, but `script.js` treats them as duplicates.
- Text.Take: strings are sequences of Unicode characters, while
  JavaScript's `length` and `slice` count UTF-16 code units. A character
  outside the Basic Multilingual Plane counts once here and twice in
  `script.js`. For example, a name of 31 emoji is 62 code units:
  `script.js` cuts it to 60 and marks it repaired, and its name
  validators (`Names.ValidateName`, `Names.NameVerdict`) reject it as too
  long, while the model keeps and accepts it. A cut through a surrogate
  pair cannot be represented. The same applies to every length limit
  (names, notes, title).
- `migrateState` always returns nothing, so a payload of another version
  is reset. `LoadInitialState` models that directly.
- The handlers' guards on a missing `data-role`, `data-field` or row id
  are modelled only where they decide the outcome, in the rating handlers.
  The keyboard and click handlers for ratings are modelled through
  `SetRating`/`ClearRating` and `HandleClearRating`.
- Ratings are held as a map from (option id, criterion id) pairs, not from
  key strings. `Model.ParseKey`, `RatingKeyInjective`,
  `PrefixSelectsOption` and `SuffixSelectsCriterion` tie the two views
  together for colon-free ids. The sanitizer models the string keys it
  reads.
- App.DecisionHelper.SetRating: requires a value in 1..5. Its one caller,
  `HandleRatingChange`, clamps before calling it.
- Load.SerializeRoundTrip: requires a trimmed title. `handleTitleInput`
  stores the title untrimmed until `handleTitleChange` trims it, and
  `serializeState` writes the trimmed title, so an untrimmed title does not
  survive the round trip.
- Scoring.ComputeMetrics: the stable sort with a comparator is modelled by
  adding the entry's position as the last sort key. `optionIndex` maps an
  id to its position when ids are distinct, as they are in every model
  state. With the repeated ids that `script.js` can load, `optionIndex`
  maps an id to its last position, and the ranking of tied options can
  differ from the model's.
- Sanitize.ChooseId: the model uses the corrected id choice (see Findings)
  rather than the code's, which keeps any non-empty string id. The
  as-written rule is `Sanitize.IdAsWritten`.
- Sanitize.KeptRatings: the model keeps only keys with exactly one `:`,
  correcting the code's split (see Findings). The as-written test is
  `Sanitize.KeepsRatingAsWritten`.
- Sanitize.SanitizeOptions: uses the corrected id rule. For an input with
  a repeated or `:`-containing id, it replaces the id and reports a repair,
  where `script.js:266` keeps the id without repair. Numbers are finite
  reals, so the `Number.isFinite` test on `createdAt` is a test for a
  number.
- Sanitize.SanitizeCriteria: uses the corrected id rule, differing from
  `script.js:335` in the same way.
- Sanitize.IdKeptIff: characterises the corrected rule. The as-written
  condition, any non-empty string id, is `Sanitize.IdKeptAsWrittenIff`.
- Sanitize.SanitizeOptionEntry: its id and its "unchanged" flag follow the
  corrected rule. A repeated or `:`-containing id gets the fresh id and
  counts as a change, where `script.js:266` keeps it.
- Sanitize.SanitizeCriterionEntry: the same difference from
  `script.js:335`.
- Sanitize.ReadOptions: "repair-free" includes distinct, colon-free ids,
  which `script.js` does not require.
- Sanitize.ReadCriteria: the same distinct, colon-free id condition for
  criteria.
- Sanitize.OptionsLoopDone: the repair flag means "not clean" in the
  corrected sense, which includes distinct, colon-free ids.
- Sanitize.CriteriaLoopDone: the same corrected meaning of the repair flag.
- Sanitize.SanitizeRatings: keeps only keys with exactly one `:`, and
  drops and flags `a:b:x`, which `script.js:378` keeps for live `a` and
  `b`. `Sanitize.KeepsRatingMatchesAsWritten` shows these are the only
  keys on which the two differ.
- Sanitize.SanitizeV1State: the loaded state has distinct, colon-free ids
  and no extra-colon keys, and "not repaired" means clean in the corrected
  sense. `script.js` loads repeated and `:`-containing ids and extra-colon
  keys without repair, so its loaded state can fail `Model.ValidState`.
- Sanitize.SanitizedFlags: "all flags false iff clean" uses the corrected
  clean (distinct, colon-free ids, keys with one `:`).
- Load.LoadInitialState: the storage and version cases match the code. The
  sanitized case inherits the corrected rules of
  `Sanitize.SanitizeV1State`.

## Findings

| source | as written | input that shows it | evidently intended | confidence | as-written member | corrected member |
|---|---|---|---|---|---|---|
| script.js:266 | Any non-empty string id is kept, even one an earlier entry already uses. | Stored options with ids `a`, `a`, `b`: all three load. `deleteOption("a")` passes its guard (3 > 2) and removes two, leaving 1 option. | Duplicate ids are repaired on load with a fresh id, keeping ids unique. | not executed | Findings.DuplicateIdAsWritten | Findings.DuplicateIdCorrected |
| script.js:266 | An id containing `:` is kept. | An option with id `a:b` rated on criterion `c` (key `a:b:c`); `deleteOption("a")` prunes that rating because the key starts with `a:`. | Ids are usable in the `option:criterion` key, so contain no `:`. | not executed | Findings.ColonIdAsWritten | Findings.ColonIdCorrected |
| script.js:378 | A rating key is split on `:`, and only the first two segments are checked. | Key `a:b:x` with value 3, where `a` and `b` are live: kept, never read by `readRating("a","b")`, and not removed by `deleteCriterion("b")`. | Keep only keys that are exactly `optionId:criterionId`. | not executed | Findings.ExtraColonKeyAsWritten | Findings.ExtraColonKeyCorrected |

=== FILE: app.dfy ===
/** The live decision and the handlers that change it (script.js:417-740,
    782-788, 1150-1158). The page keeps one mutable `state` object; here
    it is an object of class `DecisionHelper` whose fields the handlers
    update in place. The clock (`Date.now()`) is the parameter `now`, the
    id generator (`createId()`) the parameter `newId`, and the reset
    confirmation dialog the parameter `confirmed`. Rendering, status
    messages, field errors and the save timer are not modelled. */
module App {
  import opened Text
  import opened Json
  import opened Wrappers
  import opened Model
  import opened Names
  import opened Scoring

  // ------------------------------------------------------------- lookups

  /** Where `Array.prototype.find` stops when looking for `id`: the first
      position holding it, or `|ids|` when there is none. */
  function FindId(ids: seq<Id>, id: Id): (k: nat)
    ensures k <= |ids| && (k < |ids| <==> id in ids)
    ensures k < |ids| ==> ids[k] == id
    ensures forall j :: 0 <= j < k ==> ids[j] != id
  {
    if ids == [] then 0 else if ids[0] == id then 0 else 1 + FindId(ids[1..], id)
  }

  // ------------------------------------------------------------ removals

  /** The options whose id is not `id`, in order. */
  function OptionsWithout(os: seq<Option>, id: Id): seq<Option> {
    if os == [] then []
    else (if os[0].id != id then [os[0]] else []) + OptionsWithout(os[1..], id)
  }

  /** The criteria whose id is not `id`, in order. */
  function CriteriaWithout(cs: seq<Criterion>, id: Id): seq<Criterion> {
    if cs == [] then []
    else (if cs[0].id != id then [cs[0]] else []) + CriteriaWithout(cs[1..], id)
  }

  lemma {:induction false} OptionsWithoutNone(os: seq<Option>, id: Id)
    requires forall i :: 0 <= i < |os| ==> os[i].id != id
    ensures OptionsWithout(os, id) == os
  {
    if os != [] {
      OptionsWithoutNone(os[1..], id);
    }
  }

  lemma {:induction false} CriteriaWithoutNone(cs: seq<Criterion>, id: Id)
    requires forall i :: 0 <= i < |cs| ==> cs[i].id != id
    ensures CriteriaWithout(cs, id) == cs
  {
    if cs != [] {
      CriteriaWithoutNone(cs[1..], id);
    }
  }

  /** When only the entry at `k` has the id, the filter drops exactly
      that entry. */
  lemma {:induction false} OptionsWithoutAt(os: seq<Option>, id: Id, k: nat)
    requires k < |os| && os[k].id == id
    requires forall i :: 0 <= i < |os| && i != k ==> os[i].id != id
    ensures OptionsWithout(os, id) == os[..k] + os[k + 1..]
  {
    var rest := os[1..];
    if k == 0 {
      OptionsWithoutNone(rest, id);
    } else {
      OptionsWithoutAt(rest, id, k - 1);
      assert [os[0]] + (rest[..k - 1] + rest[k..]) == os[..k] + os[k + 1..];
    }
  }

  lemma {:induction false} CriteriaWithoutAt(cs: seq<Criterion>, id: Id, k: nat)
    requires k < |cs| && cs[k].id == id
    requires forall i :: 0 <= i < |cs| && i != k ==> cs[i].id != id
    ensures CriteriaWithout(cs, id) == cs[..k] + cs[k + 1..]
  {
    var rest := cs[1..];
    if k == 0 {
      CriteriaWithoutNone(rest, id);
    } else {
      CriteriaWithoutAt(rest, id, k - 1);
      assert [cs[0]] + (rest[..k - 1] + rest[k..]) == cs[..k] + cs[k + 1..];
    }
  }

  /** With distinct ids, the filter drops exactly the entry `find` returns
      for `id`, and nothing when there is none. */
  lemma OptionsWithoutRemovesFound(os: seq<Option>, id: Id)
    requires Distinct(OptionIds(os))
    ensures var k := FindId(OptionIds(os), id);
      OptionsWithout(os, id) == if k < |os| then os[..k] + os[k + 1..] else os
  {
    var ids := OptionIds(os);
    var k := FindId(ids, id);
    if k < |os| {
      assert forall i :: 0 <= i < |os| && i != k ==> ids[i] != ids[k];
      OptionsWithoutAt(os, id, k);
    } else {
      OptionsWithoutNone(os, id);
    }
  }

  lemma CriteriaWithoutRemovesFound(cs: seq<Criterion>, id: Id)
    requires Distinct(CriterionIds(cs))
    ensures var k := FindId(CriterionIds(cs), id);
      CriteriaWithout(cs, id) == if k < |cs| then cs[..k] + cs[k + 1..] else cs
  {
    var ids := CriterionIds(cs);
    var k := FindId(ids, id);
    if k < |cs| {
      assert forall i :: 0 <= i < |cs| && i != k ==> ids[i] != ids[k];
      CriteriaWithoutAt(cs, id, k);
    } else {
      CriteriaWithoutNone(cs, id);
    }
  }

  /** Removing the entry at `k` shifts every later entry down by one. */
  lemma RemoveAtShifts<T>(s: seq<T>, k: nat)
    requires k < |s|
    ensures var r := s[..k] + s[k + 1..];
      |r| == |s| - 1 && forall i :: 0 <= i < |r| ==> r[i] == s[if i < k then i else i + 1]
  {
  }

  /** Removing one entry keeps a list well formed, one shorter, and
      holding every other id. */
  lemma RemoveOptionKeepsWellFormed(os: seq<Option>, k: nat)
    requires WellFormedOptions(os) && k < |os|
    ensures var r := os[..k] + os[k + 1..];
      WellFormedOptions(r) && |r| == |os| - 1 &&
      forall x :: x in OptionIds(os) && x != os[k].id ==> x in OptionIds(r)
  {
    RemoveAtShifts(os, k);
    ShiftedOptionsWellFormed(os, os[..k] + os[k + 1..], k);
  }

  /** A list made of the entries of `os` but the one at `k`, in order. */
  lemma ShiftedOptionsWellFormed(os: seq<Option>, r: seq<Option>, k: nat)
    requires WellFormedOptions(os) && k < |os| && |r| == |os| - 1
    requires forall i :: 0 <= i < |r| ==> r[i] == os[if i < k then i else i + 1]
    ensures WellFormedOptions(r)
    ensures forall x :: x in OptionIds(os) && x != os[k].id ==> x in OptionIds(r)
  {
    assert Distinct(OptionIds(r)) by {
      forall i, j | 0 <= i < j < |r|
        ensures OptionIds(r)[i] != OptionIds(r)[j]
      {
        assert r[i] == os[if i < k then i else i + 1] && r[j] == os[if j < k then j else j + 1];
      }
    }
    assert FoldDistinct(OptionNames(r)) by {
      forall i, j | 0 <= i < j < |r|
        ensures Lower(OptionNames(r)[i]) != Lower(OptionNames(r)[j])
      {
        assert r[i] == os[if i < k then i else i + 1] && r[j] == os[if j < k then j else j + 1];
      }
    }
    forall x | x in OptionIds(os) && x != os[k].id
      ensures x in OptionIds(r)
    {
      var i :| 0 <= i < |os| && OptionIds(os)[i] == x;
      var j := if i < k then i else i - 1;
      assert OptionIds(r)[j] == x;
    }
  }

  lemma RemoveCriterionKeepsWellFormed(cs: seq<Criterion>, k: nat)
    requires WellFormedCriteria(cs) && k < |cs|
    ensures var r := cs[..k] + cs[k + 1..];
      WellFormedCriteria(r) && |r| == |cs| - 1 &&
      forall x :: x in CriterionIds(cs) && x != cs[k].id ==> x in CriterionIds(r)
  {
    RemoveAtShifts(cs, k);
    ShiftedCriteriaWellFormed(cs, cs[..k] + cs[k + 1..], k);
  }

  /** A list made of the entries of `cs` but the one at `k`, in order. */
  lemma ShiftedCriteriaWellFormed(cs: seq<Criterion>, r: seq<Criterion>, k: nat)
    requires WellFormedCriteria(cs) && k < |cs| && |r| == |cs| - 1
    requires forall i :: 0 <= i < |r| ==> r[i] == cs[if i < k then i else i + 1]
    ensures WellFormedCriteria(r)
    ensures forall x :: x in CriterionIds(cs) && x != cs[k].id ==> x in CriterionIds(r)
  {
    assert Distinct(CriterionIds(r)) by {
      forall i, j | 0 <= i < j < |r|
        ensures CriterionIds(r)[i] != CriterionIds(r)[j]
      {
        assert r[i] == cs[if i < k then i else i + 1] && r[j] == cs[if j < k then j else j + 1];
      }
    }
    assert FoldDistinct(CriterionNames(r)) by {
      forall i, j | 0 <= i < j < |r|
        ensures Lower(CriterionNames(r)[i]) != Lower(CriterionNames(r)[j])
      {
        assert r[i] == cs[if i < k then i else i + 1] && r[j] == cs[if j < k then j else j + 1];
      }
    }
    forall x | x in CriterionIds(cs) && x != cs[k].id
      ensures x in CriterionIds(r)
    {
      var i :| 0 <= i < |cs| && CriterionIds(cs)[i] == x;
      var j := if i < k then i else i - 1;
      assert CriterionIds(r)[j] == x;
    }
  }


  // ------------------------------------------------------------- pruning

  /** The ratings `pruneRatingsByOption(optionId)` keeps: those whose key
      does not start with the option id and ':'. */
  function PrunedByOption(ratings: map<Cell, int>, optionId: Id): map<Cell, int> {
    map c | c in ratings && !StartsWith(RatingKey(c), optionId + ":") :: ratings[c]
  }

  /** The ratings `pruneRatingsByCriterion(criterionId)` keeps: those whose
      key does not end with ':' and the criterion id. */
  function PrunedByCriterion(ratings: map<Cell, int>, criterionId: Id): map<Cell, int> {
    map c | c in ratings && !EndsWith(RatingKey(c), ":" + criterionId) :: ratings[c]
  }

  /** With colon-free ids, pruning by option removes exactly the ratings
      of that option and keeps the others' values. */
  lemma PruneByOptionExact(ratings: map<Cell, int>, optionId: Id)
    requires forall c :: c in ratings ==> ColonFree(c)
    ensures var r := PrunedByOption(ratings, optionId);
      (forall c :: c in r <==> c in ratings && c.optionId != optionId) &&
      (forall c :: c in r ==> r[c] == ratings[c])
  {
    forall c | c in ratings {
      PrefixSelectsOption(c, optionId);
    }
  }

  /** With colon-free ids, pruning by criterion removes exactly the ratings
      of that criterion and keeps the others' values. */
  lemma PruneByCriterionExact(ratings: map<Cell, int>, criterionId: Id)
    requires forall c :: c in ratings ==> ColonFree(c)
    ensures var r := PrunedByCriterion(ratings, criterionId);
      (forall c :: c in r <==> c in ratings && c.criterionId != criterionId) &&
      (forall c :: c in r ==> r[c] == ratings[c])
  {
    forall c | c in ratings {
      SuffixSelectsCriterion(c, criterionId);
    }
  }

  /** The ratings of a valid state belong to colon-free pairs. */
  lemma ValidCellsColonFree(s: State)
    requires ValidState(s)
    ensures forall c :: c in s.ratings ==> ColonFree(c)
  {
    forall c | c in s.ratings
      ensures ColonFree(c)
    {
      var i :| 0 <= i < |s.options| && OptionIds(s.options)[i] == c.optionId;
      var j :| 0 <= j < |s.criteria| && CriterionIds(s.criteria)[j] == c.criterionId;
      assert ValidOption(s.options[i]) && ValidCriterion(s.criteria[j]);
    }
  }

  // ------------------------------------------------- keeping the invariant

  /** Replacing an option by one with the same id and name keeps a state
      valid. */
  lemma ReplaceOptionKeepsValid(s: State, k: nat, o: Option)
    requires ValidState(s) && k < |s.options| && ValidOption(o)
    requires o.id == s.options[k].id && o.name == s.options[k].name
    ensures ValidState(s.(options := s.options[k := o]))
  {
    var os := s.options[k := o];
    assert OptionIds(os) == OptionIds(s.options);
    assert OptionNames(os) == OptionNames(s.options);
  }

  lemma ReplaceCriterionKeepsValid(s: State, k: nat, c: Criterion)
    requires ValidState(s) && k < |s.criteria| && ValidCriterion(c)
    requires c.id == s.criteria[k].id && c.name == s.criteria[k].name
    ensures ValidState(s.(criteria := s.criteria[k := c]))
  {
    var cs := s.criteria[k := c];
    assert CriterionIds(cs) == CriterionIds(s.criteria);
    assert CriterionNames(cs) == CriterionNames(s.criteria);
  }

  /** A rename `validateOptionName` accepts keeps a state valid. */
  lemma RenameOptionKeepsValid(s: State, k: nat, name: string)
    requires ValidState(s) && k < |s.options| && IsTrimmed(name)
    requires NameVerdict(OptionKind, name, s.options[k].id, OptionIds(s.options), OptionNames(s.options)) == NameOk
    ensures ValidState(s.(options := s.options[k := s.options[k].(name := name)]))
  {
    var ids, names := OptionIds(s.options), OptionNames(s.options);
    var os := s.options[k := s.options[k].(name := name)];
    AcceptedNameIsValid(OptionKind, name, ids[k], ids, names);
    AcceptedRenameKeepsFoldDistinct(OptionKind, ids, names, k, name);
    assert OptionIds(os) == ids;
    assert OptionNames(os) == names[k := name];
  }

  lemma RenameCriterionKeepsValid(s: State, k: nat, name: string)
    requires ValidState(s) && k < |s.criteria| && IsTrimmed(name)
    requires NameVerdict(CriterionKind, name, s.criteria[k].id, CriterionIds(s.criteria), CriterionNames(s.criteria)) == NameOk
    ensures ValidState(s.(criteria := s.criteria[k := s.criteria[k].(name := name)]))
  {
    var ids, names := CriterionIds(s.criteria), CriterionNames(s.criteria);
    var cs := s.criteria[k := s.criteria[k].(name := name)];
    AcceptedNameIsValid(CriterionKind, name, ids[k], ids, names);
    AcceptedRenameKeepsFoldDistinct(CriterionKind, ids, names, k, name);
    assert CriterionIds(cs) == ids;
    assert CriterionNames(cs) == names[k := name];
  }

  /** Deleting an option above the minimum, with its ratings pruned, keeps
      a state valid, removes at most one option and exactly the ratings
      of that option. */
  lemma DeleteOptionKeepsValid(s: State, id: Id)
    requires ValidState(s) && |s.options| > MIN_OPTIONS
    ensures var t := s.(options := OptionsWithout(s.options, id), ratings := PrunedByOption(s.ratings, id));
      ValidState(t) &&
      |t.options| == |s.options| - (if id in OptionIds(s.options) then 1 else 0) &&
      (forall c :: c in t.ratings <==> c in s.ratings && c.optionId != id)
  {
    OptionListAfterDelete(s.options, id);
    OptionRatingsAfterDelete(s, id);
  }

  lemma OptionListAfterDelete(os: seq<Option>, id: Id)
    requires ValidOptions(os) && |os| > MIN_OPTIONS
    ensures var r := OptionsWithout(os, id);
      ValidOptions(r) && |r| == |os| - (if id in OptionIds(os) then 1 else 0) &&
      forall x :: x in OptionIds(os) && x != id ==> x in OptionIds(r)
  {
    OptionsWithoutRemovesFound(os, id);
    var k := FindId(OptionIds(os), id);
    if k < |os| {
      assert OptionIds(os)[k] == id && id in OptionIds(os);
      RemoveOptionKeepsWellFormed(os, k);
    } else {
      assert id !in OptionIds(os);
    }
  }

  lemma OptionRatingsAfterDelete(s: State, id: Id)
    requires ValidState(s)
    requires forall x :: x in OptionIds(s.options) && x != id ==> x in OptionIds(OptionsWithout(s.options, id))
    ensures var t := s.(options := OptionsWithout(s.options, id), ratings := PrunedByOption(s.ratings, id));
      ValidRatings(t.ratings, t.options, t.criteria) &&
      (forall c :: c in t.ratings <==> c in s.ratings && c.optionId != id)
  {
    ValidCellsColonFree(s);
    PruneByOptionExact(s.ratings, id);
  }

  lemma DeleteCriterionKeepsValid(s: State, id: Id)
    requires ValidState(s) && |s.criteria| > MIN_CRITERIA
    ensures var t := s.(criteria := CriteriaWithout(s.criteria, id), ratings := PrunedByCriterion(s.ratings, id));
      ValidState(t) &&
      |t.criteria| == |s.criteria| - (if id in CriterionIds(s.criteria) then 1 else 0) &&
      (forall c :: c in t.ratings <==> c in s.ratings && c.criterionId != id)
  {
    CriterionListAfterDelete(s.criteria, id);
    CriterionRatingsAfterDelete(s, id);
  }

  lemma CriterionListAfterDelete(cs: seq<Criterion>, id: Id)
    requires ValidCriteria(cs) && |cs| > MIN_CRITERIA
    ensures var r := CriteriaWithout(cs, id);
      ValidCriteria(r) && |r| == |cs| - (if id in CriterionIds(cs) then 1 else 0) &&
      forall x :: x in CriterionIds(cs) && x != id ==> x in CriterionIds(r)
  {
    CriteriaWithoutRemovesFound(cs, id);
    var k := FindId(CriterionIds(cs), id);
    if k < |cs| {
      assert CriterionIds(cs)[k] == id && id in CriterionIds(cs);
      RemoveCriterionKeepsWellFormed(cs, k);
    } else {
      assert id !in CriterionIds(cs);
    }
  }

  lemma CriterionRatingsAfterDelete(s: State, id: Id)
    requires ValidState(s)
    requires forall x :: x in CriterionIds(s.criteria) && x != id ==> x in CriterionIds(CriteriaWithout(s.criteria, id))
    ensures var t := s.(criteria := CriteriaWithout(s.criteria, id), ratings := PrunedByCriterion(s.ratings, id));
      ValidRatings(t.ratings, t.options, t.criteria) &&
      (forall c :: c in t.ratings <==> c in s.ratings && c.criterionId != id)
  {
    ValidCellsColonFree(s);
    PruneByCriterionExact(s.ratings, id);
  }

  /** Appending an option with a new id and a new folded name below the
      maximum keeps a state valid. */
  lemma AddOptionKeepsValid(s: State, o: Option)
    requires ValidState(s) && |s.options| < MAX_OPTIONS && ValidOption(o)
    requires o.id !in OptionIds(s.options) && Lower(o.name) !in NameSet(OptionNames(s.options))
    ensures ValidState(s.(options := s.options + [o]))
  {
    AppendOption(s.options, o);
  }

  lemma AddCriterionKeepsValid(s: State, c: Criterion)
    requires ValidState(s) && |s.criteria| < MAX_CRITERIA && ValidCriterion(c)
    requires c.id !in CriterionIds(s.criteria) && Lower(c.name) !in NameSet(CriterionNames(s.criteria))
    ensures ValidState(s.(criteria := s.criteria + [c]))
  {
    AppendCriterion(s.criteria, c);
  }

  // ---------------------------------------------------------- the state

  /** What `updateOptionName` / `updateCriterionName` did. */
  datatype RenameOutcome = NotFound | Refused(check: NameCheck) | Renamed

  /** The page's `state` object. */
  class DecisionHelper {
    var title: string
    var options: seq<Option>
    var criteria: seq<Criterion>
    var ratings: map<Cell, int>
    var updatedAt: real

    function Snapshot(): State
      reads this
    {
      State(title, options, criteria, ratings, updatedAt)
    }

    /** The invariant every handler keeps. */
    predicate Valid()
      reads this
    {
      ValidState(Snapshot())
    }

    /** A helper that starts from the default state. */
    constructor (pool: seq<Id>, now: nat)
      requires |pool| >= 5 && FreshPool(pool)
      ensures Valid() && Snapshot() == DefaultState(pool, now)
    {
      var s := DefaultState(pool, now);
      title, options, criteria, ratings, updatedAt := s.title, s.options, s.criteria, s.ratings, s.updatedAt;
    }

    /** `registerMutation(renderMode)`: stamps the state with the clock;
        rendering and the save timer are not modelled. */
    method RegisterMutation(now: nat)
      modifies this
      ensures Snapshot() == old(Snapshot()).(updatedAt := now as real)
    {
      updatedAt := now as real;
    }

    /** `handleReset()`: when confirmed, back to the default state. */
    method Reset(confirmed: bool, pool: seq<Id>, now: nat)
      requires |pool| >= 5 && FreshPool(pool)
      requires Valid()
      modifies this
      ensures Valid()
      ensures confirmed ==> Snapshot() == DefaultState(pool, now)
      ensures !confirmed ==> Snapshot() == old(Snapshot())
    {
      if !confirmed {
        return;
      }
      var s := DefaultState(pool, now);
      title, options, criteria, ratings, updatedAt := s.title, s.options, s.criteria, s.ratings, s.updatedAt;
    }

    /** `handleTitleInput`: the typed text cut to 80 characters. */
    method TitleInput(value: string, now: nat)
      requires Valid()
      modifies this
      ensures Valid()
      ensures Snapshot() == old(Snapshot()).(title := title, updatedAt := now as real)
      ensures |title| <= MAX_TITLE_LENGTH && StartsWith(value, title)
      ensures |value| <= MAX_TITLE_LENGTH ==> title == value
      ensures |value| > MAX_TITLE_LENGTH ==> title == value[..MAX_TITLE_LENGTH]
    {
      title := Take(value, MAX_TITLE_LENGTH);
      RegisterMutation(now);
    }

    /** `handleTitleChange`: the committed text trimmed, then cut to 80
        characters. */
    method TitleChange(value: string, now: nat)
      requires Valid()
      modifies this
      ensures Valid()
      ensures Snapshot() == old(Snapshot()).(title := title, updatedAt := now as real)
      ensures |title| <= MAX_TITLE_LENGTH && StartsWith(Trim(value), title)
      ensures |Trim(value)| <= MAX_TITLE_LENGTH ==> title == Trim(value) && IsTrimmed(title)
      ensures |Trim(value)| > MAX_TITLE_LENGTH ==> title == Trim(value)[..MAX_TITLE_LENGTH]
    {
      TrimIsTrimmed(value);
      title := Take(Trim(value), MAX_TITLE_LENGTH);
      RegisterMutation(now);
    }

    /** `handleAddOption()`: refused at 20 options; otherwise appends an
        option with the first free generated name, an empty note and the
        clock reading as creation time. */
    method AddOption(newId: Id, now: nat) returns (added: bool)
      requires Valid() && ValidId(newId) && newId !in OptionIds(options)
      modifies this
      ensures Valid()
      ensures added <==> old(|options|) < MAX_OPTIONS
      ensures !added ==> Snapshot() == old(Snapshot())
      ensures added ==>
        |options| == old(|options|) + 1 && options[..old(|options|)] == old(options) &&
        Snapshot() == old(Snapshot()).(options := options, updatedAt := now as real)
      ensures added ==>
        var o := options[|options| - 1];
        o.id == newId && o.note == "" && o.createdAt == now as real &&
        Lower(o.name) !in NameSet(old(OptionNames(options))) &&
        exists i :: 1 <= i <= MAX_OPTIONS && o.name == Label(OptionKind, i) &&
          forall j :: 1 <= j < i ==> Lower(Label(OptionKind, j)) in NameSet(old(OptionNames(options)))
    {
      if |options| >= MAX_OPTIONS {
        return false;
      }
      var names := OptionNames(options);
      var name := NextName(OptionKind, names, now);
      ghost var i :| 1 <= i <= |names| + 1 && name == Label(OptionKind, i) && Lower(name) !in Folded(names);
      LabelIsValidName(OptionKind, i);
      FoldedOfTrimmed(names);
      var o := CreateOption(newId, name, now as real);
      AddOptionKeepsValid(Snapshot(), o);
      options := options + [o];
      RegisterMutation(now);
      added := true;
    }

    /** `handleAddCriterion()`: refused at 20 criteria; otherwise appends a
        criterion of weight 3 with the first free generated name and the
        clock reading as creation time. */
    method AddCriterion(newId: Id, now: nat) returns (added: bool)
      requires Valid() && ValidId(newId) && newId !in CriterionIds(criteria)
      modifies this
      ensures Valid()
      ensures added <==> old(|criteria|) < MAX_CRITERIA
      ensures !added ==> Snapshot() == old(Snapshot())
      ensures added ==>
        |criteria| == old(|criteria|) + 1 && criteria[..old(|criteria|)] == old(criteria) &&
        Snapshot() == old(Snapshot()).(criteria := criteria, updatedAt := now as real)
      ensures added ==>
        var c := criteria[|criteria| - 1];
        c.id == newId && c.weight == 3 && c.createdAt == now as real &&
        Lower(c.name) !in NameSet(old(CriterionNames(criteria))) &&
        exists i :: 1 <= i <= MAX_CRITERIA && c.name == Label(CriterionKind, i) &&
          forall j :: 1 <= j < i ==> Lower(Label(CriterionKind, j)) in NameSet(old(CriterionNames(criteria)))
    {
      if |criteria| >= MAX_CRITERIA {
        return false;
      }
      var names := CriterionNames(criteria);
      var name := NextName(CriterionKind, names, now);
      ghost var i :| 1 <= i <= |names| + 1 && name == Label(CriterionKind, i) && Lower(name) !in Folded(names);
      LabelIsValidName(CriterionKind, i);
      FoldedOfTrimmed(names);
      var c := CreateCriterion(newId, name, 3, now as real);
      AddCriterionKeepsValid(Snapshot(), c);
      criteria := criteria + [c];
      RegisterMutation(now);
      added := true;
    }

    /** `updateOptionName(optionId, rawName)`: an unknown id changes
        nothing; otherwise the trimmed name replaces the option's name
        unless `validateOptionName` refuses it. */
    method RenameOption(optionId: Id, rawName: string, now: nat) returns (outcome: RenameOutcome)
      requires Valid()
      modifies this
      ensures Valid()
      ensures outcome.NotFound? <==> optionId !in old(OptionIds(options))
      ensures !outcome.Renamed? ==> Snapshot() == old(Snapshot())
      ensures !outcome.NotFound? ==>
        var verdict := NameVerdict(OptionKind, Trim(rawName), optionId, old(OptionIds(options)), old(OptionNames(options)));
        (outcome.Refused? <==> verdict != NameOk) && (outcome.Refused? ==> outcome.check == verdict)
      ensures outcome.Renamed? ==>
        var k := FindId(old(OptionIds(options)), optionId);
        k < old(|options|) && options == old(options)[k := old(options)[k].(name := Trim(rawName))] &&
        Snapshot() == old(Snapshot()).(options := options, updatedAt := now as real)
    {
      var ids, names := OptionIds(options), OptionNames(options);
      var k := FindId(ids, optionId);
      if k == |options| {
        return NotFound;
      }
      var normalized := Trim(rawName);
      var check := ValidateName(OptionKind, normalized, optionId, ids, names);
      if check != NameOk {
        return Refused(check);
      }
      TrimIsTrimmed(rawName);
      RenameOptionKeepsValid(Snapshot(), k, normalized);
      options := options[k := options[k].(name := normalized)];
      RegisterMutation(now);
      outcome := Renamed;
    }

    /** `updateCriterionName(criterionId, rawName)`: as for options, with
        `validateCriterionName`. */
    method RenameCriterion(criterionId: Id, rawName: string, now: nat) returns (outcome: RenameOutcome)
      requires Valid()
      modifies this
      ensures Valid()
      ensures outcome.NotFound? <==> criterionId !in old(CriterionIds(criteria))
      ensures !outcome.Renamed? ==> Snapshot() == old(Snapshot())
      ensures !outcome.NotFound? ==>
        var verdict := NameVerdict(CriterionKind, Trim(rawName), criterionId, old(CriterionIds(criteria)), old(CriterionNames(criteria)));
        (outcome.Refused? <==> verdict != NameOk) && (outcome.Refused? ==> outcome.check == verdict)
      ensures outcome.Renamed? ==>
        var k := FindId(old(CriterionIds(criteria)), criterionId);
        k < old(|criteria|) && criteria == old(criteria)[k := old(criteria)[k].(name := Trim(rawName))] &&
        Snapshot() == old(Snapshot()).(criteria := criteria, updatedAt := now as real)
    {
      var ids, names := CriterionIds(criteria), CriterionNames(criteria);
      var k := FindId(ids, criterionId);
      if k == |criteria| {
        return NotFound;
      }
      var normalized := Trim(rawName);
      var check := ValidateName(CriterionKind, normalized, criterionId, ids, names);
      if check != NameOk {
        return Refused(check);
      }
      TrimIsTrimmed(rawName);
      RenameCriterionKeepsValid(Snapshot(), k, normalized);
      criteria := criteria[k := criteria[k].(name := normalized)];
      RegisterMutation(now);
      outcome := Renamed;
    }

    /** `handleOptionInput` on a note field: an unknown id changes nothing;
        otherwise the note becomes the text cut to 500 characters. */
    method EditNote(optionId: Id, value: string, now: nat) returns (found: bool)
      requires Valid()
      modifies this
      ensures Valid()
      ensures found <==> optionId in old(OptionIds(options))
      ensures !found ==> Snapshot() == old(Snapshot())
      ensures found ==>
        var k := FindId(old(OptionIds(options)), optionId);
        k < old(|options|) && options == old(options)[k := old(options)[k].(note := Take(value, MAX_NOTE_LENGTH))] &&
        Snapshot() == old(Snapshot()).(options := options, updatedAt := now as real)
    {
      var k := FindId(OptionIds(options), optionId);
      if k == |options| {
        return false;
      }
      var o := options[k].(note := Take(value, MAX_NOTE_LENGTH));
      ReplaceOptionKeepsValid(Snapshot(), k, o);
      options := options[k := o];
      RegisterMutation(now);
      found := true;
    }

    /** `handleCriterionChange` on a weight field: an unknown id changes
        nothing; otherwise the weight becomes `clampInt(value, 1, 5)`. */
    method SetWeight(criterionId: Id, value: string, now: nat) returns (found: bool)
      requires Valid()
      modifies this
      ensures Valid()
      ensures found <==> criterionId in old(CriterionIds(criteria))
      ensures !found ==> Snapshot() == old(Snapshot())
      ensures found ==>
        var k := FindId(old(CriterionIds(criteria)), criterionId);
        k < old(|criteria|) &&
        criteria == old(criteria)[k := old(criteria)[k].(weight := ClampInt(ParseIntText(value), 1, 5))] &&
        Snapshot() == old(Snapshot()).(criteria := criteria, updatedAt := now as real)
    {
      var k := FindId(CriterionIds(criteria), criterionId);
      if k == |criteria| {
        return false;
      }
      var c := criteria[k].(weight := ClampInt(ParseIntText(value), 1, 5));
      ReplaceCriterionKeepsValid(Snapshot(), k, c);
      criteria := criteria[k := c];
      RegisterMutation(now);
      found := true;
    }

    /** `pruneRatingsByOption(optionId)`: walks the stored keys and deletes
        each one that starts with the option id and ':'. */
    method PruneRatingsByOption(optionId: Id)
      modifies this
      ensures ratings == PrunedByOption(old(ratings), optionId)
      ensures Snapshot() == old(Snapshot()).(ratings := ratings)
    {
      var prefix := optionId + ":";
      var keys := ratings.Keys;
      while keys != {}
        invariant keys <= old(ratings).Keys
        invariant forall c :: c in ratings <==> c in old(ratings) && (c in keys || !StartsWith(RatingKey(c), prefix))
        invariant forall c :: c in ratings ==> ratings[c] == old(ratings)[c]
        invariant Snapshot() == old(Snapshot()).(ratings := ratings)
        decreases keys
      {
        var c :| c in keys;
        if StartsWith(RatingKey(c), prefix) {
          ratings := ratings - {c};
        }
        keys := keys - {c};
      }
    }

    /** `pruneRatingsByCriterion(criterionId)`: walks the stored keys and
        deletes each one that ends with ':' and the criterion id. */
    method PruneRatingsByCriterion(criterionId: Id)
      modifies this
      ensures ratings == PrunedByCriterion(old(ratings), criterionId)
      ensures Snapshot() == old(Snapshot()).(ratings := ratings)
    {
      var suffix := ":" + criterionId;
      var keys := ratings.Keys;
      while keys != {}
        invariant keys <= old(ratings).Keys
        invariant forall c :: c in ratings <==> c in old(ratings) && (c in keys || !EndsWith(RatingKey(c), suffix))
        invariant forall c :: c in ratings ==> ratings[c] == old(ratings)[c]
        invariant Snapshot() == old(Snapshot()).(ratings := ratings)
        decreases keys
      {
        var c :| c in keys;
        if EndsWith(RatingKey(c), suffix) {
          ratings := ratings - {c};
        }
        keys := keys - {c};
      }
    }

    /** `deleteOption(optionId)`: refused at the minimum of two options;
        otherwise the option (if any) is filtered out and its ratings
        pruned. The state is stamped even when no option had that id. */
    method DeleteOption(optionId: Id, now: nat) returns (allowed: bool)
      requires Valid()
      modifies this
      ensures Valid()
      ensures allowed <==> old(|options|) > MIN_OPTIONS
      ensures !allowed ==> Snapshot() == old(Snapshot())
      ensures allowed ==>
        options == OptionsWithout(old(options), optionId) &&
        ratings == PrunedByOption(old(ratings), optionId) &&
        Snapshot() == old(Snapshot()).(options := options, ratings := ratings, updatedAt := now as real)
      ensures allowed ==> |options| == old(|options|) - (if optionId in old(OptionIds(options)) then 1 else 0)
      ensures allowed ==> forall c :: c in ratings <==> c in old(ratings) && c.optionId != optionId
    {
      if |options| <= MIN_OPTIONS {
        return false;
      }
      DeleteOptionKeepsValid(Snapshot(), optionId);
      options := OptionsWithout(options, optionId);
      PruneRatingsByOption(optionId);
      RegisterMutation(now);
      allowed := true;
    }

    /** `deleteCriterion(criterionId)`: refused at the minimum of one
        criterion; otherwise as for options. */
    method DeleteCriterion(criterionId: Id, now: nat) returns (allowed: bool)
      requires Valid()
      modifies this
      ensures Valid()
      ensures allowed <==> old(|criteria|) > MIN_CRITERIA
      ensures !allowed ==> Snapshot() == old(Snapshot())
      ensures allowed ==>
        criteria == CriteriaWithout(old(criteria), criterionId) &&
        ratings == PrunedByCriterion(old(ratings), criterionId) &&
        Snapshot() == old(Snapshot()).(criteria := criteria, ratings := ratings, updatedAt := now as real)
      ensures allowed ==> |criteria| == old(|criteria|) - (if criterionId in old(CriterionIds(criteria)) then 1 else 0)
      ensures allowed ==> forall c :: c in ratings <==> c in old(ratings) && c.criterionId != criterionId
    {
      if |criteria| <= MIN_CRITERIA {
        return false;
      }
      DeleteCriterionKeepsValid(Snapshot(), criterionId);
      criteria := CriteriaWithout(criteria, criterionId);
      PruneRatingsByCriterion(criterionId);
      RegisterMutation(now);
      allowed := true;
    }

    /** `setRating(optionId, criterionId, value)`: stores the value unless
        either id is unknown. Its one caller passes `clampInt(.., 1, 5)`. */
    method SetRating(optionId: Id, criterionId: Id, value: int, now: nat) returns (stored: bool)
      requires Valid() && 1 <= value <= 5
      modifies this
      ensures Valid()
      ensures stored <==> optionId in old(OptionIds(options)) && criterionId in old(CriterionIds(criteria))
      ensures !stored ==> Snapshot() == old(Snapshot())
      ensures stored ==>
        ratings == old(ratings)[Cell(optionId, criterionId) := value] &&
        Snapshot() == old(Snapshot()).(ratings := ratings, updatedAt := now as real)
      ensures stored ==> ReadRating(ratings, Cell(optionId, criterionId)) == value
    {
      if optionId !in OptionIds(options) || criterionId !in CriterionIds(criteria) {
        return false;
      }
      ratings := ratings[Cell(optionId, criterionId) := value];
      RegisterMutation(now);
      stored := true;
    }

    /** `handleRatingChange`: an empty id does nothing; otherwise the
        entered text is clamped to 1..5 and stored. */
    method HandleRatingChange(optionId: Id, criterionId: Id, raw: string, now: nat) returns (stored: bool)
      requires Valid()
      modifies this
      ensures Valid()
      ensures stored <==> (optionId != "" && criterionId != "" &&
        optionId in old(OptionIds(options)) && criterionId in old(CriterionIds(criteria)))
      ensures !stored ==> Snapshot() == old(Snapshot())
      ensures stored ==>
        ratings == old(ratings)[Cell(optionId, criterionId) := ClampInt(ParseIntText(raw), 1, 5)] &&
        Snapshot() == old(Snapshot()).(ratings := ratings, updatedAt := now as real)
    {
      if optionId == "" || criterionId == "" {
        return false;
      }
      var value := ClampInt(ParseIntText(raw), 1, 5);
      stored := SetRating(optionId, criterionId, value, now);
    }

    /** `clearRating(optionId, criterionId)`: deletes that one rating, if
        any; clearing a rating that is not there changes nothing, so a
        second clear is a no-op. */
    method ClearRating(optionId: Id, criterionId: Id)
      requires Valid()
      modifies this
      ensures Valid()
      ensures ratings == old(ratings) - {Cell(optionId, criterionId)}
      ensures Snapshot() == old(Snapshot()).(ratings := ratings)
      ensures ReadRating(ratings, Cell(optionId, criterionId)) == 0
      ensures Cell(optionId, criterionId) !in old(ratings) ==> Snapshot() == old(Snapshot())
    {
      ratings := ratings - {Cell(optionId, criterionId)};
    }

    /** `handleRatingClick` / `handleRatingKeydown`: an empty id does
        nothing; otherwise the rating is cleared and the state stamped,
        whether or not there was a rating. */
    method HandleClearRating(optionId: Id, criterionId: Id, now: nat) returns (handled: bool)
      requires Valid()
      modifies this
      ensures Valid()
      ensures handled <==> optionId != "" && criterionId != ""
      ensures !handled ==> Snapshot() == old(Snapshot())
      ensures handled ==>
        ratings == old(ratings) - {Cell(optionId, criterionId)} &&
        Snapshot() == old(Snapshot()).(ratings := ratings, updatedAt := now as real)
    {
      if optionId == "" || criterionId == "" {
        return false;
      }
      ClearRating(optionId, criterionId);
      RegisterMutation(now);
      handled := true;
    }
  }
}

=== FILE: findings.dfy ===
/** Three places where the load-time sanitizer, as script.js writes it,
    lets through a payload that breaks what the rest of the program relies
    on. Each is shown on a concrete payload, next to the corrected rule
    the rest of this model uses. */
module Findings {
  import opened Text
  import opened Json
  import opened Wrappers
  import opened Model
  import opened Sanitize
  import opened App

  /** A stored entry that carries only an id. */
  function Entry(id: string): Value {
    Obj(map["id" := Str(id)])
  }

  // ------------------------------------------- duplicate ids (finding 1)

  /** script.js:266 keeps any non-empty id, so three stored options with
      ids "a", "a", "b" load as three options, two of them sharing "a".
      `deleteOption("a")` passes its guard (three is above the minimum)
      and its filter then removes both, leaving one option. */
  lemma DuplicateIdAsWritten(freshId: Id)
    ensures IdAsWritten(Entry("a"), freshId) == "a" && IdAsWritten(Entry("b"), freshId) == "b"
    ensures var os := [Option("a", "A", "", 0.0), Option("a", "B", "", 1.0), Option("b", "C", "", 2.0)];
      |os| > MIN_OPTIONS && |OptionsWithout(os, "a")| == 1 < MIN_OPTIONS
  {
    var os := [Option("a", "A", "", 0.0), Option("a", "B", "", 1.0), Option("b", "C", "", 2.0)];
    assert os[1..][1..] == [os[2]];
    assert OptionsWithout(os, "a") == [os[2]];
  }

  /** With the corrected choice, the second entry claiming "a" gets a
      fresh id, so the loaded ids are distinct and a delete removes at
      most one option (`DeleteOptionKeepsValid`). */
  lemma DuplicateIdCorrected(freshId: Id)
    requires ValidId(freshId) && freshId != "a"
    ensures ChooseId(Entry("a"), [], freshId) == "a"
    ensures ChooseId(Entry("a"), ["a"], freshId) == freshId
  {
    assert ':' !in "a";
  }

  // ----------------------------------------------- colon ids (finding 2)

  /** script.js:266 also keeps an id containing ':'. A rating of option
      "a:b" against criterion "c" is stored under "a:b:c", which starts
      with "a:", so deleting option "a" prunes it although option "a:b"
      is still there. */
  lemma ColonIdAsWritten(freshId: Id)
    ensures IdAsWritten(Entry("a:b"), freshId) == "a:b"
    ensures var ratings := map[Cell("a:b", "c") := 4];
      Cell("a:b", "c") !in PrunedByOption(ratings, "a")
  {
    assert RatingKey(Cell("a:b", "c"))[..2] == "a:";
  }

  /** With the corrected choice an id containing ':' is replaced, and for
      colon-free ids pruning by option removes exactly that option's
      ratings (`PruneByOptionExact`). */
  lemma ColonIdCorrected(freshId: Id)
    requires ValidId(freshId)
    ensures ChooseId(Entry("a:b"), [], freshId) == freshId
    ensures var ratings := map[Cell("a", "c") := 4, Cell("d", "c") := 2];
      PrunedByOption(ratings, "d") == map[Cell("a", "c") := 4]
  {
    assert "a:b"[1] == ':';
    var ratings := map[Cell("a", "c") := 4, Cell("d", "c") := 2];
    PruneByOptionExact(ratings, "d");
    var r := PrunedByOption(ratings, "d");
    assert r.Keys == {Cell("a", "c")};
  }

  // --------------------------------------- extra-colon keys (finding 3)

  /** script.js:378 splits a key on ':' and checks only the first two
      segments, so "a:b:x" is kept for option "a" and criterion "b". That
      key is not the key `readRating("a", "b")` looks up, and it does not
      end with ":b", so `deleteCriterion("b")` leaves it behind. */
  lemma ExtraColonKeyAsWritten()
    ensures SplitKeyAsWritten("a:b:x") == ("a", "b")
    ensures KeepsRatingAsWritten("a:b:x", Num(3.0), {"a"}, {"b"})
    ensures "a:b:x" != RatingKey(Cell("a", "b"))
    ensures !EndsWith("a:b:x", ":b")
  {
    var key := "a:b:x";
    assert key[1] == ':' && key[0] != ':';
    assert ColonIndex(key) == 1;
    var rest := key[2..];
    assert rest == "b:x" && rest[1] == ':' && rest[0] != ':';
    assert ColonIndex(rest) == 1;
    assert key[..1] == "a" && rest[..1] == "b";
    assert key[|key| - 2..] == ":x";
  }

  /** The corrected test accepts a key only when it has exactly one ':',
      so "a:b:x" is dropped; every key it keeps is the key of the pair it
      names (`KeyOfParsedKey`). */
  lemma ExtraColonKeyCorrected()
    ensures ParseKey("a:b:x") == None
    ensures !KeepsRating("a:b:x", Num(3.0), {"a"}, {"b"})
  {
    var key := "a:b:x";
    assert key[1] == ':' && key[0] != ':';
    assert ColonIndex(key) == 1;
    assert key[2..][1] == ':';
  }
}

=== FILE: json.dfy ===
/** The parsed form of an untrusted persisted payload, and the two numeric
    coercions the sanitizer applies to it (`Number.parseInt` and
    `clampInt`, script.js:1276-1283). */
module Json {
  import opened Text
  import opened Wrappers

  /** A value produced by `JSON.parse`, plus `Undefined`, which is what a
      property lookup yields for a missing field. JSON numbers are finite,
      so `Num` carries an exact real. */
  datatype Value =
    | Undefined
    | Null
    | Bool(b: bool)
    | Num(n: real)
    | Str(s: string)
    | Arr(elems: seq<Value>)
    | Obj(fields: map<string, Value>)

  /** `v[key]`: a field of an object; anything else has no such field. */
  function Get(v: Value, key: string): Value {
    if v.Obj? && key in v.fields then v.fields[key] else Undefined
  }

  /** A non-null object in the JavaScript sense: objects and arrays. */
  predicate IsObject(v: Value) {
    v.Obj? || v.Arr?
  }

  /** A number with no fractional part. */
  predicate IsInteger(v: Value) {
    v.Num? && v.n.Floor as real == v.n
  }

  /** The integer part of a real, rounding toward zero. */
  function Truncate(x: real): (r: int)
    ensures 0.0 <= x ==> r == x.Floor
    ensures x.Floor as real == x ==> r == x.Floor
  {
    if 0.0 <= x then x.Floor else -((-x).Floor)
  }

  /** The longest prefix of `s` made of decimal digits. */
  function LeadingDigits(s: string): (r: string)
    ensures AllDigits(r) && |r| <= |s| && r == s[..|r|]
  {
    if |s| > 0 && IsDigit(s[0]) then [s[0]] + LeadingDigits(s[1..]) else []
  }

  function DecimalValue(d: string): nat
    requires AllDigits(d)
  {
    if d == [] then 0 else DecimalValue(d[..|d| - 1]) * 10 + (d[|d| - 1] as int - '0' as int)
  }

  /** `parseInt` on a string: leading white space, an optional sign, then
      the longest run of decimal digits; no digits gives NaN. */
  function ParseIntText(s: string): Maybe<int> {
    var t := TrimStart(s);
    var negative := |t| > 0 && t[0] == '-';
    var body := if |t| > 0 && (t[0] == '-' || t[0] == '+') then t[1..] else t;
    var digits := LeadingDigits(body);
    if digits == [] then None
    else if negative then Some(-(DecimalValue(digits) as int))
    else Some(DecimalValue(digits))
  }

  /** Leading white space that runs out before the end of `a` is all that
      `TrimStart` removes from `a + b`. */
  lemma {:induction false} TrimStartAppend(a: string, b: string)
    ensures TrimStart(a + b) == if TrimStart(a) == [] then TrimStart(b) else TrimStart(a) + b
  {
    if |a| > 0 && IsSpace(a[0]) {
      assert (a + b)[1..] == a[1..] + b;
      TrimStartAppend(a[1..], b);
    } else if a == [] {
      assert a + b == b;
    }
  }

  /** A run of digits stops at the first character that is not one. */
  lemma {:induction false} LeadingDigitsAppend(a: string, b: string)
    requires b != [] && !IsDigit(b[0])
    ensures LeadingDigits(a + b) == LeadingDigits(a)
  {
    if a == [] {
      assert a + b == b;
    } else {
      assert (a + b)[1..] == a[1..] + b;
      LeadingDigitsAppend(a[1..], b);
    }
  }

  /** `parseInt` reads nothing past a ',': the text of an array parses as
      the text of its first element. */
  lemma ParseIntTextStopsAtComma(x: string, y: string)
    ensures ParseIntText(x + "," + y) == ParseIntText(x)
  {
    var rest := "," + y;
    assert x + "," + y == x + rest;
    TrimStartAppend(x, rest);
    var t := TrimStart(x);
    if t != [] {
      var body := if t[0] == '-' || t[0] == '+' then t[1..] else t;
      assert (if t[0] == '-' || t[0] == '+' then (t + rest)[1..] else t + rest) == body + rest;
      LeadingDigitsAppend(body, rest);
    }
  }

  /** A number that `String(n)` prints in positional notation: a
      magnitude of at least 1e-6 and below 1e21. */
  predicate Positional(n: real) {
    0.000_001 <= n < 1_000_000_000_000_000_000_000.0 ||
    -1_000_000_000_000_000_000_000.0 < n <= -0.000_001
  }

  lemma FloorShrinks(y: real)
    requires y >= 10.0
    ensures (y / 10.0).Floor < y.Floor
  {
    assert y / 10.0 <= y - 9.0;
  }

  /** The first significant decimal digit of a number of at least 1. */
  function LeadDigit(x: real): (d: int)
    requires x >= 1.0
    ensures 1 <= d <= 9
    decreases x.Floor
  {
    if x < 10.0 then x.Floor
    else
      FloorShrinks(x);
      LeadDigit(x / 10.0)
  }

  /** The first significant decimal digit of a positive number below 1. */
  function LeadDigitBelowOne(x: real): (d: int)
    requires 0.0 < x < 1.0
    ensures 1 <= d <= 9
    decreases (1.0 / x).Floor
  {
    if x * 10.0 >= 1.0 then LeadDigit(x * 10.0)
    else
      assert 1.0 / x >= 10.0 by {
        assert (1.0 / x) * x == 1.0;
      }
      FloorShrinks(1.0 / x);
      assert 1.0 / (x * 10.0) == (1.0 / x) / 10.0;
      LeadDigitBelowOne(x * 10.0)
  }

  /** The first significant digit does not depend on the power of ten. */
  lemma LeadDigitScale(x: real)
    requires x >= 1.0
    ensures LeadDigit(x * 10.0) == LeadDigit(x)
  {
    assert x * 10.0 / 10.0 == x;
  }

  function Pow10(k: nat): (r: real)
    ensures r >= 1.0
  {
    if k == 0 then 1.0 else Pow10(k - 1) * 10.0
  }

  /** Every power of ten starts with the digit 1. */
  lemma {:induction false} PowerLeadDigit(k: nat)
    ensures LeadDigit(Pow10(k)) == 1
  {
    if k > 0 {
      PowerLeadDigit(k - 1);
      LeadDigitScale(Pow10(k - 1));
    }
  }

  /** The integer `parseInt` reads from `String(n)`. In positional notation
      that is `n` truncated toward zero. In exponent notation ("1e+21",
      "5e-7", "-1.5e+22") the digits stop at the '.' or the 'e', leaving
      the first significant digit with the sign of `n`. */
  function PrintedInt(n: real): int {
    if n == 0.0 || Positional(n) then Truncate(n)
    else if n > 0.0 then (if n >= 1.0 then LeadDigit(n) else LeadDigitBelowOne(n))
    else -(if -n >= 1.0 then LeadDigit(-n) else LeadDigitBelowOne(-n))
  }

  /** `Number.parseInt(v, 10)`, with a failed parse as `None`. The value is
      first turned into a string: a number prints as `PrintedInt` reads
      it; an array prints as its elements joined by ',', and since the
      parse stops at the first ',' (`ParseIntTextStopsAtComma`) it reads
      the first element, where `null` and `undefined` print as nothing;
      `null`, `undefined`, booleans and objects print as letters. */
  function ParseInt(v: Value): Maybe<int> {
    match v
    case Num(n) => Some(PrintedInt(n))
    case Str(s) => ParseIntText(s)
    case Arr(elems) => if elems == [] then None else ParseInt(elems[0])
    case _ => None
  }

  /** Numbers outside the positional range, and arrays, go through their
      printed form: a stored weight of 1e21 parses as 1, one of 5e-7 as 5,
      and `[4]` as 4. */
  lemma ParseIntPrintedForms()
    ensures ParseInt(Num(1_000_000_000_000_000_000_000.0)) == Some(1)
    ensures ParseInt(Num(0.000_000_5)) == Some(5)
    ensures ParseInt(Arr([Num(4.0)])) == Some(4)
    ensures ParseInt(Arr([])) == None && ParseInt(Arr([Null, Num(4.0)])) == None
  {
    var big := 1_000_000_000_000_000_000_000.0;
    PowerLeadDigit(21);
    assert Pow10(7) == 10_000_000.0;
    assert Pow10(14) == 100_000_000_000_000.0;
    assert Pow10(21) == big;
    assert LeadDigitBelowOne(0.000_000_5) == 5;
  }

  /** `clampInt(value, min, max)` once `value` has gone through `parseInt`:
      NaN gives `min`, anything else is clamped into `[min, max]`. */
  function ClampInt(parsed: Maybe<int>, min: int, max: int): (r: int)
    requires min <= max
    ensures min <= r <= max
    ensures parsed.None? ==> r == min
    ensures parsed.Some? && min <= parsed.value <= max ==> r == parsed.value
    ensures parsed.Some? && parsed.value < min ==> r == min
    ensures parsed.Some? && max < parsed.value ==> r == max
  {
    match parsed
    case None => min
    case Some(n) => if n < min then min else if max < n then max else n
  }

  /** An integral number inside `[min, max]` comes out of `clampInt` as
      itself, which is what lets a sanitized weight survive a reload. */
  lemma ClampIntKeepsInteger(v: Value, min: int, max: int)
    requires min <= max && IsInteger(v) && min as real <= v.n <= max as real
    requires -1_000_000_000_000_000_000_000 < min && max < 1_000_000_000_000_000_000_000
    ensures ClampInt(ParseInt(v), min, max) as real == v.n
  {
  }
}

=== FILE: load.dfy ===
/** Start-up (`loadInitialState`, script.js:135-180) and the promise that
    ties the sanitizer to the serializer: a valid state written out by
    `serializeState` is read back unchanged and without repairs. */
module Load {
  import opened Text
  import opened Json
  import opened Wrappers
  import opened Model
  import opened Sanitize

  /** What reading the storage slot gave: the storage threw, the slot was
      empty, its text was not JSON, or the text parsed to `payload`. */
  datatype Stored = StorageUnavailable | NothingSaved | Unparsable | Parsed(payload: Value)

  /** The status line `loadInitialState` leaves behind. */
  datatype LoadStatus =
    | NoStatus
    | StorageWarning      // "Local storage is unavailable. ..."
    | CorruptedReset      // "Saved data was corrupted and has been reset."
    | InvalidReset        // "Saved data was invalid and has been reset."
    | UnsupportedReset    // "Saved data used an unsupported format and was reset."
    | RepairedInfo        // "Some saved data was repaired during load."

  /** A payload of the current format version. */
  predicate CurrentVersion(payload: Value) {
    Get(payload, "version") == Num(APP_VERSION as real)
  }

  /** `loadInitialState()`: the default state unless the slot holds an
      object of the current version, which is then sanitized. The id
      generator and the clock are the parameters `pool` and `now`. */
  method LoadInitialState(stored: Stored, pool: seq<Id>, now: nat) returns (s: State, status: LoadStatus)
    requires |pool| >= MAX_OPTIONS + MAX_CRITERIA && FreshPool(pool)
    requires stored.Parsed? ==> PoolFor(pool, stored.payload)
    ensures ValidState(s)
    ensures stored.StorageUnavailable? ==> s == DefaultState(pool, now) && status == StorageWarning
    ensures stored.NothingSaved? ==> s == DefaultState(pool, now) && status == NoStatus
    ensures stored.Unparsable? ==> s == DefaultState(pool, now) && status == CorruptedReset
    ensures stored.Parsed? && !IsObject(stored.payload) ==> s == DefaultState(pool, now) && status == InvalidReset
    ensures stored.Parsed? && IsObject(stored.payload) && !CurrentVersion(stored.payload) ==>
      s == DefaultState(pool, now) && status == UnsupportedReset
    ensures stored.Parsed? && IsObject(stored.payload) && CurrentVersion(stored.payload) ==>
      (status == NoStatus <==> CleanState(stored.payload)) &&
      (status == NoStatus || status == RepairedInfo) &&
      (CleanState(stored.payload) ==> s == ParsedState(stored.payload))
  {
    var fallback := DefaultState(pool, now);
    match stored
    case StorageUnavailable =>
      return fallback, StorageWarning;
    case NothingSaved =>
      return fallback, NoStatus;
    case Unparsable =>
      return fallback, CorruptedReset;
    case Parsed(parsed) =>
      if !IsObject(parsed) {
        return fallback, InvalidReset;
      }
      if !CurrentVersion(parsed) {
        // `migrateState` knows no older format and always gives up.
        return fallback, UnsupportedReset;
      }
      var sanitized := SanitizeV1State(parsed, pool, now);
      var result := sanitized.value;
      s := result.state;
      status := if result.repaired then RepairedInfo else NoStatus;
  }

  // ---------------------------------------------------------- round trip

  lemma OptionRoundTrip(o: Option)
    requires ValidOption(o)
    ensures CleanEntry(OptionKind, OptionJson(o)) && ParsedOption(OptionJson(o)) == o
  {
    TrimmedIsFixed(o.name);
  }

  lemma CriterionRoundTrip(c: Criterion)
    requires ValidCriterion(c)
    ensures CleanEntry(CriterionKind, CriterionJson(c)) && ParsedCriterion(CriterionJson(c)) == c
  {
    TrimmedIsFixed(c.name);
    ClampIntKeepsInteger(Num(c.weight as real), 1, 5);
  }

  /** The options written out are a clean list that reads back as the
      same options. */
  lemma OptionsRoundTrip(os: seq<Option>)
    requires ValidOptions(os)
    ensures CleanList(OptionKind, Arr(OptionsJson(os))) && ParsedOptions(OptionsJson(os)) == os
  {
    var elems := OptionsJson(os);
    forall i | 0 <= i < |os|
      ensures CleanEntry(OptionKind, elems[i]) && ParsedOption(elems[i]) == os[i]
    {
      OptionRoundTrip(os[i]);
    }
    assert elems[..|elems|] == elems;
    assert ParsedOptions(elems) == os;
  }

  lemma CriteriaRoundTrip(cs: seq<Criterion>)
    requires ValidCriteria(cs)
    ensures CleanList(CriterionKind, Arr(CriteriaJson(cs))) && ParsedCriteria(CriteriaJson(cs)) == cs
  {
    var elems := CriteriaJson(cs);
    forall i | 0 <= i < |cs|
      ensures CleanEntry(CriterionKind, elems[i]) && ParsedCriterion(elems[i]) == cs[i]
    {
      CriterionRoundTrip(cs[i]);
    }
    assert elems[..|elems|] == elems;
    assert ParsedCriteria(elems) == cs;
  }

  /** A rating of a valid state is one the serializer writes out. */
  lemma RatingPersisted(s: State, c: Cell)
    requires ValidState(s) && c in s.ratings
    ensures Persisted(s, c) && RatingKey(c) in RatingsJson(s)
    ensures RatingsJson(s)[RatingKey(c)] == Num(s.ratings[c] as real)
  {
    var i :| 0 <= i < |s.options| && OptionIds(s.options)[i] == c.optionId;
    var j :| 0 <= j < |s.criteria| && CriterionIds(s.criteria)[j] == c.criterionId;
    assert ValidOption(s.options[i]) && ValidCriterion(s.criteria[j]);
  }

  /** Every rating written out passes the sanitizer's test. */
  lemma RatingsAllKept(s: State)
    ensures var fields := RatingsJson(s);
      forall key :: key in fields ==>
        KeepsRating(key, fields[key], Set(OptionIds(s.options)), Set(CriterionIds(s.criteria)))
  {
    var fields := RatingsJson(s);
    forall key | key in fields
      ensures KeepsRating(key, fields[key], Set(OptionIds(s.options)), Set(CriterionIds(s.criteria)))
    {
      var c := ParseKey(key).value;
      KeyOfParsedKey(key);
      PersistedIsKept(s, c);
    }
  }

  lemma PersistedIsKept(s: State, c: Cell)
    requires Persisted(s, c)
    ensures KeepsRating(RatingKey(c), Num(s.ratings[c] as real), Set(OptionIds(s.options)), Set(CriterionIds(s.criteria)))
  {
    ParseRatingKey(c);
  }

  /** The ratings read back from the written ones are the state's. */
  lemma RatingsRoundTrip(s: State)
    requires forall c :: c in s.ratings ==> Persisted(s, c)
    ensures var fields := RatingsJson(s);
      KeptRatings(fields, fields.Keys, Set(OptionIds(s.options)), Set(CriterionIds(s.criteria))) == s.ratings
  {
    var fields := RatingsJson(s);
    var optionIds, criterionIds := Set(OptionIds(s.options)), Set(CriterionIds(s.criteria));
    forall c | c in s.ratings
      ensures RatingKey(c) in fields && ParseKey(RatingKey(c)) == Some(c)
      ensures KeepsRating(RatingKey(c), fields[RatingKey(c)], optionIds, criterionIds)
      ensures fields[RatingKey(c)].n.Floor == s.ratings[c]
    {
      PersistedIsKept(s, c);
      ParseRatingKey(c);
    }
    KeptOfCellMap(s.ratings, fields, optionIds, criterionIds);
  }

  /** A map of ratings whose every entry is written under its key, with
      no other key written, is what the sanitizer reads back. */
  lemma KeptOfCellMap(m: map<Cell, int>, fields: map<string, Value>, optionIds: set<Id>, criterionIds: set<Id>)
    requires forall c :: c in m ==>
      RatingKey(c) in fields && ParseKey(RatingKey(c)) == Some(c) &&
      KeepsRating(RatingKey(c), fields[RatingKey(c)], optionIds, criterionIds) &&
      fields[RatingKey(c)].n.Floor == m[c]
    requires forall key :: key in fields ==> ParseKey(key).Some? && ParseKey(key).value in m
    ensures KeptRatings(fields, fields.Keys, optionIds, criterionIds) == m
  {
    var kept := KeptRatings(fields, fields.Keys, optionIds, criterionIds);
    assert forall c :: c in m ==> c in kept && kept[c] == m[c];
    assert kept.Keys == m.Keys;
  }

  /** Every rating of a valid state is one the serializer writes out. */
  lemma AllRatingsPersisted(s: State)
    requires ValidState(s)
    ensures forall c :: c in s.ratings ==> Persisted(s, c)
  {
    forall c | c in s.ratings
      ensures Persisted(s, c)
    {
      RatingPersisted(s, c);
    }
  }

  /** The fields of the payload, one by one. */
  lemma SerializedFields(s: State)
    ensures var v := Serialize(s);
      IsObject(v) && CurrentVersion(v) &&
      TitleSource(v) == Take(Trim(s.title), MAX_TITLE_LENGTH) &&
      Get(v, "options") == Arr(OptionsJson(s.options)) &&
      Get(v, "criteria") == Arr(CriteriaJson(s.criteria)) &&
      Get(v, "ratings") == Obj(RatingsJson(s)) &&
      Get(v, "updatedAt") == Num(s.updatedAt)
  {
    SerializedHead(s);
    SerializedLists(s);
    SerializedTail(s);
  }

  lemma SerializedHead(s: State)
    ensures var v := Serialize(s);
      IsObject(v) && CurrentVersion(v) && TitleSource(v) == Take(Trim(s.title), MAX_TITLE_LENGTH)
  {
    var v := Serialize(s);
    assert Get(v, "title") == Str(Take(Trim(s.title), MAX_TITLE_LENGTH));
  }

  lemma SerializedLists(s: State)
    ensures var v := Serialize(s);
      Get(v, "options") == Arr(OptionsJson(s.options)) &&
      Get(v, "criteria") == Arr(CriteriaJson(s.criteria))
  {
  }

  lemma SerializedTail(s: State)
    ensures var v := Serialize(s);
      Get(v, "ratings") == Obj(RatingsJson(s)) && Get(v, "updatedAt") == Num(s.updatedAt)
  {
  }

  /** The payload written for a valid state needs no repair. */
  lemma SerializedIsClean(s: State)
    requires ValidState(s)
    ensures CleanState(Serialize(s))
  {
    SerializedFields(s);
    OptionsRoundTrip(s.options);
    CriteriaRoundTrip(s.criteria);
    RatingsAllKept(s);
  }

  /** The payload written for a valid, trimmed state reads back as it. */
  lemma SerializedReadsBack(s: State)
    requires ValidState(s) && IsTrimmed(s.title)
    requires CleanState(Serialize(s))
    ensures ParsedState(Serialize(s)) == s
  {
    SerializedFields(s);
    TrimmedIsFixed(s.title);
    OptionsRoundTrip(s.options);
    CriteriaRoundTrip(s.criteria);
    AllRatingsPersisted(s);
    RatingsRoundTrip(s);
  }

  /** Sanitizing what `serializeState` writes (after the JSON round trip,
      which is not modelled) gives back the state itself with nothing repaired: the serialized
      form of a valid state is clean and reads back as that state. */
  lemma SerializeRoundTrip(s: State)
    requires ValidState(s) && IsTrimmed(s.title)
    ensures IsObject(Serialize(s)) && CurrentVersion(Serialize(s))
    ensures CleanState(Serialize(s)) && ParsedState(Serialize(s)) == s
  {
    SerializedFields(s);
    SerializedIsClean(s);
    SerializedReadsBack(s);
  }
}

=== FILE: model.dfy ===
/** The decision model: options, weighted criteria, sparse ratings, the
    invariants every live or freshly loaded state satisfies, the default
    state, the rating keys and the persisted form (script.js:1-27, 89-131,
    1180-1203, 1256-1258). */
module Model {
  import opened Text
  import opened Json
  import opened Wrappers

  const APP_VERSION: int := 1
  const MIN_OPTIONS: nat := 2
  const MAX_OPTIONS: nat := 20
  const MIN_CRITERIA: nat := 1
  const MAX_CRITERIA: nat := 20
  const MAX_TITLE_LENGTH: nat := 80
  const MAX_OPTION_NAME_LENGTH: nat := 60
  const MAX_CRITERION_NAME_LENGTH: nat := 40
  const MAX_NOTE_LENGTH: nat := 500

  /** The two named collections; the source duplicates its name logic for
      each, with these prefixes and bounds. */
  datatype Kind = OptionKind | CriterionKind {
    function Prefix(): string {
      if OptionKind? then "Option" else "Criterion"
    }
    function MaxNameLength(): nat {
      if OptionKind? then MAX_OPTION_NAME_LENGTH else MAX_CRITERION_NAME_LENGTH
    }
    function MinCount(): nat {
      if OptionKind? then MIN_OPTIONS else MIN_CRITERIA
    }
    function MaxCount(): nat {
      if OptionKind? then MAX_OPTIONS else MAX_CRITERIA
    }
  }

  type Id = string

  /** Ids are non-empty, and never contain the ':' that joins two ids into
      a rating key. */
  predicate ValidId(id: Id) {
    |id| > 0 && ':' !in id
  }

  datatype Option = Option(id: Id, name: string, note: string, createdAt: real)

  datatype Criterion = Criterion(id: Id, name: string, weight: int, createdAt: real)

  /** The (option, criterion) pair a rating belongs to. */
  datatype Cell = Cell(optionId: Id, criterionId: Id)

  /** The live state; its `version` is always APP_VERSION and is left
      implicit. */
  datatype State = State(
    title: string,
    options: seq<Option>,
    criteria: seq<Criterion>,
    ratings: map<Cell, int>,
    updatedAt: real)

  function OptionIds(os: seq<Option>): (r: seq<Id>)
    ensures |r| == |os| && forall i :: 0 <= i < |os| ==> r[i] == os[i].id
  {
    seq(|os|, i requires 0 <= i < |os| => os[i].id)
  }

  function OptionNames(os: seq<Option>): (r: seq<string>)
    ensures |r| == |os| && forall i :: 0 <= i < |os| ==> r[i] == os[i].name
  {
    seq(|os|, i requires 0 <= i < |os| => os[i].name)
  }

  function CriterionIds(cs: seq<Criterion>): (r: seq<Id>)
    ensures |r| == |cs| && forall i :: 0 <= i < |cs| ==> r[i] == cs[i].id
  {
    seq(|cs|, i requires 0 <= i < |cs| => cs[i].id)
  }

  function CriterionNames(cs: seq<Criterion>): (r: seq<string>)
    ensures |r| == |cs| && forall i :: 0 <= i < |cs| ==> r[i] == cs[i].name
  {
    seq(|cs|, i requires 0 <= i < |cs| => cs[i].name)
  }

  predicate Distinct<T(==)>(s: seq<T>) {
    forall i, j :: 0 <= i < j < |s| ==> s[i] != s[j]
  }

  /** Names pairwise distinct after case folding. */
  predicate FoldDistinct(names: seq<string>) {
    forall i, j :: 0 <= i < j < |names| ==> Lower(names[i]) != Lower(names[j])
  }

  /** The folded forms of `names`. */
  function NameSet(names: seq<string>): set<string> {
    set i | 0 <= i < |names| :: Lower(names[i])
  }

  lemma {:induction false} NameSetCard(names: seq<string>)
    ensures |NameSet(names)| <= |names|
  {
    if names != [] {
      var init := names[..|names| - 1];
      NameSetCard(init);
      NameSetSnoc(init, names[|names| - 1]);
      assert init + [names[|names| - 1]] == names;
    }
  }

  lemma NameSetSnoc(names: seq<string>, x: string)
    ensures NameSet(names + [x]) == NameSet(names) + {Lower(x)}
  {
    var all := names + [x];
    assert forall i :: 0 <= i < |names| ==> all[i] == names[i];
    assert Lower(all[|names|]) == Lower(x);
  }

  lemma DistinctSnoc<T>(s: seq<T>, x: T)
    ensures Distinct(s + [x]) <==> Distinct(s) && x !in s
  {
    var all := s + [x];
    assert forall i :: 0 <= i < |s| ==> all[i] == s[i];
    if x in s {
      var i :| 0 <= i < |s| && s[i] == x;
      assert all[i] == all[|s|];
    }
    if Distinct(s) && x !in s {
      forall i, j | 0 <= i < j < |all|
        ensures all[i] != all[j]
      {
        if j == |s| {
          assert all[i] == s[i];
        }
      }
    }
  }

  lemma FoldDistinctSnoc(names: seq<string>, x: string)
    ensures FoldDistinct(names + [x]) <==> FoldDistinct(names) && Lower(x) !in NameSet(names)
  {
    var all := names + [x];
    assert forall i :: 0 <= i < |names| ==> all[i] == names[i];
    if Lower(x) in NameSet(names) {
      var i :| 0 <= i < |names| && Lower(names[i]) == Lower(x);
      assert Lower(all[i]) == Lower(all[|names|]);
    }
    if FoldDistinct(names) && Lower(x) !in NameSet(names) {
      forall i, j | 0 <= i < j < |all|
        ensures Lower(all[i]) != Lower(all[j])
      {
        if j == |names| {
          assert all[i] == names[i];
          assert Lower(names[i]) in NameSet(names);
        }
      }
    }
  }

  predicate ValidName(kind: Kind, name: string) {
    name != "" && |name| <= kind.MaxNameLength() && IsTrimmed(name)
  }

  predicate ValidOption(o: Option) {
    ValidId(o.id) && ValidName(OptionKind, o.name) && |o.note| <= MAX_NOTE_LENGTH
  }

  predicate ValidCriterion(c: Criterion) {
    ValidId(c.id) && ValidName(CriterionKind, c.name) && 1 <= c.weight <= 5
  }

  /** Entry invariants and uniqueness, without the count bounds. */
  predicate WellFormedOptions(os: seq<Option>) {
    (forall i :: 0 <= i < |os| ==> ValidOption(os[i])) &&
    Distinct(OptionIds(os)) && FoldDistinct(OptionNames(os))
  }

  predicate WellFormedCriteria(cs: seq<Criterion>) {
    (forall i :: 0 <= i < |cs| ==> ValidCriterion(cs[i])) &&
    Distinct(CriterionIds(cs)) && FoldDistinct(CriterionNames(cs))
  }

  /** Appending an entry with a new id and a new folded name keeps a list
      well formed. */
  lemma AppendOption(os: seq<Option>, o: Option)
    requires WellFormedOptions(os) && ValidOption(o)
    requires o.id !in OptionIds(os) && Lower(o.name) !in NameSet(OptionNames(os))
    ensures WellFormedOptions(os + [o])
    ensures OptionIds(os + [o]) == OptionIds(os) + [o.id]
    ensures OptionNames(os + [o]) == OptionNames(os) + [o.name]
    ensures NameSet(OptionNames(os + [o])) == NameSet(OptionNames(os)) + {Lower(o.name)}
  {
    assert OptionIds(os + [o]) == OptionIds(os) + [o.id];
    assert OptionNames(os + [o]) == OptionNames(os) + [o.name];
    DistinctSnoc(OptionIds(os), o.id);
    FoldDistinctSnoc(OptionNames(os), o.name);
    NameSetSnoc(OptionNames(os), o.name);
  }

  lemma AppendCriterion(cs: seq<Criterion>, c: Criterion)
    requires WellFormedCriteria(cs) && ValidCriterion(c)
    requires c.id !in CriterionIds(cs) && Lower(c.name) !in NameSet(CriterionNames(cs))
    ensures WellFormedCriteria(cs + [c])
    ensures CriterionIds(cs + [c]) == CriterionIds(cs) + [c.id]
    ensures CriterionNames(cs + [c]) == CriterionNames(cs) + [c.name]
    ensures NameSet(CriterionNames(cs + [c])) == NameSet(CriterionNames(cs)) + {Lower(c.name)}
  {
    assert CriterionIds(cs + [c]) == CriterionIds(cs) + [c.id];
    assert CriterionNames(cs + [c]) == CriterionNames(cs) + [c.name];
    DistinctSnoc(CriterionIds(cs), c.id);
    FoldDistinctSnoc(CriterionNames(cs), c.name);
    NameSetSnoc(CriterionNames(cs), c.name);
  }

  predicate ValidOptions(os: seq<Option>) {
    MIN_OPTIONS <= |os| <= MAX_OPTIONS && WellFormedOptions(os)
  }

  predicate ValidCriteria(cs: seq<Criterion>) {
    MIN_CRITERIA <= |cs| <= MAX_CRITERIA && WellFormedCriteria(cs)
  }

  /** Every rating belongs to a live option and a live criterion and lies
      in 1..5. */
  predicate ValidRatings(ratings: map<Cell, int>, os: seq<Option>, cs: seq<Criterion>) {
    forall c :: c in ratings ==>
      c.optionId in OptionIds(os) && c.criterionId in CriterionIds(cs) && 1 <= ratings[c] <= 5
  }

  predicate ValidState(s: State) {
    |s.title| <= MAX_TITLE_LENGTH &&
    ValidOptions(s.options) && ValidCriteria(s.criteria) &&
    ValidRatings(s.ratings, s.options, s.criteria)
  }

  /** `createOption(name, createdAt)` with the id drawn from the id
      generator. */
  function CreateOption(id: Id, name: string, createdAt: real): (o: Option)
    ensures o.id == id && o.note == "" && o.createdAt == createdAt
    ensures |o.name| <= MAX_OPTION_NAME_LENGTH && StartsWith(name, o.name)
    ensures |name| <= MAX_OPTION_NAME_LENGTH ==> o.name == name
    ensures |name| > MAX_OPTION_NAME_LENGTH ==> o.name == name[..MAX_OPTION_NAME_LENGTH]
  {
    Option(id, Take(name, MAX_OPTION_NAME_LENGTH), "", createdAt)
  }

  /** `createCriterion(name, weight, createdAt)` with the id drawn from the
      id generator. */
  function CreateCriterion(id: Id, name: string, weight: int, createdAt: real): (c: Criterion)
    ensures c.id == id && c.createdAt == createdAt && 1 <= c.weight <= 5
    ensures 1 <= weight <= 5 ==> c.weight == weight
    ensures |c.name| <= MAX_CRITERION_NAME_LENGTH && StartsWith(name, c.name)
    ensures |name| <= MAX_CRITERION_NAME_LENGTH ==> c.name == name
    ensures |name| > MAX_CRITERION_NAME_LENGTH ==> c.name == name[..MAX_CRITERION_NAME_LENGTH]
  {
    Criterion(id, Take(name, MAX_CRITERION_NAME_LENGTH), ClampInt(Some(weight), 1, 5), createdAt)
  }

  /** Ids handed out by the id generator: usable and never repeated. */
  predicate FreshPool(pool: seq<Id>) {
    (forall i :: 0 <= i < |pool| ==> ValidId(pool[i])) && Distinct(pool)
  }

  /** The two options of `createDefaultState()`. */
  function DefaultOptions(pool: seq<Id>, t: real): (os: seq<Option>)
    requires |pool| >= 2
    requires ValidId(pool[0]) && ValidId(pool[1]) && pool[0] != pool[1]
    ensures ValidOptions(os) && |os| == 2
  {
    var a, b := CreateOption(pool[0], "Option A", t), CreateOption(pool[1], "Option B", t + 1.0);
    assert IsTrimmed(a.name) && IsTrimmed(b.name);
    assert Lower(a.name)[7] != Lower(b.name)[7];
    [a, b]
  }

  /** The three weighted criteria of `createDefaultState()`. */
  function DefaultCriteria(pool: seq<Id>, t: real): (cs: seq<Criterion>)
    requires |pool| >= 3
    requires ValidId(pool[0]) && ValidId(pool[1]) && ValidId(pool[2])
    requires pool[0] != pool[1] && pool[0] != pool[2] && pool[1] != pool[2]
    ensures ValidCriteria(cs) && |cs| == 3
  {
    var price := CreateCriterion(pool[0], "Price", 4, t);
    var quality := CreateCriterion(pool[1], "Quality", 5, t + 1.0);
    var convenience := CreateCriterion(pool[2], "Convenience", 3, t + 2.0);
    assert IsTrimmed(price.name) && IsTrimmed(quality.name) && IsTrimmed(convenience.name);
    [price, quality, convenience]
  }

  /** `createDefaultState()`: two options, three weighted criteria, no
      ratings, all stamped with the clock reading `now`. */
  function DefaultState(pool: seq<Id>, now: nat): (s: State)
    requires |pool| >= 5 && FreshPool(pool)
    ensures ValidState(s)
    ensures s.title == "" && s.ratings == map[] && s.updatedAt == now as real
    ensures |s.options| == 2 && |s.criteria| == 3
  {
    var t := now as real;
    State("", DefaultOptions(pool, t), DefaultCriteria(pool[2..], t + 100.0), map[], t)
  }

  // ---------------------------------------------------------------- keys

  /** `ratingKey(optionId, criterionId)` */
  function RatingKey(c: Cell): string {
    c.optionId + ":" + c.criterionId
  }

  predicate ColonFree(c: Cell) {
    ':' !in c.optionId && ':' !in c.criterionId
  }

  /** Position of the first ':' in `s`, or `|s|` when there is none. */
  function ColonIndex(s: string): (i: nat)
    ensures i <= |s| && ':' !in s[..i]
    ensures i < |s| ==> s[i] == ':'
  {
    if s == [] then 0
    else if s[0] == ':' then 0
    else assert s[..1 + ColonIndex(s[1..])] == [s[0]] + s[1..][..ColonIndex(s[1..])]; 1 + ColonIndex(s[1..])
  }

  /** Reads a rating key back as the pair it was built from: exactly one
      ':' separates the option id from the criterion id. */
  function ParseKey(key: string): Maybe<Cell> {
    var i := ColonIndex(key);
    if i == |key| then None
    else if ':' in key[i + 1..] then None
    else Some(Cell(key[..i], key[i + 1..]))
  }

  /** `ColonIndex` finds the first ':' and nothing earlier. */
  lemma {:induction false} ColonIndexIsFirst(s: string, n: nat)
    requires n <= |s| && ':' !in s[..n] && (n < |s| ==> s[n] == ':')
    ensures ColonIndex(s) == n
  {
    if n > 0 {
      assert s[0] == s[..n][0];
      assert s[1..][..n - 1] == s[..n][1..];
      ColonIndexIsFirst(s[1..], n - 1);
    }
  }

  /** Building a key from colon-free ids and parsing it gives the ids back. */
  lemma ParseRatingKey(c: Cell)
    requires ColonFree(c)
    ensures ParseKey(RatingKey(c)) == Some(c)
  {
    var k := RatingKey(c);
    assert k[..|c.optionId|] == c.optionId;
    ColonIndexIsFirst(k, |c.optionId|);
    assert k[|c.optionId| + 1..] == c.criterionId;
  }

  /** Every key that parses is the key of the pair it parses to. */
  lemma KeyOfParsedKey(key: string)
    requires ParseKey(key).Some?
    ensures ColonFree(ParseKey(key).value)
    ensures RatingKey(ParseKey(key).value) == key
  {
    var i := ColonIndex(key);
    assert key == key[..i] + [key[i]] + key[i + 1..];
  }

  /** Distinct colon-free pairs have distinct keys. */
  lemma RatingKeyInjective(a: Cell, b: Cell)
    requires ColonFree(a) && ColonFree(b)
    ensures RatingKey(a) == RatingKey(b) ==> a == b
  {
    ParseRatingKey(a);
    ParseRatingKey(b);
  }

  /** In the key of a colon-free pair, the only ':' is the separator. */
  lemma OnlySeparatorColon(c: Cell, q: int)
    requires ColonFree(c) && 0 <= q < |RatingKey(c)| && RatingKey(c)[q] == ':'
    ensures q == |c.optionId|
  {
    var k, i := RatingKey(c), |c.optionId|;
    assert forall p :: 0 <= p < i ==> k[p] == c.optionId[p];
    assert forall p :: i < p < |k| ==> k[p] == c.criterionId[p - i - 1];
  }

  /** For a colon-free pair, the prefix test of `pruneRatingsByOption`
      (script.js:724-731) selects exactly the keys of that option, whatever
      the id asked for. */
  lemma PrefixSelectsOption(c: Cell, optionId: Id)
    requires ColonFree(c)
    ensures StartsWith(RatingKey(c), optionId + ":") <==> c.optionId == optionId
  {
    var k, p := RatingKey(c), optionId + ":";
    if StartsWith(k, p) {
      assert k[|optionId|] == p[|optionId|] == ':';
      OnlySeparatorColon(c, |optionId|);
      assert c.optionId == k[..|optionId|] == p[..|optionId|] == optionId;
    }
  }

  /** For a colon-free pair, the suffix test of `pruneRatingsByCriterion`
      (script.js:733-740) selects exactly the keys of that criterion,
      whatever the id asked for. */
  lemma SuffixSelectsCriterion(c: Cell, criterionId: Id)
    requires ColonFree(c)
    ensures EndsWith(RatingKey(c), ":" + criterionId) <==> c.criterionId == criterionId
  {
    var k, p := RatingKey(c), ":" + criterionId;
    if EndsWith(k, p) {
      var j := |k| - |p|;
      assert k[j] == p[0] == ':';
      OnlySeparatorColon(c, j);
      assert c.criterionId == k[j + 1..] == p[1..] == criterionId;
    }
  }

  // ------------------------------------------------------ persisted form

  function OptionJson(o: Option): Value {
    Obj(map[
      "id" := Str(o.id),
      "name" := Str(Take(Trim(o.name), MAX_OPTION_NAME_LENGTH)),
      "note" := Str(Take(o.note, MAX_NOTE_LENGTH)),
      "createdAt" := Num(o.createdAt)])
  }

  function CriterionJson(c: Criterion): Value {
    Obj(map[
      "id" := Str(c.id),
      "name" := Str(Take(Trim(c.name), MAX_CRITERION_NAME_LENGTH)),
      "weight" := Num(ClampInt(Some(c.weight), 1, 5) as real),
      "createdAt" := Num(c.createdAt)])
  }

  function OptionsJson(os: seq<Option>): (r: seq<Value>)
    ensures |r| == |os| && forall i :: 0 <= i < |os| ==> r[i] == OptionJson(os[i])
  {
    seq(|os|, i requires 0 <= i < |os| => OptionJson(os[i]))
  }

  function CriteriaJson(cs: seq<Criterion>): (r: seq<Value>)
    ensures |r| == |cs| && forall i :: 0 <= i < |cs| ==> r[i] == CriterionJson(cs[i])
  {
    seq(|cs|, i requires 0 <= i < |cs| => CriterionJson(cs[i]))
  }

  /** A rating the serializer writes out: its ids are live, its key reads
      back, and its value is an integer in 1..5. */
  predicate Persisted(s: State, c: Cell) {
    c in s.ratings && ColonFree(c) &&
    c.optionId in OptionIds(s.options) && c.criterionId in CriterionIds(s.criteria) &&
    1 <= s.ratings[c] <= 5
  }

  /** The `ratings` object written out: one numeric entry per persisted
      rating, under that rating's key. */
  function RatingsJson(s: State): (r: map<string, Value>)
    ensures forall c :: Persisted(s, c) ==> RatingKey(c) in r && r[RatingKey(c)] == Num(s.ratings[c] as real)
    ensures forall key :: key in r ==> ParseKey(key).Some? && Persisted(s, ParseKey(key).value)
  {
    var keys := set c | c in s.ratings && Persisted(s, c) :: RatingKey(c);
    assert forall c :: Persisted(s, c) ==> ParseKey(RatingKey(c)) == Some(c) by {
      forall c | Persisted(s, c) {
        ParseRatingKey(c);
      }
    }
    map key | key in keys :: Num(s.ratings[ParseKey(key).value] as real)
  }

  /** `serializeState()`: the payload written to storage. */
  function Serialize(s: State): Value {
    Obj(map[
      "version" := Num(APP_VERSION as real),
      "title" := Str(Take(Trim(s.title), MAX_TITLE_LENGTH)),
      "options" := Arr(OptionsJson(s.options)),
      "criteria" := Arr(CriteriaJson(s.criteria)),
      "ratings" := Obj(RatingsJson(s)),
      "updatedAt" := Num(s.updatedAt)])
  }
}

=== FILE: names.dfy ===
/** Name handling shared by options and criteria: the collision-free
    renaming the sanitizer applies (`uniqueName`, script.js:401-415), the
    default name for a new entry (`nextOptionName`, `nextCriterionName`,
    script.js:790-810) and the checks a rename must pass
    (`validateOptionName`, `validateCriterionName`, script.js:742-780). */
module Names {
  import opened Text
  import opened Model

  // ------------------------------------------------------------ uniqueName

  /** `${prefix} ${n}`: the generated name with number `n`. */
  function Label(kind: Kind, n: nat): string {
    kind.Prefix() + " " + NatStr(n)
  }

  /** The name `uniqueName` starts from: the trimmed raw name, or the
      numbered default when that is empty, cut to the length limit. */
  function BaseName(raw: string, kind: Kind, ordinal: nat): string {
    var t := Trim(raw);
    Take(if t != "" then t else Label(kind, ordinal), kind.MaxNameLength())
  }

  /** The base name is a non-empty prefix of the trimmed raw name (or of
      the numbered default) within the length limit, and it is trimmed
      whenever the raw name was within the limit. */
  lemma BaseNameShape(raw: string, kind: Kind, ordinal: nat)
    ensures var b := BaseName(raw, kind, ordinal);
      b != "" && |b| <= kind.MaxNameLength() &&
      (Trim(raw) != "" ==> StartsWith(Trim(raw), b)) &&
      (Trim(raw) == "" ==> StartsWith(Label(kind, ordinal), b)) &&
      (|raw| <= kind.MaxNameLength() ==> IsTrimmed(b))
  {
    var t := Trim(raw);
    var m := kind.MaxNameLength();
    if t != "" {
      TrimIsTrimmed(raw);
    } else {
      var l := Label(kind, ordinal);
      var b := Take(l, m);
      assert IsDigit(l[|b| - 1]) by {
        var p := kind.Prefix() + " ";
        assert l[|b| - 1] == NatStr(ordinal)[|b| - 1 - |p|];
      }
    }
  }

  /** " (k)" */
  function Suffix(k: nat): string {
    " (" + NatStr(k) + ")"
  }

  /** The `k`-th attempt once the base name is taken: the base cut short
      enough to leave room for " (k)", the suffix appended, then trimmed. */
  function Candidate(base: string, maxLength: nat, k: nat): string {
    Trim(SliceTo(base, maxLength - |Suffix(k)|) + Suffix(k))
  }

  /** Every attempt is a trimmed, non-empty name that, folded or not, ends
      in "(k)"; with a short enough suffix it respects the length limit. */
  lemma CandidateShape(base: string, maxLength: nat, k: nat)
    ensures IsTrimmed(Candidate(base, maxLength, k)) && Candidate(base, maxLength, k) != ""
    ensures EndsWith(Lower(Candidate(base, maxLength, k)), "(" + NatStr(k) + ")")
    ensures |Suffix(k)| <= maxLength ==> |Candidate(base, maxLength, k)| <= maxLength
  {
    var d := NatStr(k);
    var t := "(" + d + ")";
    var s := SliceTo(base, maxLength - |Suffix(k)|) + Suffix(k);
    assert s[|s| - |t|..] == t;
    TrimKeepsParenDigits(s, d);
    LowerKeepsParenDigits(Trim(s), d);
    TrimIsTrimmed(s);
  }

  /** Different attempts never fold to the same name. */
  lemma CandidateFoldInjective(base: string, maxLength: nat, a: nat, b: nat)
    ensures Lower(Candidate(base, maxLength, a)) == Lower(Candidate(base, maxLength, b)) ==> a == b
  {
    CandidateShape(base, maxLength, a);
    CandidateShape(base, maxLength, b);
    ParenDigitsDetermined(Lower(Candidate(base, maxLength, a)), NatStr(a), NatStr(b));
    NatStrInjective(a, b);
  }

  /** The folded attempts 2 .. n-1. */
  ghost function Tried(base: string, maxLength: nat, n: nat): set<string> {
    set j | 2 <= j < n :: Lower(Candidate(base, maxLength, j))
  }

  /** The values `f` takes on lo .. hi-1. */
  ghost function Image(f: nat -> string, lo: nat, hi: nat): set<string> {
    set j | lo <= j < hi :: f(j)
  }

  /** An injective map sends `hi - lo` numbers to `hi - lo` values. */
  lemma {:induction false} ImageCard(f: nat -> string, lo: nat, hi: nat)
    requires lo <= hi
    requires forall a, b :: lo <= a < hi && lo <= b < hi && f(a) == f(b) ==> a == b
    ensures |Image(f, lo, hi)| == hi - lo
  {
    if lo < hi {
      ImageCard(f, lo, hi - 1);
      ImageSnoc(f, lo, hi);
    }
  }

  /** One more number adds one new value. */
  lemma ImageSnoc(f: nat -> string, lo: nat, hi: nat)
    requires lo < hi
    requires forall a, b :: lo <= a < hi && lo <= b < hi && f(a) == f(b) ==> a == b
    ensures Image(f, lo, hi) == Image(f, lo, hi - 1) + {f(hi - 1)}
    ensures f(hi - 1) !in Image(f, lo, hi - 1)
  {
    forall j | lo <= j < hi - 1
      ensures f(j) != f(hi - 1)
    {
    }
  }

  /** Distinct attempts fold apart, so n - 2 of them make n - 2 names. */
  lemma TriedCard(base: string, maxLength: nat, n: nat)
    requires n >= 2
    ensures |Tried(base, maxLength, n)| == n - 2
  {
    var f := (j: nat) => Lower(Candidate(base, maxLength, j));
    forall a, b | 2 <= a < n && 2 <= b < n && f(a) == f(b)
      ensures a == b
    {
      CandidateFoldInjective(base, maxLength, a, b);
    }
    ImageCard(f, 2, n);
    assert forall j: nat :: f(j) == Lower(Candidate(base, maxLength, j));
    assert Tried(base, maxLength, n) == Image(f, 2, n);
  }

  /** One more attempt adds its folded form. */
  lemma TriedSnoc(base: string, maxLength: nat, n: nat)
    requires n >= 2
    ensures Tried(base, maxLength, n + 1) == Tried(base, maxLength, n) + {Lower(Candidate(base, maxLength, n))}
  {
  }

  lemma SubsetCard<T>(a: set<T>, b: set<T>)
    requires a <= b
    ensures |a| <= |b|
  {
    assert b == a + (b - a);
  }

  /** When attempts 2 .. n-1 are all taken, `used` holds at least n - 2
      names. */
  lemma AttemptsBound(base: string, maxLength: nat, used: set<string>, n: nat)
    requires n >= 2 && Tried(base, maxLength, n) <= used
    ensures n - 2 <= |used|
  {
    TriedCard(base, maxLength, n);
    SubsetCard(Tried(base, maxLength, n), used);
  }

  /** What is known of the attempt `uniqueName` stops at, once attempts
      2 .. k-1 were all taken. */
  lemma StoppingAttempt(base: string, maxLength: nat, used: set<string>, k: nat)
    requires k >= 2 && maxLength >= 5 && Tried(base, maxLength, k) <= used
    ensures k <= |used| + 2
    ensures forall j :: 2 <= j < k ==> Lower(Candidate(base, maxLength, j)) in used
    ensures IsTrimmed(Candidate(base, maxLength, k)) && Candidate(base, maxLength, k) != ""
    ensures |used| < 98 ==> |Candidate(base, maxLength, k)| <= maxLength
  {
    AttemptsBound(base, maxLength, used, k);
    assert forall j :: 2 <= j < k ==> Lower(Candidate(base, maxLength, j)) in Tried(base, maxLength, k);
    CandidateShape(base, maxLength, k);
    if |used| < 98 {
      NatStrShort(k);
    }
  }

  /** What `uniqueName` promises of the name it picks for `raw` against
      the folded names in `used`: its folded form is new; the base name is
      kept when it is free, and otherwise the first free attempt " (2)",
      " (3)", ... is taken, one always being found among the first
      `|used| + 1` attempts; it is non-empty, trimmed when the raw name was
      within the limit, and within the limit while `used` is small. */
  ghost predicate PicksFreshName(raw: string, kind: Kind, ordinal: nat, used: set<string>, name: string) {
    var base := BaseName(raw, kind, ordinal);
    var m := kind.MaxNameLength();
    Lower(name) !in used && name != "" &&
    (Lower(base) !in used ==> name == base) &&
    (Lower(base) in used ==>
      exists k :: 2 <= k <= |used| + 2 && name == Candidate(base, m, k) &&
        forall j :: 2 <= j < k ==> Lower(Candidate(base, m, j)) in used) &&
    (|used| < 98 ==> |name| <= m) &&
    (|raw| <= m ==> IsTrimmed(name))
  }

  /** One more attempt found taken: attempts 2 .. n-1 are all taken. */
  lemma TakenAttempt(base: string, maxLength: nat, used: set<string>, n: nat, candidate: string)
    requires n >= 2 && Lower(candidate) in used && Tried(base, maxLength, n - 1) <= used
    requires n > 2 ==> candidate == Candidate(base, maxLength, n - 1)
    ensures Tried(base, maxLength, n) <= used && n - 2 <= |used|
  {
    if n > 2 {
      TriedSnoc(base, maxLength, n - 1);
    }
    AttemptsBound(base, maxLength, used, n);
  }

  /** The state `uniqueName`'s loop stops in satisfies its promise. */
  lemma LoopExit(raw: string, kind: Kind, ordinal: nat, used: set<string>, suffixIndex: nat, candidate: string)
    requires suffixIndex >= 2 && Lower(candidate) !in used
    requires suffixIndex == 2 ==> candidate == BaseName(raw, kind, ordinal)
    requires suffixIndex > 2 ==> Lower(BaseName(raw, kind, ordinal)) in used
    requires suffixIndex > 2 ==>
      candidate == Candidate(BaseName(raw, kind, ordinal), kind.MaxNameLength(), suffixIndex - 1)
    requires Tried(BaseName(raw, kind, ordinal), kind.MaxNameLength(), suffixIndex - 1) <= used
    ensures PicksFreshName(raw, kind, ordinal, used, candidate)
  {
    var base := BaseName(raw, kind, ordinal);
    if suffixIndex > 2 {
      StoppingAttempt(base, kind.MaxNameLength(), used, suffixIndex - 1);
    } else {
      BaseNameShape(raw, kind, ordinal);
    }
  }

  /** `uniqueName(raw, used, prefix, maxLength, ordinal)`: picks a name
      whose folded form is not yet in `used`, and adds that form. */
  method UniqueName(raw: string, used: set<string>, kind: Kind, ordinal: nat)
    returns (name: string, usedAfter: set<string>)
    ensures PicksFreshName(raw, kind, ordinal, used, name)
    ensures usedAfter == used + {Lower(name)}
  {
    var base := BaseName(raw, kind, ordinal);
    var maxLength := kind.MaxNameLength();
    var candidate := base;
    var suffixIndex: nat := 2;
    while Lower(candidate) in used
      invariant suffixIndex >= 2
      invariant suffixIndex == 2 ==> candidate == base
      invariant suffixIndex > 2 ==> Lower(base) in used && candidate == Candidate(base, maxLength, suffixIndex - 1)
      invariant Tried(base, maxLength, suffixIndex - 1) <= used
      decreases |used| + 2 - suffixIndex
    {
      TakenAttempt(base, maxLength, used, suffixIndex, candidate);
      candidate := Candidate(base, maxLength, suffixIndex);
      suffixIndex := suffixIndex + 1;
    }
    LoopExit(raw, kind, ordinal, used, suffixIndex, candidate);
    name := candidate;
    usedAfter := used + {Lower(candidate)};
  }

  // --------------------------------------------------------------- nextName

  /** The set of the names, each trimmed and folded to lower case. */
  function Folded(names: seq<string>): set<string> {
    set i | 0 <= i < |names| :: Lower(Trim(names[i]))
  }

  /** A set built from `n` names has at most `n` elements. */
  lemma {:induction false} FoldedCard(names: seq<string>)
    ensures |Folded(names)| <= |names|
  {
    if names != [] {
      var init := names[..|names| - 1];
      FoldedCard(init);
      FoldedSnoc(names);
    }
  }

  lemma FoldedSnoc(names: seq<string>)
    requires names != []
    ensures Folded(names) == Folded(names[..|names| - 1]) + {Lower(Trim(names[|names| - 1]))}
  {
    var init := names[..|names| - 1];
    assert forall i :: 0 <= i < |init| ==> init[i] == names[i];
  }

  lemma LowerDigits(d: string)
    requires AllDigits(d)
    ensures Lower(d) == d
  {
  }

  /** Distinct numbers give generated names that stay distinct when
      folded. */
  lemma LabelFoldInjective(kind: Kind, a: nat, b: nat)
    ensures Lower(Label(kind, a)) == Lower(Label(kind, b)) ==> a == b
  {
    var p := kind.Prefix() + " ";
    LowerAppend(p, NatStr(a));
    LowerAppend(p, NatStr(b));
    LowerDigits(NatStr(a));
    LowerDigits(NatStr(b));
    assert Lower(Label(kind, a))[|p|..] == NatStr(a);
    assert Lower(Label(kind, b))[|p|..] == NatStr(b);
    NatStrInjective(a, b);
  }

  /** The folded generated names numbered 1 .. n. */
  ghost function Labels(kind: Kind, n: nat): set<string> {
    set i | 1 <= i <= n :: Lower(Label(kind, i))
  }

  lemma LabelsCard(kind: Kind, n: nat)
    ensures |Labels(kind, n)| == n
  {
    var f := (i: nat) => Lower(Label(kind, i));
    forall a, b | 1 <= a < n + 1 && 1 <= b < n + 1 && f(a) == f(b)
      ensures a == b
    {
      LabelFoldInjective(kind, a, b);
    }
    ImageCard(f, 1, n + 1);
    assert forall i: nat :: f(i) == Lower(Label(kind, i));
    assert Labels(kind, n) == Image(f, 1, n + 1);
  }

  /** Pigeonhole: among the first `|names| + 1` generated names one is
      always free, so while fewer than 999 entries exist the numbered
      search of `next*Name` never falls back to the clock. */
  lemma {:induction false} FreeLabelExists(kind: Kind, names: seq<string>)
    ensures exists i :: 1 <= i <= |names| + 1 && Lower(Label(kind, i)) !in Folded(names)
  {
    var l := Labels(kind, |names| + 1);
    var f := Folded(names);
    LabelsCard(kind, |names| + 1);
    FoldedCard(names);
    assert l == (l - f) + (l * f);
    SubsetCard(l * f, f);
    var x :| x in l - f;
    var i :| 1 <= i <= |names| + 1 && x == Lower(Label(kind, i));
  }

  /** A generated name numbered below 100 is a valid name. */
  lemma LabelIsValidName(kind: Kind, n: nat)
    requires n < 100
    ensures ValidName(kind, Label(kind, n))
  {
    NatStrShort(n);
    BaseNameShape("", kind, n);
    assert Trim("") == "";
    assert BaseName("", kind, n) == Label(kind, n);
  }

  /** For trimmed names, the folded, trimmed names are the folded names. */
  lemma FoldedOfTrimmed(names: seq<string>)
    requires forall i :: 0 <= i < |names| ==> IsTrimmed(names[i])
    ensures Folded(names) == NameSet(names)
  {
    forall i | 0 <= i < |names|
      ensures Trim(names[i]) == names[i]
    {
      TrimmedIsFixed(names[i]);
    }
  }

  /** `nextOptionName()` / `nextCriterionName()` over the current names:
      the first of "Option 1" .. "Option 999" whose folded form is not
      among the folded, trimmed names, else a name numbered by the clock
      reading `now`. */
  method NextName(kind: Kind, names: seq<string>, now: nat) returns (name: string)
    ensures (exists i :: 1 <= i <= 999 && Lower(Label(kind, i)) !in Folded(names)) ==>
      exists i :: 1 <= i <= 999 && name == Label(kind, i) && Lower(name) !in Folded(names) &&
        forall j :: 1 <= j < i ==> Lower(Label(kind, j)) in Folded(names)
    ensures (forall i :: 1 <= i <= 999 ==> Lower(Label(kind, i)) in Folded(names)) ==>
      name == Label(kind, now)
    ensures |names| < 999 ==>
      exists i :: 1 <= i <= |names| + 1 && name == Label(kind, i) && Lower(name) !in Folded(names)
  {
    var existing := Folded(names);
    FreeLabelExists(kind, names);
    var i := 1;
    while i <= 999
      invariant 1 <= i <= 1000
      invariant forall j :: 1 <= j < i ==> Lower(Label(kind, j)) in existing
    {
      var candidate := kind.Prefix() + " " + NatStr(i);
      assert candidate == Label(kind, i);
      if Lower(candidate) !in existing {
        return candidate;
      }
      i := i + 1;
    }
    name := kind.Prefix() + " " + NatStr(now);
  }

  // ----------------------------------------------------------- validateName

  datatype NameCheck = NameOk | NameRequired | NameTooLong | NameTaken

  /** The message shown for a refused name. */
  function NameMessage(kind: Kind, check: NameCheck): string {
    match check
    case NameOk => ""
    case NameRequired => kind.Prefix() + " name is required."
    case NameTooLong =>
      if kind.OptionKind? then "Option name must be 60 characters or fewer."
      else "Criterion name must be 40 characters or fewer."
    case NameTaken => kind.Prefix() + " names must be unique."
  }

  /** What a rename of entry `id` to `name` is judged: empty, too long,
      taken by another entry once both are trimmed and folded, or fine.
      `ids` and `names` list the current entries in order. */
  function NameVerdict(kind: Kind, name: string, id: Id, ids: seq<Id>, names: seq<string>): NameCheck
    requires |ids| == |names|
  {
    if name == "" then NameRequired
    else if |name| > kind.MaxNameLength() then NameTooLong
    else if exists i :: 0 <= i < |ids| && ids[i] != id && Lower(Trim(names[i])) == Lower(name) then NameTaken
    else NameOk
  }

  /** `validateOptionName(name, id)` / `validateCriterionName(name, id)`:
      the checks in order, scanning the entries and skipping the one being
      renamed. */
  method ValidateName(kind: Kind, name: string, id: Id, ids: seq<Id>, names: seq<string>)
    returns (check: NameCheck)
    requires |ids| == |names|
    ensures check == NameVerdict(kind, name, id, ids, names)
  {
    if name == "" {
      return NameRequired;
    }
    if |name| > kind.MaxNameLength() {
      return NameTooLong;
    }
    var normalized := Lower(name);
    var i := 0;
    while i < |ids|
      invariant 0 <= i <= |ids|
      invariant forall j :: 0 <= j < i ==> ids[j] == id || Lower(Trim(names[j])) != normalized
    {
      if ids[i] != id && Lower(Trim(names[i])) == normalized {
        return NameTaken;
      }
      i := i + 1;
    }
    return NameOk;
  }

  /** Names the verdict accepts are valid names when they come trimmed, as
      the rename handlers pass them. */
  lemma AcceptedNameIsValid(kind: Kind, name: string, id: Id, ids: seq<Id>, names: seq<string>)
    requires |ids| == |names| && IsTrimmed(name)
    ensures NameVerdict(kind, name, id, ids, names) == NameOk ==> ValidName(kind, name)
  {
  }

  /** Renaming an entry to its own name in another letter case is
      accepted. */
  lemma OwnNameRecasedAccepted(kind: Kind, ids: seq<Id>, names: seq<string>, k: nat, name: string)
    requires |ids| == |names| && k < |names|
    requires forall i :: 0 <= i < |names| ==> IsTrimmed(names[i])
    requires FoldDistinct(names)
    requires name != "" && |name| <= kind.MaxNameLength() && Lower(name) == Lower(names[k])
    ensures NameVerdict(kind, name, ids[k], ids, names) == NameOk
  {
    forall i | 0 <= i < |ids| && ids[i] != ids[k]
      ensures Lower(Trim(names[i])) != Lower(name)
    {
      TrimmedIsFixed(names[i]);
    }
  }

  /** With distinct ids, an accepted rename keeps the names distinct after
      folding. */
  lemma AcceptedRenameKeepsFoldDistinct(kind: Kind, ids: seq<Id>, names: seq<string>, k: nat, name: string)
    requires |ids| == |names| && k < |names| && Distinct(ids)
    requires forall i :: 0 <= i < |names| ==> IsTrimmed(names[i])
    requires FoldDistinct(names)
    requires NameVerdict(kind, name, ids[k], ids, names) == NameOk
    ensures FoldDistinct(names[k := name])
  {
    forall i | 0 <= i < |names| && i != k
      ensures Lower(names[i]) != Lower(name)
    {
      TrimmedIsFixed(names[i]);
    }
  }
}

=== FILE: sanitize.dfy ===
/** Load-time repair of an untrusted persisted payload (script.js:187-399):
    `sanitizeOptions`, `sanitizeCriteria`, `sanitizeRatings`,
    `sanitizeV1State` and the decision part of `loadInitialState`. Each
    sanitizer returns a usable value and a `repaired` flag; the flag is
    clear exactly when the input was already in the shape the serializer
    writes, and then the value is the input read as it stands. */
module Sanitize {
  import opened Text
  import opened Json
  import opened Wrappers
  import opened Model
  import opened Names

  // ------------------------------------------------------- entry fields

  /** The entries of an array, or none for any other value. */
  function Source(input: Value): seq<Value> {
    if input.Arr? then input.elems else []
  }

  /** The trimmed name of an entry, or "" when it has no string name. */
  function RawName(item: Value): (name: string)
    ensures IsTrimmed(name)
  {
    var v := Get(item, "name");
    if v.Str? then TrimIsTrimmed(v.s); Trim(v.s) else ""
  }

  /** The note of an entry cut to 500 characters, or "" when it has no
      string note. */
  function NoteOf(item: Value): (note: string)
    ensures |note| <= MAX_NOTE_LENGTH
    ensures Get(item, "note") == Str(note) <==> Get(item, "note").Str? && |Get(item, "note").s| <= MAX_NOTE_LENGTH
  {
    var v := Get(item, "note");
    if v.Str? then Take(v.s, MAX_NOTE_LENGTH) else ""
  }

  /** The weight of an entry, parsed and clamped into 1..5. */
  function WeightOf(item: Value): (weight: int)
    ensures 1 <= weight <= 5
  {
    ClampInt(ParseInt(Get(item, "weight")), 1, 5)
  }

  /** The creation time of an entry when it is a number, else `fallback`. */
  function CreatedAtOf(item: Value, fallback: real): real {
    var v := Get(item, "createdAt");
    if v.Num? then v.n else fallback
  }

  /** The id string an entry carries, or "" when it has none. */
  function EntryId(item: Value): string {
    var v := Get(item, "id");
    if v.Str? then v.s else ""
  }

  /** The id the sanitizer gives an entry: its own id when that is a
      usable id not already taken by an earlier entry, else a fresh one. */
  function ChooseId(item: Value, taken: seq<Id>, freshId: Id): (id: Id)
    ensures id == freshId || (Get(item, "id") == Str(id) && ValidId(id) && id !in taken)
    ensures Get(item, "id").Str? && ValidId(EntryId(item)) && EntryId(item) !in taken ==> id == EntryId(item)
  {
    var v := Get(item, "id");
    if v.Str? && ValidId(v.s) && v.s !in taken then v.s else freshId
  }

  /** An entry keeps its own id exactly when that is a usable id no
      earlier entry has. */
  lemma IdKeptIff(item: Value, taken: seq<Id>, freshId: Id)
    requires Get(item, "id") != Str(freshId)
    ensures Str(ChooseId(item, taken, freshId)) == Get(item, "id") <==>
      Get(item, "id").Str? && ValidId(EntryId(item)) && EntryId(item) !in taken
  {
  }

  /** The id as script.js:266 and 335 choose it: any non-empty string is
      kept, even one an earlier entry already has or one containing ':'. */
  function IdAsWritten(item: Value, freshId: Id): (id: Id)
    ensures Get(item, "id").Str? && Get(item, "id").s != "" ==> id == Get(item, "id").s
    ensures !Get(item, "id").Str? ==> id == freshId
  {
    var v := Get(item, "id");
    if v.Str? && v.s != "" then v.s else freshId
  }

  /** Under the rule as written, the id is kept (and no repair recorded)
      exactly when the entry has a non-empty string id. */
  lemma IdKeptAsWrittenIff(item: Value, freshId: Id)
    requires Get(item, "id") != Str(freshId)
    ensures Str(IdAsWritten(item, freshId)) == Get(item, "id") <==>
      Get(item, "id").Str? && EntryId(item) != ""
  {
  }

  /** The two rules give the same id exactly unless the entry's own id is a
      non-empty string that contains ':' or that an earlier entry already
      took: on such an entry the rule as written keeps the id and the
      corrected rule replaces it. */
  lemma ChooseIdMatchesAsWritten(item: Value, taken: seq<Id>, freshId: Id)
    requires Get(item, "id") != Str(freshId)
    ensures ChooseId(item, taken, freshId) == IdAsWritten(item, freshId) <==>
      !(Get(item, "id").Str? && EntryId(item) != "" && (':' in EntryId(item) || EntryId(item) in taken))
  {
  }

  function EntryIds(items: seq<Value>): (r: seq<string>)
    ensures |r| == |items| && forall i :: 0 <= i < |items| ==> r[i] == EntryId(items[i])
  {
    seq(|items|, i requires 0 <= i < |items| => EntryId(items[i]))
  }

  function RawNames(items: seq<Value>): (r: seq<string>)
    ensures |r| == |items| && forall i :: 0 <= i < |items| ==> r[i] == RawName(items[i])
  {
    seq(|items|, i requires 0 <= i < |items| => RawName(items[i]))
  }

  // --------------------------------------------------- clean input shape

  /** An entry the sanitizer keeps exactly as it reads it: an object with
      a non-empty name within the limit, a usable id, a finite
      `createdAt`, and a note within the limit (options) or an integral
      weight in 1..5 (criteria). */
  predicate CleanEntry(kind: Kind, item: Value) {
    var id := Get(item, "id");
    var weight := Get(item, "weight");
    var note := Get(item, "note");
    IsObject(item) &&
    RawName(item) != "" && |RawName(item)| <= kind.MaxNameLength() &&
    id.Str? && ValidId(id.s) && Get(item, "createdAt").Num? &&
    (kind.OptionKind? ==> note.Str? && |note.s| <= MAX_NOTE_LENGTH) &&
    (kind.CriterionKind? ==> IsInteger(weight) && 1.0 <= weight.n <= 5.0)
  }

  /** The first `n` entries are clean, with distinct ids and names that
      stay distinct once folded. */
  predicate CleanPrefix(kind: Kind, items: seq<Value>, n: nat)
    requires n <= |items|
  {
    (forall j :: 0 <= j < n ==> CleanEntry(kind, items[j])) &&
    Distinct(EntryIds(items[..n])) && FoldDistinct(RawNames(items[..n]))
  }

  /** A list input the sanitizer leaves alone. */
  predicate CleanList(kind: Kind, input: Value) {
    input.Arr? && kind.MinCount() <= |input.elems| <= kind.MaxCount() &&
    CleanPrefix(kind, input.elems, |input.elems|)
  }

  lemma CleanPrefixStep(kind: Kind, items: seq<Value>, n: nat)
    requires n < |items|
    ensures CleanPrefix(kind, items, n + 1) <==>
      CleanPrefix(kind, items, n) && CleanEntry(kind, items[n]) &&
      EntryId(items[n]) !in EntryIds(items[..n]) &&
      Lower(RawName(items[n])) !in NameSet(RawNames(items[..n]))
  {
    assert items[..n + 1] == items[..n] + [items[n]];
    assert EntryIds(items[..n + 1]) == EntryIds(items[..n]) + [EntryId(items[n])];
    assert RawNames(items[..n + 1]) == RawNames(items[..n]) + [RawName(items[n])];
    DistinctSnoc(EntryIds(items[..n]), EntryId(items[n]));
    FoldDistinctSnoc(RawNames(items[..n]), RawName(items[n]));
  }

  /** The number of entries that are objects; the others are skipped. */
  function ObjectCount(items: seq<Value>): (n: nat)
    ensures n <= |items|
  {
    if items == [] then 0
    else ObjectCount(items[..|items| - 1]) + (if IsObject(items[|items| - 1]) then 1 else 0)
  }

  lemma {:induction false} ObjectCountPrefix(items: seq<Value>, n: nat)
    requires n <= |items|
    ensures ObjectCount(items[..n]) <= ObjectCount(items)
  {
    if n < |items| {
      ObjectCountPrefix(items[..|items| - 1], n);
      assert items[..|items| - 1][..n] == items[..n];
    } else {
      assert items[..n] == items;
    }
  }

  lemma ObjectCountStep(items: seq<Value>, n: nat)
    requires n < |items|
    ensures ObjectCount(items[..n + 1]) == ObjectCount(items[..n]) + if IsObject(items[n]) then 1 else 0
  {
    assert items[..n + 1][..n] == items[..n];
  }

  /** How many entries a sanitized list has for `n` object entries. */
  function ExpectedCount(kind: Kind, n: nat): nat {
    if n < kind.MinCount() then kind.MinCount()
    else if n > kind.MaxCount() then kind.MaxCount()
    else n
  }

  /** An entry read as it stands. */
  function ParsedOption(item: Value): Option {
    Option(EntryId(item), RawName(item), NoteOf(item), CreatedAtOf(item, 0.0))
  }

  function ParsedCriterion(item: Value): Criterion {
    Criterion(EntryId(item), RawName(item), WeightOf(item), CreatedAtOf(item, 0.0))
  }

  function ParsedOptions(items: seq<Value>): (r: seq<Option>)
    ensures |r| == |items| && forall i :: 0 <= i < |items| ==> r[i] == ParsedOption(items[i])
    ensures OptionIds(r) == EntryIds(items) && OptionNames(r) == RawNames(items)
  {
    seq(|items|, i requires 0 <= i < |items| => ParsedOption(items[i]))
  }

  function ParsedCriteria(items: seq<Value>): (r: seq<Criterion>)
    ensures |r| == |items| && forall i :: 0 <= i < |items| ==> r[i] == ParsedCriterion(items[i])
    ensures CriterionIds(r) == EntryIds(items) && CriterionNames(r) == RawNames(items)
  {
    seq(|items|, i requires 0 <= i < |items| => ParsedCriterion(items[i]))
  }

  /** No id the generator hands out occurs as an entry id of the input. */
  predicate FreshAgainst(pool: seq<Id>, items: seq<Value>) {
    forall i, j :: 0 <= i < |pool| && 0 <= j < |items| ==> Get(items[j], "id") != Str(pool[i])
  }

  // --------------------------------------------------------- one entry

  /** What the name steps of one loop round give: a valid name whose
      folded form is new, equal to the trimmed raw name exactly when that
      was non-empty, within the limit and still free. */
  lemma PickedName(item: Value, used: set<string>, kind: Kind, ordinal: nat, name: string)
    requires |used| < 98
    requires PicksFreshName(Take(RawName(item), kind.MaxNameLength()), kind, ordinal, used, name)
    ensures ValidName(kind, name) && Lower(name) !in used
    ensures (RawName(item) != "" && Take(RawName(item), kind.MaxNameLength()) == RawName(item) &&
             name == RawName(item)) <==>
            (RawName(item) != "" && |RawName(item)| <= kind.MaxNameLength() && Lower(RawName(item)) !in used)
  {
    var raw := RawName(item);
    var cleaned := Take(raw, kind.MaxNameLength());
    if raw != "" && |raw| <= kind.MaxNameLength() {
      TrimmedIsFixed(raw);
      assert BaseName(cleaned, kind, ordinal) == raw;
    }
  }

  /** The name steps of one loop round: trim, cut to the limit, then make
      unique. The name counts as changed unless the trimmed raw name was
      non-empty, within the limit and still free. */
  method SanitizeName(item: Value, used: set<string>, kind: Kind, ordinal: nat)
    returns (name: string, nameChanged: bool, usedAfter: set<string>)
    requires |used| < 98
    ensures ValidName(kind, name) && Lower(name) !in used && usedAfter == used + {Lower(name)}
    ensures !nameChanged <==>
      RawName(item) != "" && |RawName(item)| <= kind.MaxNameLength() && Lower(RawName(item)) !in used
    ensures !nameChanged ==> name == RawName(item)
  {
    var rawName := RawName(item);
    var cleanedName := Take(rawName, kind.MaxNameLength());
    nameChanged := rawName == "" || cleanedName != rawName;
    name, usedAfter := UniqueName(cleanedName, used, kind, ordinal);
    PickedName(item, used, kind, ordinal, name);
    if name != cleanedName {
      nameChanged := true;
    }
  }

  /** The weight written back equals the weight read exactly when that
      was an integral number in 1..5. */
  lemma WeightKeptIffIntegral(item: Value)
    ensures Num(WeightOf(item) as real) == Get(item, "weight") <==>
      IsInteger(Get(item, "weight")) && 1.0 <= Get(item, "weight").n <= 5.0
  {
    var v := Get(item, "weight");
    if IsInteger(v) && 1.0 <= v.n <= 5.0 {
      ClampIntKeepsInteger(v, 1, 5);
    }
  }

  /** An option entry comes through unchanged exactly when it is clean,
      its id is new and its folded name is free. */
  lemma OptionFlags(item: Value, taken: seq<Id>, used: set<string>,
                    nameChanged: bool, noteChanged: bool, idChanged: bool, createdAtChanged: bool)
    requires IsObject(item)
    requires !nameChanged <==>
      RawName(item) != "" && |RawName(item)| <= MAX_OPTION_NAME_LENGTH && Lower(RawName(item)) !in used
    requires !noteChanged <==> Get(item, "note").Str? && |Get(item, "note").s| <= MAX_NOTE_LENGTH
    requires !idChanged <==> Get(item, "id").Str? && ValidId(EntryId(item)) && EntryId(item) !in taken
    requires createdAtChanged == !Get(item, "createdAt").Num?
    ensures !(nameChanged || noteChanged || idChanged || createdAtChanged) <==>
      CleanEntry(OptionKind, item) && EntryId(item) !in taken && Lower(RawName(item)) !in used
  {
  }

  /** A criterion entry comes through unchanged exactly when it is clean,
      its id is new and its folded name is free. */
  lemma CriterionFlags(item: Value, taken: seq<Id>, used: set<string>,
                       nameChanged: bool, weightChanged: bool, idChanged: bool, createdAtChanged: bool)
    requires IsObject(item)
    requires !nameChanged <==>
      RawName(item) != "" && |RawName(item)| <= MAX_CRITERION_NAME_LENGTH && Lower(RawName(item)) !in used
    requires !weightChanged <==> IsInteger(Get(item, "weight")) && 1.0 <= Get(item, "weight").n <= 5.0
    requires !idChanged <==> Get(item, "id").Str? && ValidId(EntryId(item)) && EntryId(item) !in taken
    requires createdAtChanged == !Get(item, "createdAt").Num?
    ensures !(nameChanged || weightChanged || idChanged || createdAtChanged) <==>
      CleanEntry(CriterionKind, item) && EntryId(item) !in taken && Lower(RawName(item)) !in used
  {
  }

  /** The body of `sanitizeOptions`' loop for one object entry
      (script.js:245-282): trimmed, cut and de-duplicated name, cut note,
      kept or fresh id, kept or clock-based creation time. */
  method SanitizeOptionEntry(item: Value, items: seq<Option>, used: set<string>, ordinal: nat,
                             freshId: Id, now: nat)
    returns (o: Option, changed: bool, usedAfter: set<string>)
    requires IsObject(item) && |items| < MAX_OPTIONS && WellFormedOptions(items)
    requires used == NameSet(OptionNames(items))
    requires ValidId(freshId) && freshId !in OptionIds(items) && Get(item, "id") != Str(freshId)
    ensures WellFormedOptions(items + [o]) && usedAfter == NameSet(OptionNames(items + [o]))
    ensures OptionIds(items + [o]) == OptionIds(items) + [o.id]
    ensures o.id == freshId || Get(item, "id") == Str(o.id)
    ensures o.createdAt == CreatedAtOf(item, (now + |items|) as real)
    ensures !changed <==>
      CleanEntry(OptionKind, item) && EntryId(item) !in OptionIds(items) && Lower(RawName(item)) !in used
    ensures !changed ==> o == ParsedOption(item)
  {
    NameSetCard(OptionNames(items));
    var name, nameChanged;
    name, nameChanged, usedAfter := SanitizeName(item, used, OptionKind, ordinal);
    var note := NoteOf(item);
    var noteChanged := Get(item, "note") != Str(note);
    var id := ChooseId(item, OptionIds(items), freshId);
    var idChanged := Str(id) != Get(item, "id");
    var createdAt := CreatedAtOf(item, (now + |items|) as real);
    var createdAtChanged := !Get(item, "createdAt").Num?;
    IdKeptIff(item, OptionIds(items), freshId);
    OptionFlags(item, OptionIds(items), used, nameChanged, noteChanged, idChanged, createdAtChanged);
    changed := nameChanged || noteChanged || idChanged || createdAtChanged;
    o := Option(id, name, note, createdAt);
    AppendOption(items, o);
  }

  /** The body of `sanitizeCriteria`' loop for one object entry
      (script.js:314-351): as for options, with the weight clamped into
      1..5 in place of the note. */
  method SanitizeCriterionEntry(item: Value, items: seq<Criterion>, used: set<string>, ordinal: nat,
                                freshId: Id, now: nat)
    returns (c: Criterion, changed: bool, usedAfter: set<string>)
    requires IsObject(item) && |items| < MAX_CRITERIA && WellFormedCriteria(items)
    requires used == NameSet(CriterionNames(items))
    requires ValidId(freshId) && freshId !in CriterionIds(items) && Get(item, "id") != Str(freshId)
    ensures WellFormedCriteria(items + [c]) && usedAfter == NameSet(CriterionNames(items + [c]))
    ensures CriterionIds(items + [c]) == CriterionIds(items) + [c.id]
    ensures c.id == freshId || Get(item, "id") == Str(c.id)
    ensures c.createdAt == CreatedAtOf(item, (now + |items|) as real)
    ensures !changed <==>
      CleanEntry(CriterionKind, item) && EntryId(item) !in CriterionIds(items) && Lower(RawName(item)) !in used
    ensures !changed ==> c == ParsedCriterion(item)
  {
    NameSetCard(CriterionNames(items));
    var name, nameChanged;
    name, nameChanged, usedAfter := SanitizeName(item, used, CriterionKind, ordinal);
    var weight := WeightOf(item);
    WeightKeptIffIntegral(item);
    var weightChanged := Num(weight as real) != Get(item, "weight");
    var id := ChooseId(item, CriterionIds(items), freshId);
    var idChanged := Str(id) != Get(item, "id");
    var createdAt := CreatedAtOf(item, (now + |items|) as real);
    var createdAtChanged := !Get(item, "createdAt").Num?;
    IdKeptIff(item, CriterionIds(items), freshId);
    CriterionFlags(item, CriterionIds(items), used, nameChanged, weightChanged, idChanged, createdAtChanged);
    changed := nameChanged || weightChanged || idChanged || createdAtChanged;
    c := Criterion(id, name, weight, createdAt);
    AppendCriterion(items, c);
  }

  // ------------------------------------------------------- whole lists

  /** One loop round keeps the link between the flag and the input read
      so far: no repair yet exactly when the entries read so far are
      clean, and then the list holds them as they stand. */
  lemma OptionsTrackStep(input: Value, source: seq<Value>, idx: nat, items: seq<Option>, repaired: bool,
                         o: Option, changed: bool)
    requires idx < |source|
    requires !repaired <==> input.Arr? && CleanPrefix(OptionKind, source, idx)
    requires !repaired ==> items == ParsedOptions(source[..idx])
    requires !changed <==> CleanEntry(OptionKind, source[idx]) && EntryId(source[idx]) !in OptionIds(items) &&
                           Lower(RawName(source[idx])) !in NameSet(OptionNames(items))
    requires !changed ==> o == ParsedOption(source[idx])
    ensures !(repaired || changed) <==> input.Arr? && CleanPrefix(OptionKind, source, idx + 1)
    ensures !(repaired || changed) ==> items + [o] == ParsedOptions(source[..idx + 1])
  {
    CleanPrefixStep(OptionKind, source, idx);
    assert source[..idx + 1] == source[..idx] + [source[idx]];
  }

  lemma CriteriaTrackStep(input: Value, source: seq<Value>, idx: nat, items: seq<Criterion>, repaired: bool,
                          c: Criterion, changed: bool)
    requires idx < |source|
    requires !repaired <==> input.Arr? && CleanPrefix(CriterionKind, source, idx)
    requires !repaired ==> items == ParsedCriteria(source[..idx])
    requires !changed <==> CleanEntry(CriterionKind, source[idx]) && EntryId(source[idx]) !in CriterionIds(items) &&
                           Lower(RawName(source[idx])) !in NameSet(CriterionNames(items))
    requires !changed ==> c == ParsedCriterion(source[idx])
    ensures !(repaired || changed) <==> input.Arr? && CleanPrefix(CriterionKind, source, idx + 1)
    ensures !(repaired || changed) ==> items + [c] == ParsedCriteria(source[..idx + 1])
  {
    CleanPrefixStep(CriterionKind, source, idx);
    assert source[..idx + 1] == source[..idx] + [source[idx]];
  }

  /** After a pick, the pool ids still to come stay unused. */
  lemma FreshStaysFresh(pool: seq<Id>, source: seq<Value>, idx: nat, ids: seq<Id>, id: Id, pos: nat)
    requires idx < |source| && pos < |pool| && Distinct(pool) && FreshAgainst(pool, source)
    requires forall j :: pos <= j < |pool| ==> pool[j] !in ids
    requires id == pool[pos] || Get(source[idx], "id") == Str(id)
    ensures forall j :: pos + 1 <= j < |pool| ==> pool[j] !in ids + [id]
  {
  }

  /** The entries of `padded` from `start` on are the defaults the
      fallback loop appends: the pool id of their position, an empty note, the
      clock plus their ordinal as creation time, and the name `uniqueName`
      picks for the empty raw name against the names before them. */
  ghost predicate OptionDefaultsFrom(padded: seq<Option>, start: nat, pool: seq<Id>, firstOrdinal: nat, now: nat) {
    |padded| <= |pool| &&
    forall j :: start <= j < |padded| ==>
      padded[j].id == pool[j] && padded[j].note == "" &&
      padded[j].createdAt == (now + firstOrdinal + (j - start)) as real &&
      PicksFreshName("", OptionKind, firstOrdinal + (j - start), NameSet(OptionNames(padded[..j])), padded[j].name)
  }

  /** Appending the next default keeps the earlier defaults as they were. */
  lemma OptionDefaultsSnoc(padded: seq<Option>, start: nat, pool: seq<Id>, firstOrdinal: nat, now: nat, e: Option)
    requires OptionDefaultsFrom(padded, start, pool, firstOrdinal, now) && start <= |padded| < |pool|
    requires e.id == pool[|padded|] && e.note == ""
    requires e.createdAt == (now + firstOrdinal + (|padded| - start)) as real
    requires PicksFreshName("", OptionKind, firstOrdinal + (|padded| - start), NameSet(OptionNames(padded)), e.name)
    ensures OptionDefaultsFrom(padded + [e], start, pool, firstOrdinal, now)
  {
    var q := padded + [e];
    forall j | start <= j < |q|
      ensures q[j].id == pool[j] && q[j].note == ""
      ensures q[j].createdAt == (now + firstOrdinal + (j - start)) as real
      ensures PicksFreshName("", OptionKind, firstOrdinal + (j - start), NameSet(OptionNames(q[..j])), q[j].name)
    {
      assert q[..j] == if j < |padded| then padded[..j] else padded;
    }
  }

  /** The fallback loop closing the sanitizer (script.js:285-290): default
      entries "Option n" are appended while the list is below its minimum. */
  method PadOptions(items: seq<Option>, usedNames: set<string>, firstOrdinal: nat, pool: seq<Id>, now: nat)
    returns (padded: seq<Option>)
    requires WellFormedOptions(items) && |items| <= MAX_OPTIONS && usedNames == NameSet(OptionNames(items))
    requires |pool| >= MAX_OPTIONS && FreshPool(pool)
    requires forall j :: |items| <= j < |pool| ==> pool[j] !in OptionIds(items)
    ensures |padded| == if |items| < MIN_OPTIONS then MIN_OPTIONS else |items|
    ensures ValidOptions(padded) && padded[..|items|] == items
    ensures forall j :: |items| <= j < |padded| ==>
      padded[j].id == pool[j] && padded[j].note == "" &&
      padded[j].createdAt == (now + firstOrdinal + (j - |items|)) as real &&
      PicksFreshName("", OptionKind, firstOrdinal + (j - |items|), NameSet(OptionNames(padded[..j])), padded[j].name)
  {
    padded := items;
    var used := usedNames;
    var ordinal := firstOrdinal;
    while |padded| < MIN_OPTIONS
      invariant OptionsPadded(items, padded, used, ordinal, pool, firstOrdinal, now)
      invariant OptionDefaultsFrom(padded, |items|, pool, firstOrdinal, now)
      decreases MIN_OPTIONS - |padded|
    {
      padded, used := PadOptionOnce(items, padded, used, ordinal, pool, firstOrdinal, now);
      ordinal := ordinal + 1;
    }
  }

  /** What the fallback loop keeps: the entries read so far, then the
      defaults appended after them, well formed, with the folded names in
      use, the pool ids to come unused and the ordinal one past the last
      default. */
  ghost predicate OptionsPadded(items: seq<Option>, padded: seq<Option>, used: set<string>, ordinal: nat,
                            pool: seq<Id>, firstOrdinal: nat, now: nat)
  {
    WellFormedOptions(padded) && used == NameSet(OptionNames(padded)) &&
    |items| <= |padded| <= MAX_OPTIONS && padded[..|items|] == items &&
    (|padded| > |items| ==> |padded| <= MIN_OPTIONS) &&
    (forall j :: |padded| <= j < |pool| ==> pool[j] !in OptionIds(padded)) &&
    ordinal == firstOrdinal + (|padded| - |items|)
  }

  /** One round of the fallback loop: the next default is appended. */
  method PadOptionOnce(items: seq<Option>, padded: seq<Option>, used: set<string>, ordinal: nat,
                       pool: seq<Id>, firstOrdinal: nat, now: nat)
    returns (padded': seq<Option>, used': set<string>)
    requires |pool| >= MAX_OPTIONS && FreshPool(pool) && |padded| < MIN_OPTIONS
    requires OptionsPadded(items, padded, used, ordinal, pool, firstOrdinal, now)
    requires OptionDefaultsFrom(padded, |items|, pool, firstOrdinal, now)
    ensures |padded'| == |padded| + 1 && OptionsPadded(items, padded', used', ordinal + 1, pool, firstOrdinal, now)
    ensures OptionDefaultsFrom(padded', |items|, pool, firstOrdinal, now)
  {
    var fallbackName;
    NameSetCard(OptionNames(padded));
    fallbackName, used' := UniqueName("", used, OptionKind, ordinal);
    var o := CreateOption(pool[|padded|], fallbackName, (now + ordinal) as real);
    padded' := padded + [o];
    OptionsPaddedSnoc(items, padded, used, ordinal, pool, firstOrdinal, now, o);
    OptionDefaultsSnoc(padded, |items|, pool, firstOrdinal, now, o);
  }

  /** Appending the next default keeps what the fallback loop keeps. */
  lemma OptionsPaddedSnoc(items: seq<Option>, padded: seq<Option>, used: set<string>, ordinal: nat,
                          pool: seq<Id>, firstOrdinal: nat, now: nat, o: Option)
    requires |pool| >= MAX_OPTIONS && FreshPool(pool) && |padded| < MIN_OPTIONS
    requires OptionsPadded(items, padded, used, ordinal, pool, firstOrdinal, now)
    requires o.id == pool[|padded|] && ValidOption(o) && Lower(o.name) !in used
    ensures OptionsPadded(items, padded + [o], used + {Lower(o.name)}, ordinal + 1, pool, firstOrdinal, now)
  {
    var q := padded + [o];
    assert q[..|items|] == items by {
      assert q[..|padded|] == padded;
      assert q[..|items|] == q[..|padded|][..|items|];
    }
    AppendOption(padded, o);
    forall j | |q| <= j < |pool|
      ensures pool[j] !in OptionIds(q)
    {
      assert pool[j] != pool[|padded|];
    }
  }

  /** What `sanitizeOptions`' loop keeps after reading `idx` entries of
      its input: one option per object entry so far, well formed, the
      folded names in use, the pool ids to come unused, the ordinal one
      past the count, and no repair exactly when the entries read so far
      are clean, in which case they were taken as they stand. */
  predicate OptionsSoFar(input: Value, pool: seq<Id>, idx: nat, items: seq<Option>, usedNames: set<string>,
                         ordinal: nat, repaired: bool)
  {
    var source := Source(input);
    idx <= |source| &&
    |items| == ObjectCount(source[..idx]) <= MAX_OPTIONS && ordinal == |items| + 1 &&
    WellFormedOptions(items) && usedNames == NameSet(OptionNames(items)) &&
    (forall j :: |items| <= j < |pool| ==> pool[j] !in OptionIds(items)) &&
    (!repaired <==> input.Arr? && CleanPrefix(OptionKind, source, idx)) &&
    (!repaired ==> items == ParsedOptions(source[..idx]))
  }

  /** One round of `sanitizeOptions`' loop below the maximum: a
      non-object entry is skipped and marks a repair; an object entry is
      repaired and appended. */
  method ReadOptionEntry(input: Value, pool: seq<Id>, now: nat, idx: nat, items: seq<Option>,
                         usedNames: set<string>, ordinal: nat, repaired: bool)
    returns (idx': nat, items': seq<Option>, usedNames': set<string>, ordinal': nat, repaired': bool)
    requires |pool| >= MAX_OPTIONS && FreshPool(pool) && FreshAgainst(pool, Source(input))
    requires OptionsSoFar(input, pool, idx, items, usedNames, ordinal, repaired)
    requires idx < |Source(input)| && |items| < MAX_OPTIONS
    ensures idx' == idx + 1 && OptionsSoFar(input, pool, idx', items', usedNames', ordinal', repaired')
  {
    var source := Source(input);
    ObjectCountStep(source, idx);
    var item := source[idx];
    if !IsObject(item) {
      CleanPrefixStep(OptionKind, source, idx);
      return idx + 1, items, usedNames, ordinal, true;
    }
    var o, changed;
    o, changed, usedNames' := SanitizeOptionEntry(item, items, usedNames, ordinal, pool[|items|], now);
    OptionsTrackStep(input, source, idx, items, repaired, o, changed);
    FreshStaysFresh(pool, source, idx, OptionIds(items), o.id, |items|);
    idx' := idx + 1;
    repaired' := repaired || changed;
    items' := items + [o];
    ordinal' := ordinal + 1;
  }

  /** When `sanitizeOptions`' loop stops, the list holds one entry per
      object entry up to the maximum; leftover entries mean the input was
      not clean, and a full read leaves the flag as the clean test says. */
  lemma OptionsLoopDone(input: Value, pool: seq<Id>, idx: nat, items: seq<Option>, usedNames: set<string>,
                    ordinal: nat, repaired: bool)
    requires OptionsSoFar(input, pool, idx, items, usedNames, ordinal, repaired)
    requires idx == |Source(input)| || |items| >= MAX_OPTIONS
    ensures var n := ObjectCount(Source(input)); |items| == if n > MAX_OPTIONS then MAX_OPTIONS else n
    ensures idx < |Source(input)| ==> |Source(input)| > MAX_OPTIONS
    ensures idx == |Source(input)| ==> (!repaired <==> input.Arr? && CleanPrefix(OptionKind, input.elems, |input.elems|))
    ensures idx == |Source(input)| && !repaired ==> items == ParsedOptions(input.elems)
  {
    var source := Source(input);
    if idx < |source| {
      ObjectCountPrefix(source, idx);
    } else {
      assert source[..idx] == source;
    }
  }

  /** The loop of `sanitizeOptions` (script.js:240-283): entries are read
      until the input ends or the list is full; entries left over mark a
      repair. */
  method ReadOptions(input: Value, pool: seq<Id>, now: nat)
    returns (items: seq<Option>, usedNames: set<string>, ordinal: nat, repaired: bool)
    requires |pool| >= MAX_OPTIONS && FreshPool(pool) && FreshAgainst(pool, Source(input))
    ensures WellFormedOptions(items) && usedNames == NameSet(OptionNames(items)) && ordinal == |items| + 1
    ensures forall j :: |items| <= j < |pool| ==> pool[j] !in OptionIds(items)
    ensures var n := ObjectCount(Source(input)); |items| == if n > MAX_OPTIONS then MAX_OPTIONS else n
    ensures !repaired <==> input.Arr? && |input.elems| <= MAX_OPTIONS && CleanPrefix(OptionKind, input.elems, |input.elems|)
    ensures !repaired ==> items == ParsedOptions(input.elems)
  {
    repaired := false;
    var source := Source(input);
    if !input.Arr? {
      repaired := true;
    }
    items := [];
    usedNames := {};
    ordinal := 1;
    var idx := 0;
    while idx < |source| && |items| < MAX_OPTIONS
      invariant OptionsSoFar(input, pool, idx, items, usedNames, ordinal, repaired)
      decreases |source| - idx
    {
      idx, items, usedNames, ordinal, repaired := ReadOptionEntry(input, pool, now, idx, items, usedNames, ordinal, repaired);
    }
    OptionsLoopDone(input, pool, idx, items, usedNames, ordinal, repaired);
    if idx < |source| {
      repaired := true;
    }
  }

  /** `sanitizeOptions(input)`: at most 20 entries are taken, non-objects
      are skipped, each entry is repaired, and defaults are appended up to
      two entries. The ids handed out come from `pool`, one per position. */
  method SanitizeOptions(input: Value, pool: seq<Id>, now: nat) returns (items: seq<Option>, repaired: bool)
    requires |pool| >= MAX_OPTIONS && FreshPool(pool) && FreshAgainst(pool, Source(input))
    ensures ValidOptions(items)
    ensures |items| == ExpectedCount(OptionKind, ObjectCount(Source(input)))
    ensures !repaired <==> CleanList(OptionKind, input)
    ensures !repaired ==> items == ParsedOptions(input.elems)
  {
    var usedNames, ordinal;
    items, usedNames, ordinal, repaired := ReadOptions(input, pool, now);
    if |items| < MIN_OPTIONS {
      items := PadOptions(items, usedNames, ordinal, pool, now);
      repaired := true;
    }
  }

  /** The entries of `padded` from `start` on are the defaults the
      fallback loop appends: the pool id of their position, weight 3, the
      clock plus their ordinal as creation time, and the name `uniqueName`
      picks for the empty raw name against the names before them. */
  ghost predicate CriterionDefaultsFrom(padded: seq<Criterion>, start: nat, pool: seq<Id>, firstOrdinal: nat, now: nat) {
    |padded| <= |pool| &&
    forall j :: start <= j < |padded| ==>
      padded[j].id == pool[j] && padded[j].weight == 3 &&
      padded[j].createdAt == (now + firstOrdinal + (j - start)) as real &&
      PicksFreshName("", CriterionKind, firstOrdinal + (j - start), NameSet(CriterionNames(padded[..j])), padded[j].name)
  }

  /** Appending the next default keeps the earlier defaults as they were. */
  lemma CriterionDefaultsSnoc(padded: seq<Criterion>, start: nat, pool: seq<Id>, firstOrdinal: nat, now: nat, e: Criterion)
    requires CriterionDefaultsFrom(padded, start, pool, firstOrdinal, now) && start <= |padded| < |pool|
    requires e.id == pool[|padded|] && e.weight == 3
    requires e.createdAt == (now + firstOrdinal + (|padded| - start)) as real
    requires PicksFreshName("", CriterionKind, firstOrdinal + (|padded| - start), NameSet(CriterionNames(padded)), e.name)
    ensures CriterionDefaultsFrom(padded + [e], start, pool, firstOrdinal, now)
  {
    var q := padded + [e];
    forall j | start <= j < |q|
      ensures q[j].id == pool[j] && q[j].weight == 3
      ensures q[j].createdAt == (now + firstOrdinal + (j - start)) as real
      ensures PicksFreshName("", CriterionKind, firstOrdinal + (j - start), NameSet(CriterionNames(q[..j])), q[j].name)
    {
      assert q[..j] == if j < |padded| then padded[..j] else padded;
    }
  }

  /** The fallback loop closing the sanitizer (script.js:354-359): default
      entries "Criterion n" of weight 3 are appended while the list is below its minimum. */
  method PadCriteria(items: seq<Criterion>, usedNames: set<string>, firstOrdinal: nat, pool: seq<Id>, now: nat)
    returns (padded: seq<Criterion>)
    requires WellFormedCriteria(items) && |items| <= MAX_CRITERIA && usedNames == NameSet(CriterionNames(items))
    requires |pool| >= MAX_CRITERIA && FreshPool(pool)
    requires forall j :: |items| <= j < |pool| ==> pool[j] !in CriterionIds(items)
    ensures |padded| == if |items| < MIN_CRITERIA then MIN_CRITERIA else |items|
    ensures ValidCriteria(padded) && padded[..|items|] == items
    ensures forall j :: |items| <= j < |padded| ==>
      padded[j].id == pool[j] && padded[j].weight == 3 &&
      padded[j].createdAt == (now + firstOrdinal + (j - |items|)) as real &&
      PicksFreshName("", CriterionKind, firstOrdinal + (j - |items|), NameSet(CriterionNames(padded[..j])), padded[j].name)
  {
    padded := items;
    var used := usedNames;
    var ordinal := firstOrdinal;
    while |padded| < MIN_CRITERIA
      invariant CriteriaPadded(items, padded, used, ordinal, pool, firstOrdinal, now)
      invariant CriterionDefaultsFrom(padded, |items|, pool, firstOrdinal, now)
      decreases MIN_CRITERIA - |padded|
    {
      padded, used := PadCriterionOnce(items, padded, used, ordinal, pool, firstOrdinal, now);
      ordinal := ordinal + 1;
    }
  }

  /** What the fallback loop keeps: the entries read so far, then the
      defaults appended after them, well formed, with the folded names in
      use, the pool ids to come unused and the ordinal one past the last
      default. */
  ghost predicate CriteriaPadded(items: seq<Criterion>, padded: seq<Criterion>, used: set<string>, ordinal: nat,
                            pool: seq<Id>, firstOrdinal: nat, now: nat)
  {
    WellFormedCriteria(padded) && used == NameSet(CriterionNames(padded)) &&
    |items| <= |padded| <= MAX_CRITERIA && padded[..|items|] == items &&
    (|padded| > |items| ==> |padded| <= MIN_CRITERIA) &&
    (forall j :: |padded| <= j < |pool| ==> pool[j] !in CriterionIds(padded)) &&
    ordinal == firstOrdinal + (|padded| - |items|)
  }

  /** One round of the fallback loop: the next default is appended. */
  method PadCriterionOnce(items: seq<Criterion>, padded: seq<Criterion>, used: set<string>, ordinal: nat,
                       pool: seq<Id>, firstOrdinal: nat, now: nat)
    returns (padded': seq<Criterion>, used': set<string>)
    requires |pool| >= MAX_CRITERIA && FreshPool(pool) && |padded| < MIN_CRITERIA
    requires CriteriaPadded(items, padded, used, ordinal, pool, firstOrdinal, now)
    requires CriterionDefaultsFrom(padded, |items|, pool, firstOrdinal, now)
    ensures |padded'| == |padded| + 1 && CriteriaPadded(items, padded', used', ordinal + 1, pool, firstOrdinal, now)
    ensures CriterionDefaultsFrom(padded', |items|, pool, firstOrdinal, now)
  {
    var fallbackName;
    NameSetCard(CriterionNames(padded));
    fallbackName, used' := UniqueName("", used, CriterionKind, ordinal);
    var c := CreateCriterion(pool[|padded|], fallbackName, 3, (now + ordinal) as real);
    padded' := padded + [c];
    CriteriaPaddedSnoc(items, padded, used, ordinal, pool, firstOrdinal, now, c);
    CriterionDefaultsSnoc(padded, |items|, pool, firstOrdinal, now, c);
  }

  /** Appending the next default keeps what the fallback loop keeps. */
  lemma CriteriaPaddedSnoc(items: seq<Criterion>, padded: seq<Criterion>, used: set<string>, ordinal: nat,
                          pool: seq<Id>, firstOrdinal: nat, now: nat, c: Criterion)
    requires |pool| >= MAX_CRITERIA && FreshPool(pool) && |padded| < MIN_CRITERIA
    requires CriteriaPadded(items, padded, used, ordinal, pool, firstOrdinal, now)
    requires c.id == pool[|padded|] && ValidCriterion(c) && Lower(c.name) !in used
    ensures CriteriaPadded(items, padded + [c], used + {Lower(c.name)}, ordinal + 1, pool, firstOrdinal, now)
  {
    var q := padded + [c];
    assert q[..|items|] == items by {
      assert q[..|padded|] == padded;
      assert q[..|items|] == q[..|padded|][..|items|];
    }
    AppendCriterion(padded, c);
    forall j | |q| <= j < |pool|
      ensures pool[j] !in CriterionIds(q)
    {
      assert pool[j] != pool[|padded|];
    }
  }

  /** What `sanitizeCriteria`' loop keeps after reading `idx` entries, as
      for options. */
  predicate CriteriaSoFar(input: Value, pool: seq<Id>, idx: nat, items: seq<Criterion>, usedNames: set<string>,
                          ordinal: nat, repaired: bool)
  {
    var source := Source(input);
    idx <= |source| &&
    |items| == ObjectCount(source[..idx]) <= MAX_CRITERIA && ordinal == |items| + 1 &&
    WellFormedCriteria(items) && usedNames == NameSet(CriterionNames(items)) &&
    (forall j :: |items| <= j < |pool| ==> pool[j] !in CriterionIds(items)) &&
    (!repaired <==> input.Arr? && CleanPrefix(CriterionKind, source, idx)) &&
    (!repaired ==> items == ParsedCriteria(source[..idx]))
  }

  /** One round of `sanitizeCriteria`' loop below the maximum. */
  method ReadCriterionEntry(input: Value, pool: seq<Id>, now: nat, idx: nat, items: seq<Criterion>,
                            usedNames: set<string>, ordinal: nat, repaired: bool)
    returns (idx': nat, items': seq<Criterion>, usedNames': set<string>, ordinal': nat, repaired': bool)
    requires |pool| >= MAX_CRITERIA && FreshPool(pool) && FreshAgainst(pool, Source(input))
    requires CriteriaSoFar(input, pool, idx, items, usedNames, ordinal, repaired)
    requires idx < |Source(input)| && |items| < MAX_CRITERIA
    ensures idx' == idx + 1 && CriteriaSoFar(input, pool, idx', items', usedNames', ordinal', repaired')
  {
    var source := Source(input);
    ObjectCountStep(source, idx);
    var item := source[idx];
    if !IsObject(item) {
      CleanPrefixStep(CriterionKind, source, idx);
      return idx + 1, items, usedNames, ordinal, true;
    }
    var c, changed;
    c, changed, usedNames' := SanitizeCriterionEntry(item, items, usedNames, ordinal, pool[|items|], now);
    CriteriaTrackStep(input, source, idx, items, repaired, c, changed);
    FreshStaysFresh(pool, source, idx, CriterionIds(items), c.id, |items|);
    idx' := idx + 1;
    repaired' := repaired || changed;
    items' := items + [c];
    ordinal' := ordinal + 1;
  }

  /** When `sanitizeCriteria`' loop stops, the list holds one entry per
      object entry up to the maximum; leftover entries mean the input was
      not clean, and a full read leaves the flag as the clean test says. */
  lemma CriteriaLoopDone(input: Value, pool: seq<Id>, idx: nat, items: seq<Criterion>, usedNames: set<string>,
                    ordinal: nat, repaired: bool)
    requires CriteriaSoFar(input, pool, idx, items, usedNames, ordinal, repaired)
    requires idx == |Source(input)| || |items| >= MAX_CRITERIA
    ensures var n := ObjectCount(Source(input)); |items| == if n > MAX_CRITERIA then MAX_CRITERIA else n
    ensures idx < |Source(input)| ==> |Source(input)| > MAX_CRITERIA
    ensures idx == |Source(input)| ==> (!repaired <==> input.Arr? && CleanPrefix(CriterionKind, input.elems, |input.elems|))
    ensures idx == |Source(input)| && !repaired ==> items == ParsedCriteria(input.elems)
  {
    var source := Source(input);
    if idx < |source| {
      ObjectCountPrefix(source, idx);
    } else {
      assert source[..idx] == source;
    }
  }

  /** The loop of `sanitizeCriteria` (script.js:309-352): entries are read
      until the input ends or the list is full; entries left over mark a
      repair. */
  method ReadCriteria(input: Value, pool: seq<Id>, now: nat)
    returns (items: seq<Criterion>, usedNames: set<string>, ordinal: nat, repaired: bool)
    requires |pool| >= MAX_CRITERIA && FreshPool(pool) && FreshAgainst(pool, Source(input))
    ensures WellFormedCriteria(items) && usedNames == NameSet(CriterionNames(items)) && ordinal == |items| + 1
    ensures forall j :: |items| <= j < |pool| ==> pool[j] !in CriterionIds(items)
    ensures var n := ObjectCount(Source(input)); |items| == if n > MAX_CRITERIA then MAX_CRITERIA else n
    ensures !repaired <==> input.Arr? && |input.elems| <= MAX_CRITERIA && CleanPrefix(CriterionKind, input.elems, |input.elems|)
    ensures !repaired ==> items == ParsedCriteria(input.elems)
  {
    repaired := false;
    var source := Source(input);
    if !input.Arr? {
      repaired := true;
    }
    items := [];
    usedNames := {};
    ordinal := 1;
    var idx := 0;
    while idx < |source| && |items| < MAX_CRITERIA
      invariant CriteriaSoFar(input, pool, idx, items, usedNames, ordinal, repaired)
      decreases |source| - idx
    {
      idx, items, usedNames, ordinal, repaired := ReadCriterionEntry(input, pool, now, idx, items, usedNames, ordinal, repaired);
    }
    CriteriaLoopDone(input, pool, idx, items, usedNames, ordinal, repaired);
    if idx < |source| {
      repaired := true;
    }
  }

  /** `sanitizeCriteria(input)`: at most 20 entries are taken, non-objects
      are skipped, each entry is repaired, and a default is appended when
      none is left. */
  method SanitizeCriteria(input: Value, pool: seq<Id>, now: nat) returns (items: seq<Criterion>, repaired: bool)
    requires |pool| >= MAX_CRITERIA && FreshPool(pool) && FreshAgainst(pool, Source(input))
    ensures ValidCriteria(items)
    ensures |items| == ExpectedCount(CriterionKind, ObjectCount(Source(input)))
    ensures !repaired <==> CleanList(CriterionKind, input)
    ensures !repaired ==> items == ParsedCriteria(input.elems)
  {
    var usedNames, ordinal;
    items, usedNames, ordinal, repaired := ReadCriteria(input, pool, now);
    if |items| < MIN_CRITERIA {
      items := PadCriteria(items, usedNames, ordinal, pool, now);
      repaired := true;
    }
  }

  // ----------------------------------------------------------- ratings

  /** The rating entries `sanitizeRatings` keeps: the key reads back as a
      pair of live ids and the value is an integer in 1..5. */
  predicate KeepsRating(key: string, value: Value, optionIds: set<Id>, criterionIds: set<Id>) {
    var cell := ParseKey(key);
    cell.Some? && cell.value.optionId in optionIds && cell.value.criterionId in criterionIds &&
    IsInteger(value) && 1.0 <= value.n <= 5.0
  }

  /** The ratings kept from `fields`, looking only at the keys in `keys`. */
  function KeptRatings(fields: map<string, Value>, keys: set<string>, optionIds: set<Id>, criterionIds: set<Id>)
    : (r: map<Cell, int>)
    ensures forall c :: c in r ==>
      RatingKey(c) in fields && RatingKey(c) in keys && ParseKey(RatingKey(c)) == Some(c) &&
      KeepsRating(RatingKey(c), fields[RatingKey(c)], optionIds, criterionIds) &&
      r[c] == fields[RatingKey(c)].n.Floor
    ensures forall key :: key in fields && key in keys && KeepsRating(key, fields[key], optionIds, criterionIds) ==>
      ParseKey(key).value in r
    ensures forall c :: c in r ==>
      ColonFree(c) && c.optionId in optionIds && c.criterionId in criterionIds && 1 <= r[c] <= 5
  {
    assert forall key :: key in fields && ParseKey(key).Some? ==>
      ColonFree(ParseKey(key).value) && RatingKey(ParseKey(key).value) == key by {
      forall key | key in fields && ParseKey(key).Some? {
        KeyOfParsedKey(key);
      }
    }
    map key | key in fields && key in keys && KeepsRating(key, fields[key], optionIds, criterionIds)
      :: ParseKey(key).value := fields[key].n.Floor
  }

  /** `ratings[key] = value` for a kept entry; nothing for another. */
  function AddRating(ratings: map<Cell, int>, fields: map<string, Value>, key: string,
                     optionIds: set<Id>, criterionIds: set<Id>): map<Cell, int>
    requires key in fields
  {
    if KeepsRating(key, fields[key], optionIds, criterionIds)
    then ratings[ParseKey(key).value := fields[key].n.Floor]
    else ratings
  }

  /** One more key looked at: kept ratings grow by that key's rating when
      it is kept, and not at all otherwise. */
  lemma KeptRatingsStep(fields: map<string, Value>, keys: set<string>, key: string,
                        optionIds: set<Id>, criterionIds: set<Id>)
    requires key in fields
    ensures KeptRatings(fields, keys + {key}, optionIds, criterionIds) ==
      AddRating(KeptRatings(fields, keys, optionIds, criterionIds), fields, key, optionIds, criterionIds)
  {
    var after := KeptRatings(fields, keys + {key}, optionIds, criterionIds);
    var expected := AddRating(KeptRatings(fields, keys, optionIds, criterionIds), fields, key, optionIds, criterionIds);
    KeptRatingsStepAfter(fields, keys, key, optionIds, criterionIds);
    KeptRatingsStepExpected(fields, keys, key, optionIds, criterionIds);
    assert after.Keys == expected.Keys;
  }

  lemma KeptRatingsStepAfter(fields: map<string, Value>, keys: set<string>, key: string,
                             optionIds: set<Id>, criterionIds: set<Id>)
    requires key in fields
    ensures var expected := AddRating(KeptRatings(fields, keys, optionIds, criterionIds), fields, key, optionIds, criterionIds);
      var after := KeptRatings(fields, keys + {key}, optionIds, criterionIds);
      forall c :: c in after ==> c in expected && after[c] == expected[c]
  {
    var before := KeptRatings(fields, keys, optionIds, criterionIds);
    var after := KeptRatings(fields, keys + {key}, optionIds, criterionIds);
    if KeepsRating(key, fields[key], optionIds, criterionIds) {
      var k := ParseKey(key).value;
      KeyOfParsedKey(key);
      forall c | c in after && c != k
        ensures c in before && after[c] == before[c]
      {
        assert ParseKey(RatingKey(c)) == Some(c);
        KeptCellStep(fields, keys, key, optionIds, criterionIds, c);
      }
    } else {
      forall c | c in after
        ensures c in before && after[c] == before[c]
      {
        KeptCellStep(fields, keys, key, optionIds, criterionIds, c);
      }
    }
  }

  /** A kept rating under another key was already kept before `key`. */
  lemma KeptCellStep(fields: map<string, Value>, keys: set<string>, key: string,
                     optionIds: set<Id>, criterionIds: set<Id>, c: Cell)
    requires c in KeptRatings(fields, keys + {key}, optionIds, criterionIds) && RatingKey(c) != key
    ensures c in KeptRatings(fields, keys, optionIds, criterionIds)
    ensures KeptRatings(fields, keys + {key}, optionIds, criterionIds)[c] == KeptRatings(fields, keys, optionIds, criterionIds)[c]
  {
  }

  lemma KeptRatingsStepExpected(fields: map<string, Value>, keys: set<string>, key: string,
                                optionIds: set<Id>, criterionIds: set<Id>)
    requires key in fields
    ensures var expected := AddRating(KeptRatings(fields, keys, optionIds, criterionIds), fields, key, optionIds, criterionIds);
      forall c :: c in expected ==> c in KeptRatings(fields, keys + {key}, optionIds, criterionIds)
  {
    if KeepsRating(key, fields[key], optionIds, criterionIds) {
      KeyOfParsedKey(key);
    }
  }

  /** `sanitizeRatings(input, optionIds, criterionIds)`: anything but a
      plain object gives no ratings and counts as repaired; otherwise
      exactly the entries `KeepsRating` accepts are kept, and the flag is
      set exactly when some entry was dropped. */
  method SanitizeRatings(input: Value, optionIds: set<Id>, criterionIds: set<Id>)
    returns (items: map<Cell, int>, repaired: bool)
    ensures !input.Obj? ==> items == map[] && repaired
    ensures input.Obj? ==> items == KeptRatings(input.fields, input.fields.Keys, optionIds, criterionIds)
    ensures input.Obj? ==> (repaired <==>
      exists key :: key in input.fields && !KeepsRating(key, input.fields[key], optionIds, criterionIds))
  {
    items := map[];
    repaired := false;
    if !IsObject(input) || input.Arr? {
      return map[], true;
    }
    var fields := input.fields;
    var pending := fields.Keys;
    ghost var seen: set<string> := {};
    while pending != {}
      invariant pending + seen == fields.Keys && pending !! seen
      invariant items == KeptRatings(fields, seen, optionIds, criterionIds)
      invariant repaired <==> exists key :: key in seen && !KeepsRating(key, fields[key], optionIds, criterionIds)
      decreases |pending|
    {
      var key :| key in pending;
      var value := fields[key];
      KeptRatingsStep(fields, seen, key, optionIds, criterionIds);
      pending := pending - {key};
      seen := seen + {key};
      var cell := ParseKey(key);
      if cell.None? || cell.value.optionId !in optionIds || cell.value.criterionId !in criterionIds {
        repaired := true;
        continue;
      }
      if value == Null {
        repaired := true;
        continue;
      }
      if !IsInteger(value) || value.n < 1.0 || value.n > 5.0 {
        repaired := true;
        continue;
      }
      items := items[cell.value := value.n.Floor];
    }
  }

  /** The split script.js:378 applies to a key: the text before the first
      ':' and the text between the first and the second ':'. */
  function SplitKeyAsWritten(key: string): (Id, Id) {
    var i := ColonIndex(key);
    var rest := if i < |key| then key[i + 1..] else "";
    var j := ColonIndex(rest);
    (key[..i], rest[..j])
  }

  /** The test script.js:378-382 applies: the first two segments name live
      ids, whatever follows a second ':'. */
  predicate KeepsRatingAsWritten(key: string, value: Value, optionIds: set<Id>, criterionIds: set<Id>) {
    var (o, c) := SplitKeyAsWritten(key);
    o in optionIds && c in criterionIds && IsInteger(value) && 1.0 <= value.n <= 5.0
  }

  /** The two rating tests agree on every key with exactly one ':', and
      the corrected test keeps no other key. */
  lemma KeepsRatingMatchesAsWritten(key: string, value: Value, optionIds: set<Id>, criterionIds: set<Id>)
    ensures KeepsRating(key, value, optionIds, criterionIds) <==>
      KeepsRatingAsWritten(key, value, optionIds, criterionIds) && ParseKey(key).Some?
  {
    if ParseKey(key).Some? {
      var i := ColonIndex(key);
      var rest := key[i + 1..];
      assert ':' !in rest;
      ColonIndexIsFirst(rest, |rest|);
      assert rest[..|rest|] == rest;
    }
  }

  // -------------------------------------------------------- whole state

  datatype Sanitized = Sanitized(state: State, repaired: bool)

  /** The stored title when it is a string, else "". */
  function TitleSource(candidate: Value): string {
    var v := Get(candidate, "title");
    if v.Str? then v.s else ""
  }

  /** A payload the sanitizer takes over unchanged. */
  predicate CleanState(candidate: Value) {
    var options := Get(candidate, "options");
    var criteria := Get(candidate, "criteria");
    var ratings := Get(candidate, "ratings");
    IsObject(candidate) && |TitleSource(candidate)| <= MAX_TITLE_LENGTH &&
    CleanList(OptionKind, options) && CleanList(CriterionKind, criteria) &&
    ratings.Obj? &&
    (forall key :: key in ratings.fields ==>
      KeepsRating(key, ratings.fields[key], Set(EntryIds(options.elems)), Set(EntryIds(criteria.elems)))) &&
    Get(candidate, "updatedAt").Num?
  }

  function Set<T>(s: seq<T>): set<T> {
    set x | x in s
  }

  /** A clean payload read as it stands. */
  function ParsedState(candidate: Value): State
    requires CleanState(candidate)
  {
    var options := Get(candidate, "options").elems;
    var criteria := Get(candidate, "criteria").elems;
    var ratings := Get(candidate, "ratings").fields;
    State(
      TitleSource(candidate),
      ParsedOptions(options),
      ParsedCriteria(criteria),
      KeptRatings(ratings, ratings.Keys, Set(EntryIds(options)), Set(EntryIds(criteria))),
      Get(candidate, "updatedAt").n)
  }

  /** The id generator's supply: the first 20 ids for options, the next
      20 for criteria, none of them an entry id of the payload. */
  predicate PoolFor(pool: seq<Id>, candidate: Value) {
    |pool| >= MAX_OPTIONS + MAX_CRITERIA && FreshPool(pool) &&
    FreshAgainst(pool[..MAX_OPTIONS], Source(Get(candidate, "options"))) &&
    FreshAgainst(pool[MAX_OPTIONS..], Source(Get(candidate, "criteria")))
  }

  /** `sanitizeV1State(candidate)`: nothing for a non-object; otherwise a
      valid state and whether anything had to be repaired, which is
      exactly when the payload was not clean. */
  method SanitizeV1State(candidate: Value, pool: seq<Id>, now: nat) returns (r: Maybe<Sanitized>)
    requires PoolFor(pool, candidate)
    ensures r.Some? <==> IsObject(candidate)
    ensures r.Some? ==> ValidState(r.value.state)
    ensures r.Some? ==> (!r.value.repaired <==> CleanState(candidate))
    ensures r.Some? && !r.value.repaired ==> r.value.state == ParsedState(candidate)
  {
    if !IsObject(candidate) {
      return None;
    }
    var titleSource := TitleSource(candidate);
    var title := Take(titleSource, MAX_TITLE_LENGTH);
    var titleRepaired := title != titleSource;
    FreshPoolSlices(pool);
    var options, optionsRepaired := SanitizeOptions(Get(candidate, "options"), pool[..MAX_OPTIONS], now);
    var criteria, criteriaRepaired := SanitizeCriteria(Get(candidate, "criteria"), pool[MAX_OPTIONS..], now);
    var optionIds := Set(OptionIds(options));
    var criterionIds := Set(CriterionIds(criteria));
    var ratings, ratingsRepaired := SanitizeRatings(Get(candidate, "ratings"), optionIds, criterionIds);
    var v := Get(candidate, "updatedAt");
    var updatedAt := if v.Num? then v.n else now as real;
    var updatedAtRepaired := !v.Num?;
    var s := State(title, options, criteria, ratings, updatedAt);
    SanitizedIsValid(s);
    SanitizedFlags(candidate, s, titleRepaired, optionsRepaired, criteriaRepaired, ratingsRepaired, updatedAtRepaired);
    var repaired := titleRepaired || optionsRepaired || criteriaRepaired || ratingsRepaired || updatedAtRepaired;
    return Some(Sanitized(s, repaired));
  }

  /** The pieces `sanitizeV1State` assembles make a valid state. */
  lemma SanitizedIsValid(s: State)
    requires |s.title| <= MAX_TITLE_LENGTH && ValidOptions(s.options) && ValidCriteria(s.criteria)
    requires forall c :: c in s.ratings ==>
      1 <= s.ratings[c] <= 5 && c.optionId in Set(OptionIds(s.options)) && c.criterionId in Set(CriterionIds(s.criteria))
    ensures ValidState(s)
  {
  }

  /** The repairs of the five parts together: none exactly when the payload
      is clean, and then the state is the payload read as it stands. */
  lemma SanitizedFlags(candidate: Value, s: State, titleRepaired: bool, optionsRepaired: bool,
                       criteriaRepaired: bool, ratingsRepaired: bool, updatedAtRepaired: bool)
    requires IsObject(candidate)
    requires s.title == Take(TitleSource(candidate), MAX_TITLE_LENGTH)
    requires titleRepaired <==> s.title != TitleSource(candidate)
    requires !optionsRepaired <==> CleanList(OptionKind, Get(candidate, "options"))
    requires !optionsRepaired ==> s.options == ParsedOptions(Get(candidate, "options").elems)
    requires !criteriaRepaired <==> CleanList(CriterionKind, Get(candidate, "criteria"))
    requires !criteriaRepaired ==> s.criteria == ParsedCriteria(Get(candidate, "criteria").elems)
    requires var ratings := Get(candidate, "ratings");
      var optionIds, criterionIds := Set(OptionIds(s.options)), Set(CriterionIds(s.criteria));
      (!ratings.Obj? ==> ratingsRepaired) &&
      (ratings.Obj? ==> s.ratings == KeptRatings(ratings.fields, ratings.fields.Keys, optionIds, criterionIds)) &&
      (ratings.Obj? ==> (ratingsRepaired <==>
        exists key :: key in ratings.fields && !KeepsRating(key, ratings.fields[key], optionIds, criterionIds)))
    requires updatedAtRepaired <==> !Get(candidate, "updatedAt").Num?
    requires !updatedAtRepaired ==> s.updatedAt == Get(candidate, "updatedAt").n
    ensures var repaired := titleRepaired || optionsRepaired || criteriaRepaired || ratingsRepaired || updatedAtRepaired;
      (!repaired <==> CleanState(candidate)) && (!repaired ==> s == ParsedState(candidate))
  {
  }

  lemma FreshPoolSlices(pool: seq<Id>)
    requires |pool| >= MAX_OPTIONS + MAX_CRITERIA && FreshPool(pool)
    ensures FreshPool(pool[..MAX_OPTIONS]) && FreshPool(pool[MAX_OPTIONS..])
    ensures |pool[..MAX_OPTIONS]| >= MAX_OPTIONS && |pool[MAX_OPTIONS..]| >= MAX_CRITERIA
  {
  }
}

=== FILE: scoring.dfy ===
/** The results view's arithmetic (script.js:1061-1123, 1145-1148): the
    rating lookup, the weighted scores, the ranking with its shared
    winners and its all-zero tie, and the top reasons shown for a winner.
    Each option's score is the sum of rating times weight over the
    criteria, an unrated cell counting 0. */
module Scoring {
  import opened Model
  import opened Sorting

  /** `readRating(optionId, criterionId)`: the stored value when it is an
      integer in 1..5, else 0. */
  function ReadRating(ratings: map<Cell, int>, c: Cell): (r: int)
    ensures 0 <= r <= 5
    ensures c !in ratings ==> r == 0
  {
    if c in ratings && 1 <= ratings[c] <= 5 then ratings[c] else 0
  }

  predicate PositiveWeights(cs: seq<Criterion>) {
    forall j :: 0 <= j < |cs| ==> cs[j].weight > 0
  }

  /** `maxRaw`: five points per unit of weight, summed left to right. */
  function MaxRaw(cs: seq<Criterion>): int {
    if cs == [] then 0 else MaxRaw(cs[..|cs| - 1]) + cs[|cs| - 1].weight * 5
  }

  /** An option's `raw` score: rating times weight, summed left to right
      over the criteria. */
  function RawScore(ratings: map<Cell, int>, optionId: Id, cs: seq<Criterion>): int {
    if cs == [] then 0
    else
      var last := cs[|cs| - 1];
      RawScore(ratings, optionId, cs[..|cs| - 1]) + ReadRating(ratings, Cell(optionId, last.id)) * last.weight
  }

  /** A score lies between 0 and the maximum. */
  lemma {:induction false} RawScoreBounds(ratings: map<Cell, int>, optionId: Id, cs: seq<Criterion>)
    requires PositiveWeights(cs)
    ensures 0 <= RawScore(ratings, optionId, cs) <= MaxRaw(cs)
  {
    if cs != [] {
      var last := cs[|cs| - 1];
      RawScoreBounds(ratings, optionId, cs[..|cs| - 1]);
      var r := ReadRating(ratings, Cell(optionId, last.id));
      assert 0 <= r * last.weight <= 5 * last.weight;
    }
  }

  /** One criterion's contribution is 0 exactly when the cell is unrated,
      and full exactly when it is rated 5. */
  lemma Contribution(r: int, w: int)
    requires 0 <= r <= 5 && w > 0
    ensures 0 <= r * w <= 5 * w
    ensures r * w == 0 <==> r == 0
    ensures r * w == 5 * w <==> r == 5
  {
    if r > 0 {
      assert r * w >= w;
    }
    if r < 5 {
      assert r * w <= 4 * w;
    }
  }

  /** A score is 0 exactly when the option has no rating on any criterion. */
  lemma {:induction false} RawScoreZeroIff(ratings: map<Cell, int>, optionId: Id, cs: seq<Criterion>)
    requires PositiveWeights(cs)
    ensures RawScore(ratings, optionId, cs) == 0 <==>
      forall j :: 0 <= j < |cs| ==> ReadRating(ratings, Cell(optionId, cs[j].id)) == 0
  {
    if cs != [] {
      var init, last := cs[..|cs| - 1], cs[|cs| - 1];
      RawScoreZeroIff(ratings, optionId, init);
      RawScoreBounds(ratings, optionId, init);
      Contribution(ReadRating(ratings, Cell(optionId, last.id)), last.weight);
      assert forall j :: 0 <= j < |init| ==> init[j] == cs[j];
    }
  }

  /** A score reaches the maximum exactly when every criterion is rated 5. */
  lemma {:induction false} RawScoreMaxIff(ratings: map<Cell, int>, optionId: Id, cs: seq<Criterion>)
    requires PositiveWeights(cs)
    ensures RawScore(ratings, optionId, cs) == MaxRaw(cs) <==>
      forall j :: 0 <= j < |cs| ==> ReadRating(ratings, Cell(optionId, cs[j].id)) == 5
  {
    if cs != [] {
      var init, last := cs[..|cs| - 1], cs[|cs| - 1];
      RawScoreMaxIff(ratings, optionId, init);
      RawScoreBounds(ratings, optionId, init);
      Contribution(ReadRating(ratings, Cell(optionId, last.id)), last.weight);
      assert forall j :: 0 <= j < |init| ==> init[j] == cs[j];
    }
  }

  // ------------------------------------------------------------- ranking

  /** Option `i` as the ranking sees it: its score first (higher first),
      then its creation time and its position (earlier first). With
      distinct ids, the position is what `optionIndex` maps its id to. */
  function ScoredRow(s: State, i: int): Keyed<Option>
    requires 0 <= i < |s.options|
  {
    var o := s.options[i];
    Keyed(Key(Score(s, i), 0, o.createdAt, i), o)
  }

  /** The score of option `i`. */
  function Score(s: State, i: int): int
    requires 0 <= i < |s.options|
  {
    RawScore(s.ratings, s.options[i].id, s.criteria)
  }

  function ScoredRows(s: State): (r: seq<Keyed<Option>>)
    ensures |r| == |s.options| && forall i :: 0 <= i < |r| ==> r[i] == ScoredRow(s, i)
  {
    seq(|s.options|, i requires 0 <= i < |s.options| => ScoredRow(s, i))
  }

  /** What `computeMetrics()` returns; the percentages are left out. */
  datatype Metrics = Metrics(maxRaw: int, ranking: seq<Keyed<Option>>, winners: seq<Keyed<Option>>, highestRaw: int)

  /** `computeMetrics()`: the options sorted by score, creation time and
      position; the top score; the options sharing it. */
  function ComputeMetrics(s: State): (m: Metrics)
    ensures |m.ranking| == |s.options|
    ensures multiset(m.ranking) == multiset(ScoredRows(s)) && SortedByKey(m.ranking)
  {
    var ranking := SortByKey(ScoredRows(s));
    var highest := if |ranking| > 0 then ranking[0].key.first else 0;
    Metrics(MaxRaw(s.criteria), ranking, KeepFirst(ranking, highest), highest)
  }

  /** Every entry of the ranking is one of the options with its score. */
  lemma RankedIsScored(s: State, i: int)
    requires 0 <= i < |s.options|
    ensures exists j :: 0 <= j < |s.options| && ComputeMetrics(s).ranking[i] == ScoredRow(s, j)
  {
    var m := ComputeMetrics(s);
    assert m.ranking[i] in multiset(ScoredRows(s));
  }

  /** Every option appears in the ranking. */
  lemma ScoredIsRanked(s: State, j: int)
    requires 0 <= j < |s.options|
    ensures exists i :: 0 <= i < |s.options| && ComputeMetrics(s).ranking[i] == ScoredRow(s, j)
  {
    var m := ComputeMetrics(s);
    assert ScoredRows(s)[j] in multiset(m.ranking);
  }

  /** `highestRaw` is the largest score of any option, and 0 when there
      are no options. */
  lemma HighestIsMaximum(s: State)
    ensures var m := ComputeMetrics(s);
      (forall j :: 0 <= j < |s.options| ==> Score(s, j) <= m.highestRaw) &&
      (|s.options| > 0 ==> exists j :: 0 <= j < |s.options| && Score(s, j) == m.highestRaw) &&
      (|s.options| == 0 ==> m.highestRaw == 0)
  {
    var m := ComputeMetrics(s);
    forall j | 0 <= j < |s.options|
      ensures Score(s, j) <= m.highestRaw
    {
      ScoredIsRanked(s, j);
      var i :| 0 <= i < |s.options| && m.ranking[i] == ScoredRow(s, j);
      if i > 0 {
        assert KeyLe(m.ranking[0].key, m.ranking[i].key);
      }
    }
    if |s.options| > 0 {
      RankedIsScored(s, 0);
    }
  }

  /** The winners are the leading entries of the ranking that have the
      top score; every later entry scores less; with any option there is
      at least one winner. */
  lemma WinnersAreTopPrefix(s: State)
    ensures var m := ComputeMetrics(s);
      var k := |m.winners|;
      k <= |m.ranking| && m.winners == m.ranking[..k] &&
      (forall i :: 0 <= i < k ==> m.ranking[i].key.first == m.highestRaw) &&
      (forall i :: k <= i < |m.ranking| ==> m.ranking[i].key.first < m.highestRaw) &&
      (|s.options| > 0 ==> k > 0)
  {
    var m := ComputeMetrics(s);
    forall i | 0 <= i < |m.ranking|
      ensures m.ranking[i].key.first <= m.highestRaw
    {
      if i > 0 {
        assert KeyLe(m.ranking[0].key, m.ranking[i].key);
      }
    }
    TopRunIsPrefix(m.ranking, m.highestRaw);
  }

  // ------------------------------------------------------------ zero tie

  /** The all-zero tie: there are options, they all share first place,
      and the top score is 0. */
  predicate IsZeroTie(m: Metrics) {
    |m.ranking| > 0 && |m.winners| == |m.ranking| && m.highestRaw == 0
  }

  /** No option has a usable rating on any criterion. */
  predicate Unrated(s: State) {
    forall i, j :: 0 <= i < |s.options| && 0 <= j < |s.criteria| ==>
      ReadRating(s.ratings, Cell(s.options[i].id, s.criteria[j].id)) == 0
  }

  /** With positive weights, no option is rated exactly when every score
      is 0, and no score is negative. */
  lemma UnratedIffScoresZero(s: State)
    requires PositiveWeights(s.criteria)
    ensures forall i :: 0 <= i < |s.options| ==> Score(s, i) >= 0
    ensures Unrated(s) <==> forall i :: 0 <= i < |s.options| ==> Score(s, i) == 0
  {
    forall i | 0 <= i < |s.options|
      ensures Score(s, i) >= 0
      ensures Score(s, i) == 0 <==>
        forall j :: 0 <= j < |s.criteria| ==> ReadRating(s.ratings, Cell(s.options[i].id, s.criteria[j].id)) == 0
    {
      RawScoreBounds(s.ratings, s.options[i].id, s.criteria);
      RawScoreZeroIff(s.ratings, s.options[i].id, s.criteria);
    }
  }

  /** When no score is negative, the all-zero tie is shown exactly when
      there are options and every score is 0. */
  lemma ZeroTieIffScoresZero(s: State)
    requires forall i :: 0 <= i < |s.options| ==> Score(s, i) >= 0
    ensures IsZeroTie(ComputeMetrics(s)) <==>
      |s.options| > 0 && forall i :: 0 <= i < |s.options| ==> Score(s, i) == 0
  {
    if IsZeroTie(ComputeMetrics(s)) {
      HighestIsMaximum(s);
    }
    if |s.options| > 0 && forall i :: 0 <= i < |s.options| ==> Score(s, i) == 0 {
      AllZeroIsZeroTie(s);
    }
  }

  lemma AllZeroIsZeroTie(s: State)
    requires |s.options| > 0 && forall i :: 0 <= i < |s.options| ==> Score(s, i) == 0
    ensures IsZeroTie(ComputeMetrics(s))
  {
    var m := ComputeMetrics(s);
    HighestIsMaximum(s);
    forall i | 0 <= i < |m.ranking|
      ensures m.ranking[i].key.first == m.highestRaw
    {
      RankedIsScored(s, i);
    }
    KeepFirstAll(m.ranking, m.highestRaw);
  }

  /** With positive weights, the all-zero tie is shown exactly when there
      are options and none of them is rated. */
  lemma ZeroTieIff(s: State)
    requires PositiveWeights(s.criteria)
    ensures IsZeroTie(ComputeMetrics(s)) <==> |s.options| > 0 && Unrated(s)
  {
    UnratedIffScoresZero(s);
    ZeroTieIffScoresZero(s);
  }

  /** A stored rating of a live cell makes that cell rated. */
  lemma StoredRatingIsRead(s: State, c: Cell)
    requires ValidRatings(s.ratings, s.options, s.criteria) && c in s.ratings
    ensures !Unrated(s)
  {
    var i :| 0 <= i < |s.options| && OptionIds(s.options)[i] == c.optionId;
    var j :| 0 <= j < |s.criteria| && CriterionIds(s.criteria)[j] == c.criterionId;
    assert Cell(s.options[i].id, s.criteria[j].id) == c;
  }

  /** In a valid state the all-zero tie is shown exactly when no rating is
      stored. */
  lemma ZeroTieIffNoRatings(s: State)
    requires ValidState(s)
    ensures IsZeroTie(ComputeMetrics(s)) <==> s.ratings == map[]
  {
    ZeroTieIff(s);
    if s.ratings != map[] {
      var c :| c in s.ratings;
      StoredRatingIsRead(s, c);
    }
  }

  // --------------------------------------------------------- top reasons

  /** One line of a winner's top reasons. */
  datatype Reason = Reason(criterion: Criterion, rating: int, points: int)

  /** Criterion `j` as the reasons see it: its points first, then its
      weight (both higher first), then its creation time and position
      (earlier first). */
  function ReasonRow(ratings: map<Cell, int>, optionId: Id, cs: seq<Criterion>, j: int): Keyed<Reason>
    requires 0 <= j < |cs|
  {
    var c := cs[j];
    var rating := ReadRating(ratings, Cell(optionId, c.id));
    Keyed(Key(rating * c.weight, c.weight, c.createdAt, j), Reason(c, rating, rating * c.weight))
  }

  function ReasonRows(ratings: map<Cell, int>, optionId: Id, cs: seq<Criterion>): (r: seq<Keyed<Reason>>)
    ensures |r| == |cs| && forall j :: 0 <= j < |r| ==> r[j] == ReasonRow(ratings, optionId, cs, j)
  {
    seq(|cs|, j requires 0 <= j < |cs| => ReasonRow(ratings, optionId, cs, j))
  }

  /** `getTopReasons(optionId)`: the criteria that earn the option points,
      best first, at most three. */
  function TopReasons(ratings: map<Cell, int>, optionId: Id, cs: seq<Criterion>): (r: seq<Keyed<Reason>>)
    ensures var positive := KeepPositive(ReasonRows(ratings, optionId, cs));
      |r| == (if |positive| < 3 then |positive| else 3) && SortedByKey(r) &&
      multiset(r) <= multiset(positive)
  {
    var sorted := SortByKey(KeepPositive(ReasonRows(ratings, optionId, cs)));
    SortedPrefix(KeepPositive(ReasonRows(ratings, optionId, cs)), 3);
    sorted[..if |sorted| < 3 then |sorted| else 3]
  }

  /** Every reason is a criterion of the list that earns the option
      points, with its rating and points. */
  lemma TopReasonsContribute(ratings: map<Cell, int>, optionId: Id, cs: seq<Criterion>)
    ensures var r := TopReasons(ratings, optionId, cs);
      forall i :: 0 <= i < |r| ==>
        r[i].item.points > 0 &&
        exists j :: 0 <= j < |cs| && r[i] == ReasonRow(ratings, optionId, cs, j)
  {
    var rows := ReasonRows(ratings, optionId, cs);
    var sorted := SortByKey(KeepPositive(rows));
    var r := TopReasons(ratings, optionId, cs);
    forall i | 0 <= i < |r|
      ensures r[i].item.points > 0
      ensures exists j :: 0 <= j < |cs| && r[i] == ReasonRow(ratings, optionId, cs, j)
    {
      assert r[i] == sorted[i];
      assert sorted[i] in multiset(KeepPositive(rows));
      assert sorted[i] in rows;
    }
  }

  /** No criterion that earns points is left out in favour of a worse
      one: each is among the reasons, or three reasons are shown and the
      last of them comes no later than it. */
  lemma TopReasonsOmitNoBetter(ratings: map<Cell, int>, optionId: Id, cs: seq<Criterion>)
    ensures var r := TopReasons(ratings, optionId, cs);
      forall j :: 0 <= j < |cs| && ReasonRow(ratings, optionId, cs, j).item.points > 0 ==>
        ReasonRow(ratings, optionId, cs, j) in r ||
        (|r| == 3 && KeyLe(r[2].key, ReasonRow(ratings, optionId, cs, j).key))
  {
    forall j | 0 <= j < |cs| && ReasonRow(ratings, optionId, cs, j).item.points > 0 {
      ReasonShownOrOutranked(ratings, optionId, cs, j);
    }
  }

  lemma ReasonShownOrOutranked(ratings: map<Cell, int>, optionId: Id, cs: seq<Criterion>, j: int)
    requires 0 <= j < |cs| && ReasonRow(ratings, optionId, cs, j).item.points > 0
    ensures var r := TopReasons(ratings, optionId, cs);
      ReasonRow(ratings, optionId, cs, j) in r ||
      (|r| == 3 && KeyLe(r[2].key, ReasonRow(ratings, optionId, cs, j).key))
  {
    var rows := ReasonRows(ratings, optionId, cs);
    var x := rows[j];
    assert x == ReasonRow(ratings, optionId, cs, j) && x in rows;
    ShownOrOutranked(rows, 3, x);
    var sorted := SortByKey(KeepPositive(rows));
    assert TopReasons(ratings, optionId, cs) == sorted[..if |sorted| < 3 then |sorted| else 3];
  }

  /** No criterion is given twice as a reason. */
  lemma TopReasonsDistinct(ratings: map<Cell, int>, optionId: Id, cs: seq<Criterion>)
    ensures var r := TopReasons(ratings, optionId, cs);
      forall i, k :: 0 <= i < k < |r| ==> r[i].key.position != r[k].key.position
  {
    var r := TopReasons(ratings, optionId, cs);
    var rows := ReasonRows(ratings, optionId, cs);
    forall p, q | 0 <= p < q < |rows|
      ensures rows[p] != rows[q]
    {
      assert rows[p].key.position == p && rows[q].key.position == q;
    }
    NoRepeatsInPart(rows, r);
    TopReasonsContribute(ratings, optionId, cs);
    forall i, k | 0 <= i < k < |r|
      ensures r[i].key.position != r[k].key.position
    {
      var a :| 0 <= a < |cs| && r[i] == ReasonRow(ratings, optionId, cs, a);
      var b :| 0 <= b < |cs| && r[k] == ReasonRow(ratings, optionId, cs, b);
      assert r[i] != r[k];
    }
  }
}

=== FILE: sorting.dfy ===
/** The two orders of the results view: the ranking (script.js:1073-1083)
    and the top reasons (script.js:1108-1121). Both comparators look at a
    fixed list of keys and end with the entry's position in its list, so
    each is a total order; it is written once here as a lexicographic key,
    and the sort is specified as "sorted by that key and a permutation". */
module Sorting {
  /** A sort key. `first` and `second` put larger values first (a score,
      then a weight); `created` and `position` put smaller values first.
      A comparator with one integer key uses `second == 0` throughout. */
  datatype Key = Key(first: int, second: int, created: real, position: int)

  /** `a` may come before `b`. */
  predicate KeyLe(a: Key, b: Key) {
    a.first > b.first ||
    (a.first == b.first && a.second > b.second) ||
    (a.first == b.first && a.second == b.second && a.created < b.created) ||
    (a.first == b.first && a.second == b.second && a.created == b.created && a.position <= b.position)
  }

  lemma KeyLeTotal(a: Key, b: Key)
    ensures KeyLe(a, b) || KeyLe(b, a)
  {
  }

  lemma KeyLeAntisymmetric(a: Key, b: Key)
    ensures KeyLe(a, b) && KeyLe(b, a) ==> a == b
  {
  }

  /** An entry together with its sort key. */
  datatype Keyed<T> = Keyed(key: Key, item: T)

  predicate SortedByKey<T>(s: seq<Keyed<T>>) {
    forall i, j :: 0 <= i < j < |s| ==> KeyLe(s[i].key, s[j].key)
  }

  /** Inserts `x` in front of the first entry it may precede. */
  function Insert<T(==)>(x: Keyed<T>, s: seq<Keyed<T>>): (r: seq<Keyed<T>>)
    ensures multiset(r) == multiset(s) + multiset{x}
  {
    if s == [] then [x]
    else if KeyLe(x.key, s[0].key) then [x] + s
    else
      assert s == [s[0]] + s[1..];
      [s[0]] + Insert(x, s[1..])
  }

  /** Inserting into a sorted list keeps it sorted. */
  lemma {:induction false} InsertSorted<T>(x: Keyed<T>, s: seq<Keyed<T>>)
    requires SortedByKey(s)
    ensures SortedByKey(Insert(x, s))
  {
    if s != [] && !KeyLe(x.key, s[0].key) {
      var rest := Insert(x, s[1..]);
      InsertSorted(x, s[1..]);
      forall j | 0 <= j < |rest|
        ensures KeyLe(s[0].key, rest[j].key)
      {
        assert rest[j] in multiset(s[1..]) + multiset{x};
        if rest[j] != x {
          assert rest[j] in s[1..];
        }
      }
      var r := [s[0]] + rest;
      assert forall j :: 0 < j < |r| ==> r[j] == rest[j - 1];
    }
  }

  /** The entries of `s` in key order. */
  function SortByKey<T(==)>(s: seq<Keyed<T>>): (r: seq<Keyed<T>>)
    ensures SortedByKey(r) && multiset(r) == multiset(s)
  {
    if s == [] then []
    else
      var init := SortByKey(s[..|s| - 1]);
      assert s == s[..|s| - 1] + [s[|s| - 1]];
      InsertSorted(s[|s| - 1], init);
      Insert(s[|s| - 1], init)
  }

  /** The entries whose first key is `h`, in order. */
  function KeepFirst<T>(s: seq<Keyed<T>>, h: int): (r: seq<Keyed<T>>)
    ensures forall i :: 0 <= i < |r| ==> r[i] in s && r[i].key.first == h
    ensures forall i :: 0 <= i < |s| && s[i].key.first == h ==> s[i] in r
    ensures |r| <= |s|
  {
    if s == [] then []
    else (if s[0].key.first == h then [s[0]] else []) + KeepFirst(s[1..], h)
  }

  /** The entries whose first key is positive, in order. */
  function KeepPositive<T>(s: seq<Keyed<T>>): (r: seq<Keyed<T>>)
    ensures forall i :: 0 <= i < |r| ==> r[i] in s && r[i].key.first > 0
    ensures forall i :: 0 <= i < |s| && s[i].key.first > 0 ==> s[i] in r
    ensures |r| <= |s| && multiset(r) <= multiset(s)
  {
    if s == [] then []
    else
      assert s == [s[0]] + s[1..];
      (if s[0].key.first > 0 then [s[0]] else []) + KeepPositive(s[1..])
  }

  lemma {:induction false} KeepFirstNone<T>(s: seq<Keyed<T>>, h: int)
    requires forall i :: 0 <= i < |s| ==> s[i].key.first != h
    ensures KeepFirst(s, h) == []
  {
    if s != [] {
      KeepFirstNone(s[1..], h);
    }
  }

  lemma {:induction false} KeepFirstAll<T>(s: seq<Keyed<T>>, h: int)
    requires forall i :: 0 <= i < |s| ==> s[i].key.first == h
    ensures KeepFirst(s, h) == s
  {
    if s != [] {
      KeepFirstAll(s[1..], h);
      assert s == [s[0]] + s[1..];
    }
  }

  /** The first `k` entries of `s` have first key `h` and the rest a
      smaller one. */
  predicate TopRun<T>(s: seq<Keyed<T>>, h: int, k: int)
    requires 0 <= k <= |s|
  {
    (forall i :: 0 <= i < k ==> s[i].key.first == h) &&
    (forall i :: k <= i < |s| ==> s[i].key.first < h)
  }

  /** In a sorted list whose first keys are at most `h`, the entries with
      first key `h` are a prefix, and every later entry has a smaller
      first key. */
  lemma {:induction false} TopRunIsPrefix<T>(s: seq<Keyed<T>>, h: int)
    requires SortedByKey(s)
    requires forall i :: 0 <= i < |s| ==> s[i].key.first <= h
    ensures var k := |KeepFirst(s, h)|;
      k <= |s| && KeepFirst(s, h) == s[..k] && TopRun(s, h, k)
  {
    if s != [] {
      if s[0].key.first == h {
        var tail := s[1..];
        assert SortedByKey(tail) by {
          forall i, j | 0 <= i < j < |tail|
            ensures KeyLe(tail[i].key, tail[j].key)
          {
            assert tail[i] == s[i + 1] && tail[j] == s[j + 1];
          }
        }
        TopRunIsPrefix(tail, h);
        TopRunCons(s, h);
      } else {
        BelowHead(s, h);
        KeepFirstNone(s, h);
      }
    }
  }

  /** A top run of the tail, behind a head with first key `h`, is a top
      run of the whole list. */
  lemma TopRunCons<T>(s: seq<Keyed<T>>, h: int)
    requires s != [] && s[0].key.first == h
    requires var k := |KeepFirst(s[1..], h)|;
      k <= |s| - 1 && KeepFirst(s[1..], h) == s[1..][..k] && TopRun(s[1..], h, k)
    ensures var k := |KeepFirst(s, h)|;
      k <= |s| && KeepFirst(s, h) == s[..k] && TopRun(s, h, k)
  {
    var tail := s[1..];
    var k := |KeepFirst(tail, h)|;
    assert KeepFirst(s, h) == [s[0]] + KeepFirst(tail, h);
    ConsPrefix(s, k);
    forall i | 0 <= i < k + 1
      ensures s[i].key.first == h
    {
      if i > 0 {
        assert s[i] == tail[i - 1];
      }
    }
    forall i | k + 1 <= i < |s|
      ensures s[i].key.first < h
    {
      assert s[i] == tail[i - 1];
    }
  }

  lemma ConsPrefix<T>(s: seq<T>, k: nat)
    requires k < |s|
    ensures [s[0]] + s[1..][..k] == s[..k + 1]
  {
  }

  /** When the head of a sorted list falls short of the bound `h`, every
      entry does. */
  lemma BelowHead<T>(s: seq<Keyed<T>>, h: int)
    requires SortedByKey(s) && s != [] && s[0].key.first < h
    ensures forall i :: 0 <= i < |s| ==> s[i].key.first != h
  {
    forall i | 0 < i < |s|
      ensures s[i].key.first < h
    {
      assert KeyLe(s[0].key, s[i].key);
    }
  }

  /** An entry left out of a prefix of a sorted list comes no earlier
      than the prefix's last entry. */
  lemma TakeOmitsNoBetter<T>(s: seq<Keyed<T>>, n: int, x: Keyed<T>)
    requires SortedByKey(s) && x in s && 0 < n <= |s|
    ensures x in s[..n] || KeyLe(s[n - 1].key, x.key)
  {
    var t :| 0 <= t < |s| && s[t] == x;
    if t < n {
      assert s[..n][t] == x;
    }
  }

  /** An entry with a positive first key either makes the first `n` of the
      sorted positive entries, or those are `n` entries and the last of
      them comes no later than it. */
  lemma ShownOrOutranked<T>(s: seq<Keyed<T>>, n: nat, x: Keyed<T>)
    requires x in s && x.key.first > 0 && n > 0
    ensures var sorted := SortByKey(KeepPositive(s));
      var r := sorted[..if |sorted| < n then |sorted| else n];
      x in r || (|r| == n && KeyLe(r[n - 1].key, x.key))
  {
    var sorted := SortByKey(KeepPositive(s));
    assert x in multiset(sorted);
    if |sorted| > n {
      TakeOmitsNoBetter(sorted, n, x);
    } else {
      assert sorted[..|sorted|] == sorted;
    }
  }

  /** A prefix takes no more copies of an entry than the whole list has. */
  lemma PrefixMultiset<T>(s: seq<T>, n: nat)
    requires n <= |s|
    ensures multiset(s[..n]) <= multiset(s)
  {
    assert s == s[..n] + s[n..];
  }

  /** In a list without repeated entries, no entry occurs twice. */
  lemma {:induction false} NoRepeatsOnce<T>(s: seq<T>, x: T)
    requires forall i, j :: 0 <= i < j < |s| ==> s[i] != s[j]
    ensures multiset(s)[x] <= 1
  {
    if s != [] {
      var init := s[..|s| - 1];
      assert s == init + [s[|s| - 1]];
      NoRepeatsOnce(init, x);
      if x == s[|s| - 1] {
        assert x !in init;
      }
    }
  }

  /** An entry at two positions occurs at least twice. */
  lemma TwiceAtTwo<T>(s: seq<T>, i: nat, j: nat)
    requires i < j < |s| && s[i] == s[j]
    ensures multiset(s)[s[i]] >= 2
  {
    assert s == s[..j] + [s[j]] + s[j + 1..];
    assert s[..j][i] == s[i];
  }

  /** The first `n` entries in key order: `min(n, |s|)` of them, sorted,
      and taken from `s`. */
  lemma SortedPrefix<T>(s: seq<Keyed<T>>, n: nat)
    ensures var sorted := SortByKey(s);
      var r := sorted[..if |sorted| < n then |sorted| else n];
      |r| == (if |s| < n then |s| else n) && SortedByKey(r) && multiset(r) <= multiset(s)
  {
    var sorted := SortByKey(s);
    assert |multiset(sorted)| == |multiset(s)|;
    PrefixMultiset(sorted, if |sorted| < n then |sorted| else n);
  }

  /** Part of a list without repeated entries has none either. */
  lemma NoRepeatsInPart<T>(s: seq<T>, r: seq<T>)
    requires forall i, j :: 0 <= i < j < |s| ==> s[i] != s[j]
    requires multiset(r) <= multiset(s)
    ensures forall i, j :: 0 <= i < j < |r| ==> r[i] != r[j]
  {
    forall i, j | 0 <= i < j < |r|
      ensures r[i] != r[j]
    {
      if r[i] == r[j] {
        TwiceAtTwo(r, i, j);
        NoRepeatsOnce(s, r[i]);
        assert false;
      }
    }
  }
}

=== FILE: text.dfy ===
/** String helpers with the semantics of the JavaScript built-ins the
    decision helper uses: `trim`, `slice(0, n)`, `toLocaleLowerCase` and
    number-to-string conversion. */
module Text {

  /** The characters `String.prototype.trim` removes: white space and
      line terminators. */
  predicate IsSpace(c: char) {
    var n := c as int;
    n == 0x09 || n == 0x0A || n == 0x0B || n == 0x0C || n == 0x0D || n == 0x20 ||
    n == 0xA0 || n == 0x1680 || (0x2000 <= n <= 0x200A) || n == 0x2028 || n == 0x2029 ||
    n == 0x202F || n == 0x205F || n == 0x3000 || n == 0xFEFF
  }

  function TrimStart(s: string): (r: string)
    ensures |r| <= |s|
    ensures r == [] || !IsSpace(r[0])
  {
    if |s| > 0 && IsSpace(s[0]) then TrimStart(s[1..]) else s
  }

  function TrimEnd(s: string): (r: string)
    ensures |r| <= |s|
    ensures r == [] || !IsSpace(r[|r| - 1])
  {
    if |s| > 0 && IsSpace(s[|s| - 1]) then TrimEnd(s[..|s| - 1]) else s
  }

  /** `TrimStart` removes a prefix. */
  lemma {:induction false} TrimStartIsSuffix(s: string)
    ensures TrimStart(s) == s[|s| - |TrimStart(s)|..]
  {
    if |s| > 0 && IsSpace(s[0]) {
      TrimStartIsSuffix(s[1..]);
    }
  }

  /** `TrimEnd` removes a suffix. */
  lemma {:induction false} TrimEndIsPrefix(s: string)
    ensures TrimEnd(s) == s[..|TrimEnd(s)|]
  {
    if |s| > 0 && IsSpace(s[|s| - 1]) {
      TrimEndIsPrefix(s[..|s| - 1]);
    }
  }

  /** `s` without its leading and trailing white space. */
  function Trim(s: string): string {
    TrimEnd(TrimStart(s))
  }

  /** A string that `trim` leaves as it is. */
  predicate IsTrimmed(s: string) {
    s == [] || (!IsSpace(s[0]) && !IsSpace(s[|s| - 1]))
  }

  lemma TrimmedIsFixed(s: string)
    requires IsTrimmed(s)
    ensures Trim(s) == s
  {
  }

  lemma TrimIsTrimmed(s: string)
    ensures IsTrimmed(Trim(s))
  {
    var t := TrimStart(s);
    var r := TrimEnd(t);
    TrimEndIsPrefix(t);
    if r != [] {
      assert r[0] == t[0];
    }
  }

  /** Trimming twice is trimming once. */
  lemma TrimIdempotent(s: string)
    ensures Trim(Trim(s)) == Trim(s)
  {
    TrimIsTrimmed(s);
    TrimmedIsFixed(Trim(s));
  }

  /** The first `n` characters of `s` (all of it when shorter). */
  function Take(s: string, n: nat): (r: string)
    ensures |r| <= n && |r| <= |s| && r == s[..|r|]
    ensures |s| <= n ==> r == s
    ensures |s| > n ==> r == s[..n]
  {
    if |s| <= n then s else s[..n]
  }

  /** The prefix of `s` up to `end` for any integer `end`: a negative end counts from
      the end of the string. */
  function SliceTo(s: string, end: int): (r: string)
    ensures |r| <= |s| && r == s[..|r|]
    ensures 0 <= end ==> |r| <= end
  {
    if 0 <= end then Take(s, end)
    else if |s| + end <= 0 then []
    else s[..|s| + end]
  }

  /** `toLocaleLowerCase`, on the ASCII letters. */
  function LowerChar(c: char): char {
    if 'A' <= c <= 'Z' then (c as int + 32) as char else c
  }

  function Lower(s: string): (r: string)
    ensures |r| == |s|
  {
    seq(|s|, i requires 0 <= i < |s| => LowerChar(s[i]))
  }

  lemma LowerAppend(a: string, b: string)
    ensures Lower(a + b) == Lower(a) + Lower(b)
  {
    assert forall i :: 0 <= i < |a + b| ==> Lower(a + b)[i] == (Lower(a) + Lower(b))[i];
  }

  predicate IsDigit(c: char) {
    '0' <= c <= '9'
  }

  predicate AllDigits(s: string) {
    forall i :: 0 <= i < |s| ==> IsDigit(s[i])
  }

  function DigitChar(d: nat): (c: char)
    requires d < 10
    ensures IsDigit(c)
  {
    ('0' as int + d) as char
  }

  /** The decimal text of a natural number, as `${n}` renders it. */
  function NatStr(n: nat): (r: string)
    ensures |r| > 0 && AllDigits(r)
  {
    if n < 10 then [DigitChar(n)] else NatStr(n / 10) + [DigitChar(n % 10)]
  }

  /** Distinct numbers have distinct decimal texts. */
  lemma {:induction false} NatStrInjective(a: nat, b: nat)
    ensures NatStr(a) == NatStr(b) ==> a == b
  {
    if a < 10 && b < 10 {
    } else if a < 10 {
      assert |NatStr(b)| >= 2;
    } else if b < 10 {
      assert |NatStr(a)| >= 2;
    } else {
      var sa, sb := NatStr(a), NatStr(b);
      assert sa[..|sa| - 1] == NatStr(a / 10);
      assert sb[..|sb| - 1] == NatStr(b / 10);
      NatStrInjective(a / 10, b / 10);
      if sa == sb {
        assert DigitChar(a % 10) == sa[|sa| - 1] == DigitChar(b % 10);
      }
    }
  }

  /** A number below 100 has at most two digits. */
  lemma NatStrShort(n: nat)
    requires n < 100
    ensures |NatStr(n)| <= 2
  {
    if n >= 10 {
      assert NatStr(n) == NatStr(n / 10) + [DigitChar(n % 10)];
    }
  }

  predicate StartsWith(s: string, prefix: string) {
    |prefix| <= |s| && s[..|prefix|] == prefix
  }

  predicate EndsWith(s: string, suffix: string) {
    |suffix| <= |s| && s[|s| - |suffix|..] == suffix
  }

  /** A text that ends in "(" + digits + ")" determines the digits: the
      digit run before the closing parenthesis is read back unambiguously. */
  lemma ParenDigitsDetermined(s: string, d: string, e: string)
    requires |d| > 0 && |e| > 0 && AllDigits(d) && AllDigits(e)
    ensures EndsWith(s, "(" + d + ")") && EndsWith(s, "(" + e + ")") ==> d == e
  {
    var n := |s|;
    if |d| < |e| {
      NotBothParenDigits(s, d, e);
    } else if |e| < |d| {
      NotBothParenDigits(s, e, d);
    } else if EndsWith(s, "(" + d + ")") && EndsWith(s, "(" + e + ")") {
      assert forall i :: 0 <= i < |d| ==> d[i] == s[n - |d| - 1 + i] == e[i];
    }
  }

  lemma NotBothParenDigits(s: string, d: string, e: string)
    requires |d| < |e| && AllDigits(e)
    ensures !(EndsWith(s, "(" + d + ")") && EndsWith(s, "(" + e + ")"))
  {
    var a, b := "(" + d + ")", "(" + e + ")";
    var n := |s|;
    if EndsWith(s, a) && |b| <= n {
      assert s[n - |b|..][|e| - |d|] == s[n - |d| - 2] == '(';
      assert b[|e| - |d|] == e[|e| - |d| - 1];
      assert s[n - |b|..] != b;
    }
  }

  /** Lowering keeps a suffix made of digits and parentheses. */
  lemma LowerKeepsParenDigits(s: string, d: string)
    requires AllDigits(d) && EndsWith(s, "(" + d + ")")
    ensures EndsWith(Lower(s), "(" + d + ")")
  {
    var t := "(" + d + ")";
    var n := |s|;
    forall i | 0 <= i < |t|
      ensures Lower(s)[n - |t| + i] == t[i]
    {
      assert s[n - |t| + i] == t[i];
    }
    assert Lower(s)[n - |t|..] == t;
  }

  /** Trimming a text that ends in "(" + digits + ")" keeps that ending. */
  lemma {:induction false} TrimKeepsParenDigits(s: string, d: string)
    requires AllDigits(d) && EndsWith(s, "(" + d + ")")
    ensures EndsWith(Trim(s), "(" + d + ")")
  {
    var t := "(" + d + ")";
    TrimStartKeepsSuffix(s, t);
    var u := TrimStart(s);
    assert u[|u| - 1] == ')';
    assert TrimEnd(u) == u;
  }

  lemma {:induction false} TrimStartKeepsSuffix(s: string, t: string)
    requires |t| > 0 && !IsSpace(t[0]) && EndsWith(s, t)
    ensures EndsWith(TrimStart(s), t)
  {
    if |s| > 0 && IsSpace(s[0]) {
      assert s[|s| - |t|] == t[0];
      assert s[1..][|s| - 1 - |t|..] == s[|s| - |t|..];
      TrimStartKeepsSuffix(s[1..], t);
    }
  }
}

=== FILE: wrappers.dfy ===
/** The optional value used for lookups and parses that may find nothing. */
module Wrappers {
  datatype Maybe<+T> = None | Some(value: T)
}
